=== FILE: README.md ===
# Quinoa AMR bookkeeping and Partitioner renumbering, in Dafny

This project models two pieces of Quinoa's `inciter` and proves properties of
them.

**The AMR bookkeeping** (`src/Inciter/AMR`) is the state behind mesh
refinement and derefinement:

- the edge store maps a canonical node pair to an `Edge_Refinement` record: the
  criterion, the refine and derefine flags, and the lock case;
- the master element store maps a tet id to its `Refinement_State`: the case,
  level, parent, children and child count;
- the tet store combines these with the tet map, the active set, the 1:4
  centre list and the pending refinement marks;
- the derefinement transitions erase a parent's children, reactivate the
  parent and delete the edges refinement added;
- the mesh adapter reads the initial tets and drives the two-pass
  `perform_refinement`.

Every store is an immutable Dafny `map` or `set`. Every operation is a pure
function from the old store to the new one, and its contract says what changes
and that nothing else does. A C++ `assert` on the caller's data becomes a
`requires`. A failure inside the driver becomes an `Err` of the `Result` type:
a bad child count, a missing record, or a transition that is `assert(0)`.

**The Partitioner renumbering** (`src/Inciter/Partitioner.h`) gives every mesh
node, and every edge that initial refinement splits, a new global id. The
message passing is replaced by functions over the per-PE data (`PeData`, one
per PE). Each step is modelled on one PE and then for all PEs at once:

- `readGraph` hands each PE a chunk of elements;
- `chareDistribution` and `pe` give each PE its chares;
- `chareNodes` and `distribute` send each chare's nodes to the PE that owns it;
- `flatten` builds the PE's node and edge sets;
- `query` and `mask` build the chare-adjacency maps `m_msum`/`m_msumed` and the
  communication maps;
- the lowest-PE-wins deduplication and `nuniq` follow;
- `offset`, `reorder`, `prepare` and `neworder` assign and exchange the ids;
- `bounds` and `lower` set the row bounds.

The main theorem is a statement about the whole machine (`Renumbering.Machine`):

- each PE numbers exactly the ids it holds and no lower PE holds;
- it numbers them consecutively from its start offset, nodes first and in
  ascending order;
- the PE ranges tile `[0, total)`;
- after the exchange every PE holds the one final id of each of its nodes and
  edges.

Hash-map and hash-set walk orders and message arrival orders are parameters.
For `mask` and `offset` the model proves that the result does not depend on
them.

## Model

| member | source | states |
|---|---|---|
| EdgeStore.NodesToKey | src/Inciter/AMR/edge_store.h:112-115 | The key puts the smaller node first and names exactly the unordered pair {A, B}. |
| EdgeStore.KeySymmetric | src/Inciter/AMR/edge_store.h:112-115 | nodes_to_key(A, B) and nodes_to_key(B, A) are the same key. |
| EdgeStore.KeyIdentifiesPair | src/Inciter/AMR/edge_store.h:112-115 | Two node pairs share a key if and only if they are the same unordered pair. |
| EdgeStore.Add | src/Inciter/AMR/edge_store.h:97-106 | Map-insert semantics: a stored edge is never overwritten, an absent key gets the new edge, and every other key keeps its edge. |
| EdgeStore.AddIdempotent | src/Inciter/AMR/edge_store.h:97-106 | A second add under a key already present leaves the store unchanged. |
| EdgeStore.Generate | src/Inciter/AMR/edge_store.h:44-54 | Needs A ≠ B. Afterwards key(A, B) is stored, a new edge is fresh with the given lock case, and nothing else changes. |
| EdgeStore.GenerateFresh | src/Inciter/AMR/edge_store.h:44-54 | A newly generated edge has criterion 0, all three flags clear and the lock case asked for. |
| EdgeStore.Split | src/Inciter/AMR/edge_store.h:24-35 | Both halves A-AB and B-AB exist afterwards, edge A-B is present exactly when it was before, and stored edges are untouched. |
| EdgeStore.Erase | src/Inciter/AMR/edge_store.h:84-87 | Only the given key is removed; erasing an absent key is a no-op. |
| EdgeStore.EraseUndoesAdd | src/Inciter/AMR/edge_store.h:84-106 | Adding a fresh key and then erasing it restores the original store. |
| EdgeStore.MarkForRefinement | src/Inciter/AMR/edge_store.h:173-177 | Needs a stored key. Sets needs_refining on that edge; its nodes, criterion, derefine flag, dead flag and lock case stay, and so do all other edges. |
| EdgeStore.UnmarkForRefinement | src/Inciter/AMR/edge_store.h:184-188 | Needs a stored key. Clears needs_refining on that edge; every other field of it and every other edge stay. |
| EdgeStore.MarkUnmarkRoundTrip | src/Inciter/AMR/edge_store.h:173-188 | Unmarking right after marking an unmarked edge restores the store. |
| EdgeStore.MarkEdgeForDerefinement | src/Inciter/AMR/edge_store.h:200-202 | Needs a stored key (get asserts it). Sets needs_derefining on that edge; every other field of it and every other edge stay. |
| EdgeStore.DerefinementMarkIdempotent | src/Inciter/AMR/edge_store.h:173-202 | Marking an edge for derefinement twice is marking it once, and the refine and derefine marks commute. |
| EdgeStore.MarkEdgesForRefinement | src/Inciter/AMR/edge_store.h:154-163 | Every listed pair must be stored. Exactly the listed keys get needs_refining set; no other edge changes. |
| EdgeStore.MarkEdgesForDerefinement | src/Inciter/AMR/edge_store.h:191-199 | Every listed pair must be stored. Exactly the listed keys get needs_derefining set; no other edge changes. |
| EdgeStore.TetEdgeTable | src/Inciter/AMR/edge_store.h:214-246 | The position table behind AB, AC, AD, BC, BD, CD lists each node pair i < j once, in lexicographic order. |
| EdgeStore.GenerateKeys | src/Inciter/AMR/edge_store.h:214-246 | Returns six keys, which are AB, AC, AD, BC, BD, CD of the tet in that order. |
| EdgeStore.GenerateKeysArePairs | src/Inciter/AMR/edge_store.h:214-246 | Every pair of the tet's nodes has its key among the six, and every key among them is such a pair. |
| EdgeStore.GenerateKeysDistinct | src/Inciter/AMR/edge_store.h:214-246 | A tet with four distinct nodes has six distinct edge keys. |
| EdgeStore.GenerateKeysFromFaceIds | src/Inciter/AMR/edge_store.h:129-146 | Returns three keys, AB, AC and BC of the face, in that order. |
| MasterElementStore.Add | src/Inciter/AMR/master_element_store.h:25-43 | Returns the element id. A new id gets a childless record with the given case, level and parent; an existing record is never replaced. |
| MasterElementStore.AddRoot | src/Inciter/AMR/master_element_store.h:55-62 | A new element gets the full root record: its own id, the given case, level 0, parent 0, no children and count 0. |
| MasterElementStore.AddChild | src/Inciter/AMR/master_element_store.h:75-91 | Needs a stored parent. The new element's record has its own id, the given case, the level one below the parent, the parent's id, no children and count 0. |
| MasterElementStore.GetParent | src/Inciter/AMR/master_element_store.h:110-113 | Needs a stored id. Returns the parent id recorded for it. |
| MasterElementStore.Erase | src/Inciter/AMR/master_element_store.h:106-108 | Only that id is removed; the other records are unchanged. |
| MasterElementStore.EraseSize | src/Inciter/AMR/master_element_store.h:106-122 | Erasing a stored id lowers size() by one; erasing an absent id leaves it unchanged. |
| MasterElementStore.EraseUndoesAdd | src/Inciter/AMR/master_element_store.h:25-108 | Adding a new element and then erasing it restores the store. |
| MasterElementStore.AddChildThenGetParent | src/Inciter/AMR/master_element_store.h:75-113 | A child added under a stored parent reports that parent and sits one level below it. |
| TetStore.Insert | src/Inciter/AMR/tet_store.h:73-90 | Needs an absent id. Afterwards get returns the inserted tet and nothing but the tet map changes. |
| TetStore.StoreTet | src/Inciter/AMR/tet_store.h:117-129 | Insert with the four node ids pairwise distinct. |
| TetStore.Add | src/Inciter/AMR/tet_store.h:180-202 | The tet is stored and active. A new master record has level 0 and parent 0. Edges, centres and marks are unchanged. |
| TetStore.AddChild | src/Inciter/AMR/tet_store.h:151-170 | As written: the child goes in as a root, with its own id, the given case, level 0, parent 0 and no children. It is appended to the parent's children, and the count grows by one and stays at most 8. The parent keeps its element id, case, level and parent. Only the child joins the tets, the records and the active set; edges, centres and marks are unchanged. |
| TetStore.AddChildLosesLevel | src/Inciter/AMR/tet_store.h:151-189 | The as-written add records a child at level 0 with parent 0, never at its parent's level + 1. |
| TetStore.AddChildAtLevel | src/Inciter/AMR/tet_store.h:151-170 | Corrected: the new child's record has its own id, the given case, the parent's level before the call plus one, the parent's id, and no children. The parent's child list and count grow by that child. The rest of the store changes as in AddChild. |
| TetStore.AddChildVariantsDifferInLineage | src/Inciter/AMR/tet_store.h:151-189 | The as-written and the corrected add agree on everything except the new child's level and parent. |
| TetStore.Deactivate | src/Inciter/AMR/tet_store.h:243-247 | Only active-set membership of the id is removed. |
| TetStore.Activate | src/Inciter/AMR/tet_store.h:249-254 | The id is active afterwards and nothing else changes. |
| TetStore.ActivateIdempotent | src/Inciter/AMR/tet_store.h:243-254 | Activating twice is activating once. A deactivated tet keeps its tet data and master record. |
| TetStore.DeactivateActivateRoundTrip | src/Inciter/AMR/tet_store.h:243-254 | Deactivating and then reactivating an active tet restores the store. |
| TetStore.Erase | src/Inciter/AMR/tet_store.h:223-236 | The id leaves the active set, the master store and the tet map. The edge store, the other records and the parent's child list are unchanged. |
| TetStore.EraseUndoesAdd | src/Inciter/AMR/tet_store.h:180-236 | Erasing a tet just added under an unknown id restores the store. |
| TetStore.AddCenter | src/Inciter/AMR/tet_store.h:263-283 | Needs a tet that is not a centre yet. Afterwards it is a centre and nothing else changes. |
| TetStore.GenerateEdgeKeys | src/Inciter/AMR/tet_store.h:529-533 | Returns six keys: the keys of node pairs AB, AC, AD, BC, BD and CD of the stored tet, in that order. |
| TetStore.GenerateEdgeKeysArePairs | src/Inciter/AMR/tet_store.h:529-533 | A key is among the tet's edge keys if and only if it joins two different nodes of the tet. |
| TetStore.GenerateFaceLists | src/Inciter/AMR/tet_store.h:579-614 | Returns four faces, ABC, ABD, ACD and BCD; face k leaves out node 3 - k. |
| TetStore.FaceEdgesAreTetEdges | src/Inciter/AMR/tet_store.h:579-614 | Every edge of every face of a tet is one of the tet's six edges. |
| TetStore.AddUnlocked | src/Inciter/AMR/tet_store.h:541-553 | Every listed key is stored afterwards. Keys already present keep their edges; new keys get an unlocked edge with flags clear. |
| TetStore.GenerateEdgesOf | src/Inciter/AMR/tet_store.h:535-554 | The tet's six keys are added unlocked; the edges already stored are kept. |
| TetStore.GenerateEdges | src/Inciter/AMR/tet_store.h:637-649 | Afterwards the edge store holds exactly the edge keys of the stored tets, each unlocked with criterion 0 and flags clear; nothing else changes. |
| TetStore.MarkEdgesForRefinement | src/Inciter/AMR/tet_store.h:622-631 | Each of the tet's six edges must be stored. Each gets needs_refining set and keeps all its other fields; no other edge changes. |
| TetStore.MarkEdgesForRefinementIdempotent | src/Inciter/AMR/tet_store.h:622-631 | Marking a tet's edges twice is marking them once. |
| TetStore.Mark | src/Inciter/AMR/tet_store.h:411-463 | The tet gets a pending decision with the given case; other decisions are unchanged. |
| TetStore.UnsetMarkedChildren | src/Inciter/AMR/tet_store.h:651-658 | None of the parent's children has a pending decision afterwards; every other decision is kept. |
| Derefinement.WrapSub | src/Inciter/AMR/derefinement.h:35-41 | Decrementing the size_t child count k times is exact down to zero and wraps modulo 2^64 below it. |
| Derefinement.DerefineChildren | src/Inciter/AMR/derefinement.h:31-43 | Every listed child leaves the tet map, the master store and the active set. The parent's list is emptied and its count lowered once per listed child. |
| Derefinement.DerefineChildrenZeroesCount | src/Inciter/AMR/derefinement.h:31-43 | When the count matches the child list it ends at 0, and no child is stored or active. |
| Derefinement.GenericDerefine | src/Inciter/AMR/derefinement.h:51-55 | The children are gone, the parent is active with no children, every other record is kept, and the edges are untouched. |
| Derefinement.DeleteIntermediateKeys | src/Inciter/AMR/derefinement.h:124-134 | Exactly the listed keys stored with the intermediate lock case are erased; missing keys are tolerated. |
| Derefinement.DeleteIntermediates | src/Inciter/AMR/derefinement.h:121-135 | Exactly those of the tet's six edges that are stored and intermediate are erased. |
| Derefinement.DeleteIntermediatesOfChildren | src/Inciter/AMR/derefinement.h:111-118 | Exactly the intermediate edges of the parent's children are erased; every other part of the store is unchanged. |
| Derefinement.NoIntermediateChildEdgeRemains | src/Inciter/AMR/derefinement.h:111-135 | Afterwards no stored edge of any child is intermediate. |
| Derefinement.DeleteNonMatchingEdges | src/Inciter/AMR/derefinement.h:144-173 | Exactly the candidate keys missing from the basis are erased; no basis key is ever erased. |
| Derefinement.CheckAllowedDerefinement | src/Inciter/AMR/derefinement.h:184-197 | A tet may be derefined if and only if its level is above MIN_REFINEMENT_LEVEL (0). |
| Derefinement.DerefineToOne | src/Inciter/AMR/derefinement.h:58-69 | The children's intermediate edges and then the children are removed, and the parent is active again. Every other record and every surviving edge is kept; centres and marks are unchanged. |
| Derefinement.DerefineEightToOneAsWritten | src/Inciter/AMR/derefinement.h:72-86 | As written the edge store comes out unchanged: the loop runs after generic_derefine has emptied the child list. The children still leave the tets, the records and the active set, and the parent is active with no children. |
| Derefinement.DeleteForChildren | src/Inciter/AMR/derefinement.h:80-85 | Each listed child's keys that are not parent keys are erased, and nothing else. |
| Derefinement.DerefineEightToOne | src/Inciter/AMR/derefinement.h:72-86 | Corrected: the children's edges that are not edges of the parent are erased. Then the children leave the tet map, the master store and the active set, and the parent is active with no children. Other records, the surviving edges, centres and marks are kept. |
| Derefinement.EightToOneKeepsCentreEdges | src/Inciter/AMR/derefinement.h:72-86 | A child edge that is not a parent edge survives the as-written 8:1 derefinement but not the corrected one. |
| Derefinement.Derefine | src/Inciter/AMR/derefinement.h:58-104 | 2:1, 4:1 and 8:1 succeed and leave the parent active with no children, its children erased from tets, records and the active set, and every other record, surviving edge, centre and mark kept; 8:1 runs the corrected variant (see Findings). 4:2, 8:2 and 8:4 always fail as unsupported. |
| MeshAdapter.ConsumeTets | src/Inciter/AMR/mesh_adapter.h:63-77 | Takes four connectivity entries per generated id, the ids fresh and distinct. Group j becomes an active initial_grid root tet (level 0, parent 0) under id j, and nothing else changes. |
| MeshAdapter.Init | src/Inciter/AMR/mesh_adapter.h:50-58 | Every tet is an active level-0 initial_grid root (parent 0, no children). The edge store holds exactly the tets' edges, all unlocked. |
| MeshAdapter.SetCriteria | src/Inciter/AMR/mesh_adapter.h:81-83 | Every edge's criterion becomes the value given; no other field and no key changes. |
| MeshAdapter.Visit | src/Inciter/AMR/mesh_adapter.h:104-134 | The tet's mark is dropped. Only a 1:2, 1:4 or 1:8 mark reaches the refiner; any other mark changes nothing but the marks. Only a 2:8 or 4:8 mark adds the parent to round two. An unmarked tet is left alone. |
| MeshAdapter.PassOne | src/Inciter/AMR/mesh_adapter.h:99-135 | Every visited mark is dropped. Round two gets exactly the parents of the tets marked 2:8 or 4:8. When no visited mark is 1:2, 1:4 or 1:8, only the marks change. With no marks nothing happens. |
| MeshAdapter.RoundTwoIsPromotedParents | src/Inciter/AMR/mesh_adapter.h:99-135 | An id is in round two if and only if it is get_parent_id of some stored tet marked 2:8 or 4:8. |
| MeshAdapter.RefineParentToEight | src/Inciter/AMR/mesh_adapter.h:137-160 | It succeeds if and only if the record exists, the child count is 2 or 4, the parent is not among its own children and the children are stored. Then the parent is one_to_eight and its children have no marks. A missing record or any other count is an error, and a missing-tet error names one of the parent's children that has no stored tet. |
| MeshAdapter.PassTwo | src/Inciter/AMR/mesh_adapter.h:137-160 | With no parents collected it changes nothing. A missing record, a bad child count (reported) or a self-listed parent names a collected parent. Marks are only ever removed. |
| MeshAdapter.RefineParentKeepsOthers | src/Inciter/AMR/mesh_adapter.h:137-160 | One parent's step keeps the record of every other stored tet that is not one of its children. |
| MeshAdapter.PassTwoKeeps | src/Inciter/AMR/mesh_adapter.h:137-160 | With no collected parent nested under another, the pass keeps the record of every stored tet that is neither a collected parent nor a child of one. |
| MeshAdapter.PassTwoRefinesEveryParent | src/Inciter/AMR/mesh_adapter.h:137-160 | With no collected parent nested under another, a successful pass leaves every collected parent one_to_eight, and none of its children has a pending mark. |
| MeshAdapter.PerformRefinement | src/Inciter/AMR/mesh_adapter.h:91-179 | On success no tet stored at the start keeps a pending mark, and no mark is ever added. |
| MeshAdapter.NoMarksNoRefinement | src/Inciter/AMR/mesh_adapter.h:91-160 | With no pending marks perform_refinement leaves the store unchanged. |
| MeshAdapter.UniformRefinement | src/Inciter/AMR/mesh_adapter.h:79-85 | Sets every criterion and runs perform_refinement; on success no original tet keeps a mark. |
| MeshAdapter.UniformRefinementWithoutMarks | src/Inciter/AMR/mesh_adapter.h:79-85 | Without marks, uniform refinement succeeds and returns the store with every edge criterion set to 1.0 and nothing else changed. |
| Distribution.ChareDistribution | src/Inciter/Partitioner.h:780-785 | The chunk is the largest count that fits npes times. Every PE but the last owns a chunk, and the last owns the rest, so the counts add up to nchare. |
| Distribution.ElementRange | src/Inciter/Partitioner.h:644-649 | PE mype's range is the block of its share; ElementRangeBounds and ElementRangesTile state where the blocks lie. |
| Distribution.GlobalElementIds | src/Inciter/Partitioner.h:651-652 | One global id per element read, all below nel, each one more than the one before. |
| Distribution.SharesTile | src/Inciter/Partitioner.h:644-649 | The shares are laid out back to back: PE k starts where the PEs below it end, and all shares add up to the total. |
| Distribution.ElementRangesTile | src/Inciter/Partitioner.h:644-649 | The first range starts at 0, consecutive ranges meet, and the last ends at nel. |
| Distribution.ElementRangeBounds | src/Inciter/Partitioner.h:644-649 | Each PE reads inside [0, nel). The last PE reads up to nel, and every other PE reads the largest count that fits npes times into nel. |
| Distribution.GlobalElementIdsPartition | src/Inciter/Partitioner.h:644-652 | Every element id below nel is read by exactly one PE. |
| Distribution.Pe | src/Inciter/Partitioner.h:851-857 | Needs nchare ≥ npes, so that the chunk is positive. Returns a PE below npes. |
| Distribution.PeBlock | src/Inciter/Partitioner.h:851-857 | A chare of a PE below the last lies in that PE's chunk; the last PE also takes every id past the last full chunk. |
| Distribution.PeOwnsHeldChares | src/Inciter/Partitioner.h:851-857 | For a chare id below nchare, pe returns k if and only if chareDistribution gives PE k that chare. |
| ChareGraph.GroupNodesMembers | src/Inciter/Partitioner.h:711-715 | A node is in chare c's list if and only if some element of chare c has that node. |
| ChareGraph.Occurrence | src/Inciter/Partitioner.h:711-715 | The index of the j-th element of chare c, in element order. |
| ChareGraph.GroupNodesBlocks | src/Inciter/Partitioner.h:711-715 | Block j (four entries) of chare c's list is the connectivity of chare c's j-th element. |
| ChareGraph.ChareNodes | src/Inciter/Partitioner.h:704-736 | Keys are exactly the chares that appear. Chare c's list has four entries per element of c, and its j-th block of four is the connectivity of c's j-th element, in element order. Thus no list is empty and the overdecomposition check passes. |
| ChareGraph.Distribute | src/Inciter/Partitioner.h:742-768 | The owned chares stay. Every other chare is exported, to exactly the PE that pe() names, and no export group is empty. |
| ChareGraph.DistributeNeverExportsToSelf | src/Inciter/Partitioner.h:742-768 | A PE never exports a chare to itself. |
| ChareGraph.Flatten | src/Inciter/Partitioner.h:293-328 | The node and edge sets are exactly what the owned chares touch. Each node and edge maps to exactly the chares touching it, and no list is empty. |
| ChareGraph.Query | src/Inciter/Partitioner.h:365-388 | The answer holds exactly the queried ids the PE has, each with its own non-empty chare list. |
| Mask.AddAnswer | src/Inciter/Partitioner.h:407-414 | One answer adds (c, s, h) exactly when own chare c touches answered id h and the answer lists chare s ≠ c for h. |
| Mask.Receive | src/Inciter/Partitioner.h:401-437 | An answer from a lower PE extends that PE's entries by the answered ids. An answer from any other PE leaves the communication maps alone. No inner border set m_msum[c][s] is ever empty; the outer m_msum[c] is created for each own chare touching an answered id even when it receives nothing, as the source does. |
| Mask.ReceiveNodeBorders | src/Inciter/Partitioner.h:407-414 | m_msum grows by exactly the chare pairs the answer reports for nodes that own chares touch, never pairing a chare with itself. |
| Mask.ReceiveEdgeBorders | src/Inciter/Partitioner.h:417-424 | m_msumed grows in the same way for edges. |
| Mask.ReceiveAllKeys | src/Inciter/Partitioner.h:432-437 | m_ncomm and m_ecomm have entries for exactly the lower PEs that have answered. |
| Mask.ReceiveAllNodeBorders | src/Inciter/Partitioner.h:407-414 | After any answers, m_msum[c][s] holds h if and only if some answer listed chare s ≠ c for h and own chare c touches h. |
| Mask.ReceiveAllEdgeBorders | src/Inciter/Partitioner.h:417-424 | The same for m_msumed and edges. |
| Mask.ReceiveAllNodeComm | src/Inciter/Partitioner.h:432-434 | m_ncomm[p] holds exactly the node ids lower PE p answered with. |
| Mask.ReceiveAllEdgeComm | src/Inciter/Partitioner.h:435-436 | m_ecomm[p] holds exactly the edges lower PE p answered with. |
| Mask.CommMapSize | src/Inciter/Partitioner.h:438-447 | Once all PEs have answered, both maps have exactly CkMyPe() entries, so mask's size assertions hold. |
| Mask.MaskIgnoresArrivalOrder | src/Inciter/Partitioner.h:401-437 | The state after all answers depends only on who answered what. It does not depend on arrival order or on the order the hash maps are walked. |
| Communication.DedupFromLowest | src/Inciter/Partitioner.h:450-459 | The loop over m_ncomm in ascending PE order keeps each id under the lowest PE that reports it and drops the empty entries. |
| Communication.Dedup | src/Inciter/Partitioner.h:450-469 | The result is the lowest-PE-wins map. |
| Communication.DedupKeepsLowest | src/Inciter/Partitioner.h:450-469 | An id stays under PE p if and only if p reports it and no lower PE does. Every kept entry is non-empty, and a PE dropped entirely reports only ids that lower PEs already report. |
| Communication.SumSizesCountsUnion | src/Inciter/Partitioner.h:480-482 | For pairwise disjoint entries the summed entry sizes count the ids in their union. |
| Communication.Received | src/Inciter/Partitioner.h:480-482 | nrecv counts the ids in the union of the entries, never exceeds the local set (so the size_t subtraction cannot wrap), and the difference counts the local ids in no entry. |
| Communication.Nuniq | src/Inciter/Partitioner.h:487 | nuniq counts the PE's nodes and edges that appear in no communication entry. |
| Reorder.OffsetIsPrefixSum | src/Inciter/Partitioner.h:220-222 | Once all broadcasts have arrived, in any order, the start of PE me is the sum of nuniq over the PEs below it. |
| Reorder.Assign | src/Inciter/Partitioner.h:828-829 | Only the ids not received are numbered. The i-th such id gets start + i, and the count ends at start plus their number. |
| Reorder.AssignWithinRange | src/Inciter/Partitioner.h:828-829 | Every new id lies in [start, end of the count). |
| Reorder.AssignFollowsOrder | src/Inciter/Partitioner.h:828-829 | New ids follow the walk order. |
| Reorder.AssignInjective | src/Inciter/Partitioner.h:828-829 | No new id is given twice. |
| Reorder.AssignLeavesNoGap | src/Inciter/Partitioner.h:828-829 | Every id in the range is given to some id. |
| Reorder.ReorderOwned | src/Inciter/Partitioner.h:788-844 | Exactly the nodes and edges in no communication entry are numbered, and the count advances by nuniq. |
| Reorder.ReorderNodeIds | src/Inciter/Partitioner.h:807-829 | The owned nodes get [start, start + their count), in ascending old-id order. |
| Reorder.ReorderEdgeIds | src/Inciter/Partitioner.h:815-837 | The owned edges get distinct ids after all the nodes' ids and before the end of the count. |
| Reorder.ReorderLeavesNoGap | src/Inciter/Partitioner.h:828-837 | Every id in [start, start + nuniq) goes to an owned node or edge. |
| Renumbering.RepliesReceivable | src/Inciter/Partitioner.h:365-388 | Every answer to PE k's query carries only ids PE k holds, so ref_find in mask succeeds. |
| Renumbering.MaskBuildsNodeComm | src/Inciter/Partitioner.h:365-437 | Once all PEs have answered, m_ncomm of PE k maps each lower PE to the node ids both hold. |
| Renumbering.MaskBuildsEdgeComm | src/Inciter/Partitioner.h:365-437 | The same for m_ecomm and edges. |
| Renumbering.NuniqsBroadcast | src/Inciter/Partitioner.h:480-489 | The count each PE broadcasts is the nuniq mask computes from its own sets and communication maps. |
| Renumbering.NodeCommunication | src/Inciter/Partitioner.h:450-459 | m_ncommunication holds only local node ids and covers the same ids as m_ncomm. |
| Renumbering.EdgeCommunication | src/Inciter/Partitioner.h:460-469 | The same for m_ecommunication and edges. |
| Renumbering.NumbersFirstHeld | src/Inciter/Partitioner.h:807-837 | A PE numbers a node or edge if and only if it holds it and no lower PE does. |
| Renumbering.OwnRange | src/Inciter/Partitioner.h:788-844 | PE k numbers within [start(k), start(k) + nuniq(k)), and that end is the next PE's start. |
| Renumbering.OwnOrder | src/Inciter/Partitioner.h:828-837 | Within a PE the nodes come first, in ascending old-id order, and then the edges, each id once. |
| Renumbering.NodeIdUnique | src/Inciter/Partitioner.h:788-844 | No two (PE, node) numberings share an id unless they are the same node on the same PE. |
| Renumbering.EdgeIdUnique | src/Inciter/Partitioner.h:788-844 | The same for edges. |
| Renumbering.NodeEdgeIdsApart | src/Inciter/Partitioner.h:788-844 | No node and edge, on any PEs, get the same id. |
| Renumbering.IdsFillTotal | src/Inciter/Partitioner.h:788-844 | The ids issued by all PEs together are exactly [0, Σ nuniq). |
| Exchange.Prepare | src/Inciter/Partitioner.h:864-869 | The reply holds exactly the requested keys, each with the answering PE's new id; every requested key must be numbered there. |
| Exchange.NewOrder | src/Inciter/Partitioner.h:247-254 | Reply ids are stored over the local map and the other entries are kept. |
| Exchange.NodeRequestsGoToOwner | src/Inciter/Partitioner.h:801-802 | Node requests go only to lower PEs, and each requested node is one that PE numbers itself. |
| Exchange.EdgeRequestsGoToOwner | src/Inciter/Partitioner.h:804-805 | The same for edge requests. |
| Exchange.PrepareFindsNodeIds | src/Inciter/Partitioner.h:864-869 | Every node that prepare looks up is numbered at the PE asked, so cref_find succeeds. |
| Exchange.PrepareFindsEdgeIds | src/Inciter/Partitioner.h:872-877 | The same for edges. |
| Exchange.NodeNumberedOnce | src/Inciter/Partitioner.h:807-829 | Exactly one PE numbers a held node: the lowest PE holding it. |
| Exchange.EdgeNumberedOnce | src/Inciter/Partitioner.h:815-837 | Exactly one PE numbers a held edge: the lowest PE holding it. |
| Exchange.MergeAllAgrees | src/Inciter/Partitioner.h:247-254 | Merging replies that carry final ids keeps the local map at final ids, whatever the order of the replies. |
| Exchange.GatherNodesInvariant | src/Inciter/Partitioner.h:247-254 | After some replies, m_linnodes holds the PE's own nodes and every node requested so far, each at its final id. |
| Exchange.GatherEdgesInvariant | src/Inciter/Partitioner.h:258-264 | The same for m_linedges. |
| Exchange.ReorderCompletesNodes | src/Inciter/Partitioner.h:247-254 | Once every requested PE has replied, m_linnodes is exactly the final ids of the PE's nodes, and its size equals the node set's, so the completion check passes. |
| Exchange.ReorderCompletesEdges | src/Inciter/Partitioner.h:258-264 | The same for m_linedges and the edge set. |
| Exchange.FinalNodeIdsDistinct | src/Inciter/Partitioner.h:788-883 | Distinct nodes end with distinct ids. |
| Exchange.FinalEdgeIdsDistinct | src/Inciter/Partitioner.h:788-883 | Distinct edges end with distinct ids. |
| Exchange.FinalIdsApart | src/Inciter/Partitioner.h:788-883 | No node shares its final id with an edge. |
| Exchange.FinalIdsBelowTotal | src/Inciter/Partitioner.h:788-883 | Every final id lies below the total count of nodes and edges. |
| Exchange.FinalNodeIdInRange | src/Inciter/Partitioner.h:788-883 | A node's final id lies in the range of the PE that owns it. |
| Exchange.FinalEdgeIdInRange | src/Inciter/Partitioner.h:788-883 | An edge's final id lies in the range of the PE that owns it. |
| Exchange.OwnIdHeld | src/Inciter/Partitioner.h:788-883 | Every id in PE k's range is the final id of a node or an edge that PE k holds. |
| Bounds.MaxKey | src/Inciter/Partitioner.h:1185-1188 | max_element comparing keys finds a key at least as large as every key of the map. |
| Bounds.MaxValue | src/Inciter/Partitioner.h:1191-1194 | max_element comparing values finds a value at least as large as every value of the map. |
| Bounds.FileUpper | src/Inciter/Partitioner.h:1183-1189 | The first loop leaves the largest new id among the keys of all chares' maps, or 0 if there are none. |
| Bounds.EdgeUpper | src/Inciter/Partitioner.h:1191-1195 | The second loop raises that to the largest new id among the edge maps' values. |
| Bounds.Upper | src/Inciter/Partitioner.h:1182-1202 | m_upper is the largest new id the PE's chares hold, plus one on the last PE. |
| Bounds.PeIdsBelowNextStart | src/Inciter/Partitioner.h:1037-1060 | Every final id a PE holds lies below the next PE's start. |
| Bounds.PeMaxIsLastOwnId | src/Inciter/Partitioner.h:1037-1060 | The largest id a PE holds is the last id of its own range. |
| Bounds.PeUpperFollowsStart | src/Inciter/Partitioner.h:1182-1202 | A PE below the last gets an upper index equal to the last id of its range. |
| Bounds.LastPeUpperIsTotal | src/Inciter/Partitioner.h:1182-1202 | The last PE gets an upper index equal to the total count, so the last row is included. |
| Bounds.PeLowerFollowsStart | src/Inciter/Partitioner.h:1206-1210 | The lower index of PE j + 1 is the upper index PE j sends, the last id of PE j's range. |

## Left out

- Charm++ plumbing is left out: SDAG waits, `contribute`, proxies, the `m_reqNodes`/`m_reqEdges` queues and the `*_complete` triggers. Messages become sequences, and their arrival order is a parameter.
- `Partitioner::add` and `recv` (the receiving end of `distribute`) are left out as message plumbing. The export map `Distribute` returns is what they receive.
- ExodusII reading, Zoltan partitioning, `computeCentroids` and `stdCost` are left out. They are file I/O, a foreign library and floating point.
- `Partitioner::refine`, `generate_compact_inpoel` and the building of `m_chedgenodes` are left out. They depend on `node_connectivity`, `refinement.h` and `id_generator.h`, which are not part of this model.
  - `Flatten` takes each chare's edge set as a parameter.
- The rewrites in `reordered()` are left out: the 8-child connectivity rewrite, and the renumbering of `m_msum`, `m_chinpoel` and `m_chedgenodes`.
  - `bounds` is stated over the final ids a PE holds, which are the ids that `m_chfilenodes` and `m_chedgenodes` carry after `reordered`.
- The edge key's decimal string encoding is replaced by an ordered pair (`EdgeKey`). `stoul` parsing is left out, and so is `generate_edge_ids(_from_edge_list)`, which only parses those strings.
- The refiner (`refine_one_to_two/four/eight`, `refinement.h`) and `id_generator_t::get_parent_id` are function parameters.
  - The refiner is only assumed to keep the pending marks, never to drop a master record, and to leave the records of stored tets other than the one it refines as they were (it adds children through `tet_store.add`).
  - `consume_tets` takes the ids the generator hands out as a parameter.
- `node_connectivity.fill_initial_nodes` in `init` is left out, for the same reason.
- `marked_refinements_store_t` and `active_element_store_t` are not part of this model. They are a map and a set, and `marked_refinements.add` is modelled as an assignment.
- Reporting and debug helpers are left out: `get_cell_type_list`, `get_refinement_level_list`, `get_active_inpoel`, `get_active_coordinate_array`, `print_*`, `trace_out`, the coordinate-pointer setup in `mesh_adapter_t` and the totals it prints.
- The simple accessors are modelled as plain lookups without contracts of their own:
  - `size`, `exists`, `get`, `is_active`, `is_center`, `has_refinement_decision`, `data`, `get_refinement_case`, `lock_case`.
- Integer widths are not modelled except for the `size_t` child count in `derefine_children` (`Derefinement.WrapSub`). Ids are unbounded naturals, and the `int` casts of chare ids are not modelled.
- The refinement criterion is a Dafny `real`.
- MeshAdapter.PassOne walks the tets stored when the pass starts. The source walks the live `std::map`, which also visits tets the refiner inserts under larger ids. The refiner does not add marks, so such a tet's visit does nothing unless a stale mark was left under its new id, and that case is not modelled.
- Distribution.Pe requires `npes <= nchare`. The source asserts only `m_nchare > 0`, but with fewer chares than PEs its chunk is 0 and the division in `pe` is undefined.
- Bounds.PeUpperFollowsStart, Bounds.LastPeUpperIsTotal, Bounds.PeMaxIsLastOwnId and Bounds.PeLowerFollowsStart are stated only for a PE that numbers at least one id.
  - A PE that numbers none still has the largest id it holds below its start, but it may hold no id at all.
  - Then bounds does not shift the ranges in the same way.
- The order `m_edgeset` (a hash set) is walked in is a parameter (`Machine.edgeOrders`). The order `m_nodeset` is walked in is ascending, as `std::set` iterates.
- `derefine_four_to_two`, `derefine_eight_to_two` and `derefine_eight_to_four` are `assert(0)` in the source. They are modelled as always returning `Err(UnsupportedTransition)` rather than as uncallable members.
- Derefinement.Derefine dispatches 8:1 to the corrected `DerefineEightToOne`. The as-written `derefine_eight_to_one`, which keeps the centre edges, is `DerefineEightToOneAsWritten` (see Findings).
- MeshAdapter.RefineParentToEight rejects a parent listed among its own children with `SelfChild`. The source does not check this. There, derefinement would erase the parent's own record while `element` still refers to it, so the model refuses that case instead of modelling undefined behaviour.
- MeshAdapter.PassTwoRefinesEveryParent assumes no collected parent is listed among another collected parent's children. Without that, a later parent's derefinement can erase an earlier parent's record, and the pass-level result does not hold.
- Mask.Receive keeps the source's behaviour of creating `m_msum[c]` for an own chare even when every surrounding chare equals `c`. So only the inner sets, and not the outer per-chare map, are promised non-empty.
- `uniform_refinement` follows the code: it sets every criterion to 1.0 and then runs `perform_refinement` on the marks already pending. It adds no marks, so on a store without marks it refines nothing.

## Findings

| source | as written | input that shows it | evidently intended | confidence | as-written member | corrected member |
|---|---|---|---|---|---|---|
| src/Inciter/AMR/tet_store.h:151-189 | `add(id, nodes, case, parent_id)` first calls `add(id, nodes, case)`, which records the child with level 0 and parent 0. Only the parent's child list and count are updated. | A stored parent at level 1 and a fresh child id: the child's record says level 0, parent 0. `check_allowed_derefinement` then refuses it, since its level is not above 0. | The child is recorded one level below its parent and names it as parent, as `master_element_store_t::add(element, case, parent)` computes. | medium, not executed | TetStore.AddChild, TetStore.AddChildLosesLevel | TetStore.AddChildAtLevel |
| src/Inciter/AMR/derefinement.h:72-86 | `derefine_eight_to_one` calls `generic_derefine` first, which empties the parent's child list. The loop that should delete the children's non-parent edges therefore runs over an empty list. | A parent with a child whose edge key is not one of the parent's six and is stored: after the call the edge is still stored. | The children's edges that are not parent edges (the centre edges) are deleted, as the comment at lines 76-77 says. | high, not executed | Derefinement.DerefineEightToOneAsWritten, Derefinement.EightToOneKeepsCentreEdges | Derefinement.DerefineEightToOne |

=== FILE: AmrTypes.dfy ===
/**
 Value types shared by the AMR stores. The headers that declare them in the
 source (types.h, Edge_Refinement.h, Refinement_State.h) are not part of this
 model; their shape is taken from the constructor calls in the stores.
 */
module AmrTypes {

  /** tet_t: the four node ids of a tetrahedron, A B C D, in the order given. */
  type Tet = t: seq<nat> | |t| == 4 witness [0, 1, 2, 3]

  /** face_ids_t: the three node ids of a triangular face. */
  type Face = f: seq<nat> | |f| == 3 witness [0, 1, 2]

  /** The key of an edge: the unordered node pair as (smaller, larger).
      The source encodes it as the decimal string "min-max". */
  datatype EdgeKey = EdgeKey(lo: nat, hi: nat)

  /** Edge_Lock_Case. */
  datatype LockCase = Unlocked | Locked | Intermediate | Temporary

  /** Refinement_Case: how a tet came to be, or which refinement is pending. */
  datatype RefinementCase =
    | InitialGrid | OneToTwo | OneToFour | OneToEight
    | TwoToEight | FourToEight | NoneCase

  /** Why a modelled operation aborts (a failed assert or map::at). */
  datatype Fault =
    | MissingElement(id: nat)          // no master record for the id
    | MissingTet(id: nat)              // no tet stored under the id
    | SelfChild(id: nat)               // a tet listed among its own children
    | BadChildCount(id: nat, count: nat)
    | UnsupportedTransition            // derefine_four_to_two and friends

  /** The four node ids are pairwise different (store_tet's sanity checks). */
  predicate DistinctNodes(t: Tet) {
    && t[0] != t[1] && t[0] != t[2] && t[0] != t[3]
    && t[1] != t[2] && t[1] != t[3]
    && t[2] != t[3]
  }

  /** The set of ids listed in an id list. */
  function Ids(cs: seq<nat>): set<nat> {
    set c | c in cs
  }
}

=== FILE: Bounds.dfy ===
/**
 The row bounds of the linear system (bounds and lower in
 src/Inciter/Partitioner.h): each PE takes as its upper index the largest new
 id among the nodes and edge-nodes of its chares, the last PE adds one so that
 its upper index is exclusive, and every PE but the last sends its upper index
 to the next PE as that PE's lower index.
 */
module Bounds {
  import opened OrderedSets
  import opened ChareGraph
  import opened Reorder
  import opened Renumbering
  import opened Exchange

  /** r is the largest element of s, or 0 for the empty set. */
  ghost predicate IsMax(r: nat, s: set<nat>) {
    && (forall x :: x in s ==> x <= r)
    && (s == {} ==> r == 0)
    && (s != {} ==> r in s)
  }

  /** The largest element of s, 0 when s is empty: the value m_upper reaches
      when it starts at 0 and is raised to every larger id met. */
  function MaxOf(s: set<nat>): (r: nat)
    ensures IsMax(r, s)
  {
    if s == {} then 0
    else
      var xs := Ascending(s);
      assert xs[0] in s;
      var r := xs[|xs| - 1];
      forall x | x in s ensures x <= r {
        var i :| 0 <= i < |xs| && xs[i] == x;
        assert i == |xs| - 1 || xs[i] < r;
      }
      r
  }

  /** Only one number is the largest element of a set. */
  lemma MaxUnique(r: nat, s: set<nat>)
    requires forall x :: x in s ==> x <= r
    requires r == 0 || r in s
    ensures r == MaxOf(s)
  {
    var t := MaxOf(s);
    if s != {} {
      var x :| x in s;
      assert t in s;
    }
  }

  /** The new ids of a PE's chares: the keys of m_chfilenodes (new id to file
      id) and the values of m_chedgenodes (edge to new id). */
  ghost function ChareIds(chfilenodes: map<nat, map<nat, nat>>, chedgenodes: map<nat, map<MeshEdge, nat>>)
    : set<nat>
  {
    (set c, x | c in chfilenodes && x in chfilenodes[c] :: x)
    + (set c, e | c in chedgenodes && e in chedgenodes[c] :: chedgenodes[c][e])
  }

  /** The largest key of a non-empty map, as std::max_element with a
      comparison of the keys finds it. */
  function MaxKey<V>(c: map<nat, V>): (r: nat)
    requires c != map[]
    ensures forall x :: x in c ==> x <= r
    ensures r in c
  {
    MaxOf(c.Keys)
  }

  /** The largest value of a non-empty map, as std::max_element with a
      comparison of the values finds it. */
  function MaxValue<K(!new)>(c: map<K, nat>): (r: nat)
    requires c != map[]
    ensures forall e :: e in c ==> c[e] <= r
    ensures exists e :: e in c && c[e] == r
  {
    var r := MaxOf(c.Values);
    var e0 :| e0 in c;
    assert c[e0] in c.Values;
    forall e | e in c ensures c[e] <= r {
      assert c[e] in c.Values;
    }
    r
  }

  /** The first loop of bounds: m_upper raised to the largest new id among
      the keys of every chare's map, the chares' maps taken in order. */
  method FileUpper<V>(maps: seq<map<nat, V>>) returns (upper: nat)
    requires forall j :: 0 <= j < |maps| ==> maps[j] != map[]
    ensures forall j, x :: 0 <= j < |maps| && x in maps[j] ==> x <= upper
    ensures upper == 0 || exists j :: 0 <= j < |maps| && upper in maps[j]
  {
    upper := 0;
    for i := 0 to |maps|
      invariant forall j, x :: 0 <= j < i && x in maps[j] ==> x <= upper
      invariant upper == 0 || exists j :: 0 <= j < i && upper in maps[j]
    {
      var x := MaxKey(maps[i]);
      if x > upper {
        upper := x;
      }
    }
  }

  /** The second loop of bounds: m_upper raised further to the largest new
      id among the values of every chare's edge map. */
  method EdgeUpper<K(!new)>(maps: seq<map<K, nat>>, start: nat) returns (upper: nat)
    requires forall j :: 0 <= j < |maps| ==> maps[j] != map[]
    ensures start <= upper
    ensures forall j, e :: 0 <= j < |maps| && e in maps[j] ==> maps[j][e] <= upper
    ensures upper == start || exists j, e :: 0 <= j < |maps| && e in maps[j] && maps[j][e] == upper
  {
    upper := start;
    for i := 0 to |maps|
      invariant start <= upper
      invariant forall j, e :: 0 <= j < i && e in maps[j] ==> maps[j][e] <= upper
      invariant upper == start || exists j, e :: 0 <= j < i && e in maps[j] && maps[j][e] == upper
    {
      var x := MaxValue(maps[i]);
      if x > upper {
        upper := x;
      }
    }
  }

  /** The chares of a PE, each with its map, in ascending id order. The
      source walks a std::unordered_map in an unspecified order; the maximum
      taken over the chares does not depend on it, so one fixed order stands
      for all. */
  method InChareOrder<V>(m: map<nat, V>) returns (cs: seq<nat>, ms: seq<V>)
    ensures forall c :: c in m <==> c in cs
    ensures |ms| == |cs|
    ensures forall j :: 0 <= j < |cs| ==> cs[j] in m && ms[j] == m[cs[j]]
  {
    cs := Ascending(m.Keys);
    ms := seq(|cs|, j requires 0 <= j < |cs| => m[cs[j]]);
  }

  /** bounds: the largest id over all chares, one more on the last PE. The
      chares are visited in ascending id order; the source's
      std::unordered_map order is unspecified, and the maximum does not
      depend on it. std::max_element on an empty map would hand back the end
      iterator, which bounds dereferences, so every chare's map must be
      non-empty. */
  method Upper(chfilenodes: map<nat, map<nat, nat>>, chedgenodes: map<nat, map<MeshEdge, nat>>, last: bool)
    returns (upper: nat)
    requires forall c :: c in chfilenodes ==> chfilenodes[c] != map[]
    requires forall c :: c in chedgenodes ==> chedgenodes[c] != map[]
    ensures upper == MaxOf(ChareIds(chfilenodes, chedgenodes)) + (if last then 1 else 0)
  {
    var cs, fm := InChareOrder(chfilenodes);
    var es, em := InChareOrder(chedgenodes);
    upper := FileUpper(fm);
    upper := EdgeUpper(em, upper);
    UpperIsMax(chfilenodes, chedgenodes, cs, es, fm, em, upper);
    if last {
      upper := upper + 1;
    }
  }

  /** The value both loops of bounds leave behind is the largest id. */
  lemma UpperIsMax(chfilenodes: map<nat, map<nat, nat>>, chedgenodes: map<nat, map<MeshEdge, nat>>,
                   cs: seq<nat>, es: seq<nat>, fm: seq<map<nat, nat>>, em: seq<map<MeshEdge, nat>>, upper: nat)
    requires forall c :: c in chfilenodes <==> c in cs
    requires forall c :: c in chedgenodes <==> c in es
    requires |fm| == |cs| && forall j :: 0 <= j < |cs| ==> cs[j] in chfilenodes && fm[j] == chfilenodes[cs[j]]
    requires |em| == |es| && forall j :: 0 <= j < |es| ==> es[j] in chedgenodes && em[j] == chedgenodes[es[j]]
    requires forall j, x :: 0 <= j < |fm| && x in fm[j] ==> x <= upper
    requires forall j, e :: 0 <= j < |em| && e in em[j] ==> em[j][e] <= upper
    requires upper == 0 || (exists j :: 0 <= j < |fm| && upper in fm[j])
      || (exists j, e :: 0 <= j < |em| && e in em[j] && em[j][e] == upper)
    ensures upper == MaxOf(ChareIds(chfilenodes, chedgenodes))
  {
    var ids := ChareIds(chfilenodes, chedgenodes);
    forall x | x in ids ensures x <= upper {
      if c, y :| c in chfilenodes && y in chfilenodes[c] && x == y {
        var j :| 0 <= j < |cs| && cs[j] == c;
        assert x in fm[j];
      } else {
        var c, e :| c in chedgenodes && e in chedgenodes[c] && x == chedgenodes[c][e];
        var j :| 0 <= j < |es| && es[j] == c;
        assert e in em[j];
      }
    }
    if upper != 0 {
      if j :| 0 <= j < |fm| && upper in fm[j] {
        assert upper in chfilenodes[cs[j]];
        assert upper in ids;
      } else {
        var j, e :| 0 <= j < |em| && e in em[j] && em[j][e] == upper;
        assert e in chedgenodes[es[j]];
        assert upper in ids;
      }
    }
    MaxUnique(upper, ids);
  }

  /** The final ids PE k holds once reordered: those of its nodes and of its
      edges, the new ids its chares' maps carry. */
  ghost function PeIds(m: Machine, k: nat): set<nat>
    requires Ready(m) && k < |m.pes|
  {
    FinalNodes(m, k).Values + FinalEdges(m, k).Values
  }

  /** m_upper of PE k after bounds. */
  ghost function PeUpper(m: Machine, k: nat): nat
    requires Ready(m) && k < |m.pes|
  {
    MaxOf(PeIds(m, k)) + (if k == |m.pes| - 1 then 1 else 0)
  }

  /** Every id PE k holds lies below the next PE's start: the ids it numbers
      itself lie in its own range, and the ids it received were numbered by
      lower PEs. */
  lemma PeIdsBelowNextStart(m: Machine, k: nat)
    requires Ready(m) && k < |m.pes|
    ensures forall v :: v in PeIds(m, k) ==> v < Start(m, k + 1)
  {
    forall v | v in PeIds(m, k) ensures v < Start(m, k + 1) {
      if v in FinalNodes(m, k).Values {
        var x :| x in FinalNodes(m, k) && FinalNodes(m, k)[x] == v;
        HeldNodeIdBelow(m, k, x);
      } else {
        var e :| e in FinalEdges(m, k) && FinalEdges(m, k)[e] == v;
        HeldEdgeIdBelow(m, k, e);
      }
    }
  }

  /** A PE that numbers at least one id holds the last id of its range. */
  lemma LastOwnIdHeld(m: Machine, k: nat)
    requires Ready(m) && k < |m.pes| && Nuniqs(m)[k] > 0
    ensures Start(m, k + 1) > 0 && Start(m, k + 1) - 1 in PeIds(m, k)
  {
    var v := Start(m, k + 1) - 1;
    assert Start(m, k + 1) == Start(m, k) + Nuniqs(m)[k];
    OwnIdHeld(m, k, v);
    if x :| x in m.pes[k].nodeset && HeldNode(m, x) && FinalNodeId(m, x) == v {
      InValues(FinalNodes(m, k), x);
    } else {
      var e :| e in m.pes[k].edgeset && HeldEdge(m, e) && FinalEdgeId(m, e) == v;
      InValues(FinalEdges(m, k), e);
    }
  }

  lemma InValues<K(!new)>(f: map<K, nat>, x: K)
    requires x in f
    ensures f[x] in f.Values
  {
  }

  /** The largest id a PE that numbers at least one id holds is the last id
      of its own range. */
  lemma PeMaxIsLastOwnId(m: Machine, k: nat)
    requires Ready(m) && k < |m.pes| && Nuniqs(m)[k] > 0
    ensures MaxOf(PeIds(m, k)) == Start(m, k + 1) - 1
  {
    LastOwnIdHeld(m, k);
    PeIdsBelowNextStart(m, k);
    MaxBelow(PeIds(m, k), Start(m, k + 1));
  }

  /** PeUpper unfolded for a PE that numbers at least one id. */
  lemma PeUpperIsLastOwnId(m: Machine, k: nat)
    requires Ready(m) && k < |m.pes| && Nuniqs(m)[k] > 0
    ensures PeUpper(m, k) == Start(m, k + 1) - 1 + (if k == |m.pes| - 1 then 1 else 0)
  {
    PeMaxIsLastOwnId(m, k);
  }

  /** A set holding b - 1 and nothing from b on has b - 1 as its largest
      element. */
  lemma MaxBelow(s: set<nat>, b: nat)
    requires b > 0 && b - 1 in s
    requires forall x :: x in s ==> x < b
    ensures MaxOf(s) == b - 1
  {
    MaxUnique(b - 1, s);
  }

  /** The upper index of a PE below the last that numbers at least one id is
      the last id of its range. */
  lemma PeUpperFollowsStart(m: Machine, k: nat)
    requires Ready(m) && k + 1 < |m.pes| && Nuniqs(m)[k] > 0
    ensures PeUpper(m, k) == Start(m, k + 1) - 1
  {
    PeUpperIsLastOwnId(m, k);
  }

  /** The upper index of the last PE, when it numbers at least one id, is
      one past its last id: the total count of nodes and edge-nodes, so the
      last row is included. `n` is the number of PEs. */
  lemma LastPeUpperIsTotal(m: Machine, n: nat)
    requires Ready(m) && n == |m.pes| && n > 0 && Nuniqs(m)[n - 1] > 0
    ensures PeUpper(m, n - 1) == Total(m)
  {
    PeUpperIsLastOwnId(m, n - 1);
  }

  /** m_lower of PE k after lower: 0 on PE 0, otherwise the upper index
      the PE before it sent. */
  ghost function PeLower(m: Machine, k: nat): nat
    requires Ready(m) && k < |m.pes|
  {
    if k == 0 then 0 else PeUpper(m, k - 1)
  }

  /** The lower index of PE j + 1 is the last id of PE j, when PE j numbers
      at least one id. */
  lemma PeLowerFollowsStart(m: Machine, j: nat)
    requires Ready(m) && j + 1 < |m.pes| && Nuniqs(m)[j] > 0
    ensures PeLower(m, j + 1) == Start(m, j + 1) - 1
  {
    PeUpperFollowsStart(m, j);
  }
}

=== FILE: ChareGraph.dfy ===
/**
 Grouping mesh nodes by chare, handing chares to their owner PEs, and the
 per-PE node and edge sets with the owning chares of each
 (chareNodes, distribute, flatten and query in src/Inciter/Partitioner.h).
 */
module ChareGraph {
  import opened AmrTypes
  import opened Distribution

  /** How many times `c` occurs in `s`. */
  function Count(s: seq<nat>, c: nat): nat {
    if s == [] then 0 else (if s[|s| - 1] == c then 1 else 0) + Count(s[..|s| - 1], c)
  }

  /** The index of the `j`-th (from 0) occurrence of `c` in `s`. */
  function Occurrence(s: seq<nat>, c: nat, j: nat): (e: nat)
    requires j < Count(s, c)
    ensures e < |s| && s[e] == c
    ensures Count(s[..e], c) == j
    decreases |s|
  {
    var init := s[..|s| - 1];
    if s[|s| - 1] == c && j == Count(init, c) then
      assert s[..|s| - 1] == init;
      |s| - 1
    else
      var e := Occurrence(init, c, j);
      assert s[..e] == init[..e];
      e
  }

  /** The four node ids of element `e` of the connectivity. */
  function ElementNodes(tetinpoel: seq<nat>, e: nat): seq<nat>
    requires 4 * e + 4 <= |tetinpoel|
  {
    tetinpoel[4 * e .. 4 * e + 4]
  }

  /** The nodes of the first `n` elements grouped by chare, in element order. */
  function GroupNodes(che: seq<nat>, tetinpoel: seq<nat>, n: nat): (m: map<nat, seq<nat>>)
    requires n <= |che| && 4 * |che| <= |tetinpoel|
    ensures m.Keys == Ids(che[..n])
    ensures forall c :: c in m ==> |m[c]| == 4 * Count(che[..n], c)
    decreases n
  {
    if n == 0 then map[]
    else
      var prev := GroupNodes(che, tetinpoel, n - 1);
      var c := che[n - 1];
      assert che[..n][..n - 1] == che[..n - 1];
      assert che[..n][n - 1] == c;
      assert Ids(che[..n]) == Ids(che[..n - 1]) + {c};
      assert c in prev || Count(che[..n - 1], c) == 0 by {
        if c !in prev { CountAbsent(che[..n - 1], c); }
      }
      prev[c := (if c in prev then prev[c] else []) + ElementNodes(tetinpoel, n - 1)]
  }

  /** Block `j` of chare c's list is the connectivity of c's `j`-th element. */
  lemma {:induction false} GroupNodesBlocks(che: seq<nat>, tetinpoel: seq<nat>, n: nat, c: nat, j: nat)
    requires n <= |che| && 4 * |che| <= |tetinpoel|
    requires c in GroupNodes(che, tetinpoel, n) && j < Count(che[..n], c)
    ensures Occurrence(che[..n], c, j) < n
    ensures GroupNodes(che, tetinpoel, n)[c][4 * j .. 4 * j + 4] ==
            ElementNodes(tetinpoel, Occurrence(che[..n], c, j))
    decreases n
  {
    var e := Occurrence(che[..n], c, j);
    var list := GroupNodes(che, tetinpoel, n)[c];
    var init := che[..n - 1];
    assert che[..n][..n - 1] == init && che[..n][n - 1] == che[n - 1];
    if che[n - 1] == c && j == Count(init, c) {
      assert e == n - 1 && list[4 * j .. 4 * j + 4] == ElementNodes(tetinpoel, n - 1) by {
        OccurrenceStep(che[..n], c, j);
        BlockParts(che, tetinpoel, n, c);
        SliceAppended(if c in GroupNodes(che, tetinpoel, n - 1) then GroupNodes(che, tetinpoel, n - 1)[c] else [],
                      ElementNodes(tetinpoel, n - 1));
      }
    } else {
      var prev := GroupNodes(che, tetinpoel, n - 1);
      assert e == Occurrence(init, c, j) && j < Count(init, c) by {
        OccurrenceStep(che[..n], c, j);
      }
      assert c in prev && list[4 * j .. 4 * j + 4] == prev[c][4 * j .. 4 * j + 4] by {
        BlockParts(che, tetinpoel, n, c);
        var x := if che[n - 1] == c then ElementNodes(tetinpoel, n - 1) else [];
        SliceInPrefix(if c in prev then prev[c] else [], x, 4 * j, 4 * j + 4);
      }
      GroupNodesBlocks(che, tetinpoel, n - 1, c, j);
    }
  }

  /** Chare c's list after `n` elements is its list after `n - 1` (of
      length four per earlier element of c) and possibly element n - 1. */
  lemma BlockParts(che: seq<nat>, tetinpoel: seq<nat>, n: nat, c: nat)
    requires 0 < n <= |che| && 4 * |che| <= |tetinpoel|
    requires c in GroupNodes(che, tetinpoel, n)
    ensures var prev := GroupNodes(che, tetinpoel, n - 1);
      var q := if c in prev then prev[c] else [];
      && |q| == 4 * Count(che[..n - 1], c)
      && GroupNodes(che, tetinpoel, n)[c] == q + (if che[n - 1] == c then ElementNodes(tetinpoel, n - 1) else [])
  {
    if c !in GroupNodes(che, tetinpoel, n - 1) {
      CountAbsentFromGroups(che, tetinpoel, n - 1, c);
    }
    GroupNodesStep(che, tetinpoel, n, c);
  }

  /** The last element is the `j`-th occurrence exactly when `j` earlier
      ones precede it; otherwise the occurrence lies before it. */
  lemma OccurrenceStep(s: seq<nat>, c: nat, j: nat)
    requires |s| > 0 && j < Count(s, c)
    ensures var init := s[..|s| - 1];
      && (s[|s| - 1] == c && j == Count(init, c) ==> Occurrence(s, c, j) == |s| - 1)
      && (!(s[|s| - 1] == c && j == Count(init, c)) ==>
            j < Count(init, c) && Occurrence(s, c, j) == Occurrence(init, c, j))
  {
  }

  lemma SliceAppended(q: seq<nat>, x: seq<nat>)
    ensures (q + x)[|q| .. |q| + |x|] == x
  {
  }

  lemma SliceInPrefix(q: seq<nat>, x: seq<nat>, a: nat, b: nat)
    requires a <= b <= |q|
    ensures (q + x)[a .. b] == q[a .. b]
  {
  }

  /** One more element appends its nodes to its own chare's list only. */
  lemma GroupNodesStep(che: seq<nat>, tetinpoel: seq<nat>, n: nat, c: nat)
    requires 0 < n <= |che| && 4 * |che| <= |tetinpoel|
    requires c in GroupNodes(che, tetinpoel, n)
    ensures var prev := GroupNodes(che, tetinpoel, n - 1);
      var q := if c in prev then prev[c] else [];
      GroupNodes(che, tetinpoel, n)[c] == (if che[n - 1] == c then q + ElementNodes(tetinpoel, n - 1) else q)
  {
  }

  /** A chare without a group among the first `n` elements occurs 0 times there. */
  lemma CountAbsentFromGroups(che: seq<nat>, tetinpoel: seq<nat>, n: nat, c: nat)
    requires n <= |che| && 4 * |che| <= |tetinpoel|
    requires c !in GroupNodes(che, tetinpoel, n)
    ensures Count(che[..n], c) == 0
  {
    assert c !in Ids(che[..n]);
    assert c !in che[..n];
    CountAbsent(che[..n], c);
  }

  /** One of the first `n` elements belongs to chare `c` and has node `x`. */
  ghost predicate InGroup(che: seq<nat>, tetinpoel: seq<nat>, n: nat, c: nat, x: nat)
    requires n <= |che| && 4 * |che| <= |tetinpoel|
  {
    exists e :: 0 <= e < n && che[e] == c && x in ElementNodes(tetinpoel, e)
  }

  lemma InGroupStep(che: seq<nat>, tetinpoel: seq<nat>, n: nat, c: nat, x: nat)
    requires 0 < n <= |che| && 4 * |che| <= |tetinpoel|
    ensures InGroup(che, tetinpoel, n, c, x) <==>
      InGroup(che, tetinpoel, n - 1, c, x) || (che[n - 1] == c && x in ElementNodes(tetinpoel, n - 1))
  {
    if InGroup(che, tetinpoel, n, c, x) {
      var e :| 0 <= e < n && che[e] == c && x in ElementNodes(tetinpoel, e);
      if e < n - 1 {
        assert InGroup(che, tetinpoel, n - 1, c, x);
      }
    }
  }

  /** A node is in chare c's group exactly when one of the first `n`
      elements belongs to c and has that node. */
  lemma {:induction false} GroupNodesMembers(che: seq<nat>, tetinpoel: seq<nat>, n: nat, c: nat, x: nat)
    requires n <= |che| && 4 * |che| <= |tetinpoel|
    requires c in GroupNodes(che, tetinpoel, n)
    ensures x in GroupNodes(che, tetinpoel, n)[c] <==> InGroup(che, tetinpoel, n, c, x)
    decreases n
  {
    var prev := GroupNodes(che, tetinpoel, n - 1);
    InGroupStep(che, tetinpoel, n, c, x);
    if c in prev {
      GroupNodesMembers(che, tetinpoel, n - 1, c, x);
    } else {
      NoElementOutsideGroups(che, tetinpoel, n - 1, c);
      assert !InGroup(che, tetinpoel, n - 1, c, x);
    }
  }

  /** A chare without a group among the first `n` elements owns none of them. */
  lemma NoElementOutsideGroups(che: seq<nat>, tetinpoel: seq<nat>, n: nat, c: nat)
    requires n <= |che| && 4 * |che| <= |tetinpoel|
    requires c !in GroupNodes(che, tetinpoel, n)
    ensures forall e :: 0 <= e < n ==> che[e] != c
  {
    forall e | 0 <= e < n ensures che[e] != c {
      assert che[..n][e] == che[e];
    }
  }

  /** chareNodes: the four nodes of every element appended to the node list
      of the element's chare. The chare array must match the element count
      and be non-empty; every chare that appears then has at least one
      element's nodes, so the overdecomposition check never fails. */
  function ChareNodes(che: seq<nat>, tetinpoel: seq<nat>): (m: map<nat, seq<nat>>)
    requires |che| == |tetinpoel| / 4
    requires |che| > 0
    ensures m != map[]
    ensures m.Keys == Ids(che)
    ensures forall c :: c in m ==> |m[c]| == 4 * Count(che, c) && m[c] != []
    ensures forall c, x :: c in m ==>
      (x in m[c] <==> exists e :: 0 <= e < |che| && che[e] == c && x in ElementNodes(tetinpoel, e))
    ensures forall c, j: nat :: c in m && j < Count(che, c) ==>
      m[c][4 * j .. 4 * j + 4] == ElementNodes(tetinpoel, Occurrence(che, c, j))
  {
    assert che[..|che|] == che;
    var m := GroupNodes(che, tetinpoel, |che|);
    forall c, x | c in m
      ensures x in m[c] <==> exists e :: 0 <= e < |che| && che[e] == c && x in ElementNodes(tetinpoel, e)
    {
      GroupNodesMembers(che, tetinpoel, |che|, c, x);
      assert InGroup(che, tetinpoel, |che|, c, x) <==>
        exists e :: 0 <= e < |che| && che[e] == c && x in ElementNodes(tetinpoel, e);
    }
    forall c, j: nat | c in m && j < Count(che, c)
      ensures m[c][4 * j .. 4 * j + 4] == ElementNodes(tetinpoel, Occurrence(che, c, j))
    {
      GroupNodesBlocks(che, tetinpoel, |che|, c, j);
    }
    assert che[0] in m;
    forall c | c in m ensures m[c] != [] {
      assert Count(che, c) > 0 by { CountPositive(che, c); }
    }
    m
  }

  lemma {:induction false} CountAbsent(s: seq<nat>, c: nat)
    requires c !in s
    ensures Count(s, c) == 0
    decreases |s|
  {
    if s != [] {
      assert forall i :: 0 <= i < |s| - 1 ==> s[..|s| - 1][i] == s[i];
      CountAbsent(s[..|s| - 1], c);
    }
  }

  lemma {:induction false} CountPositive(s: seq<nat>, c: nat)
    requires c in s
    ensures Count(s, c) > 0
    decreases |s|
  {
    if s[|s| - 1] != c {
      assert c in s[..|s| - 1];
      CountPositive(s[..|s| - 1], c);
    }
  }

  /** distribute: the chares this PE owns stay (the owned ids are
      mype * chunk + c for c below its chare count); every other chare's
      nodes are exported to the PE pe() names, grouped by destination. */
  function Distribute(nodes: map<nat, seq<nat>>, nchare: nat, npes: nat, mype: nat)
    : (r: (map<nat, seq<nat>>, map<nat, map<nat, seq<nat>>>))
    requires 0 < npes <= nchare && mype < npes
    ensures r.0.Keys == set c | c in nodes && Holds(nchare, npes, mype, c)
    ensures forall c :: c in r.0 ==> r.0[c] == nodes[c]
    ensures forall p :: p in r.1 ==> p < npes && r.1[p] != map[]
    ensures forall p, c :: p in r.1 && c in r.1[p] ==>
      c in nodes && !Holds(nchare, npes, mype, c) && Pe(nchare, npes, c) == p && r.1[p][c] == nodes[c]
    ensures forall c :: c in nodes && !Holds(nchare, npes, mype, c) ==>
      Pe(nchare, npes, c) in r.1 && c in r.1[Pe(nchare, npes, c)]
  {
    var owned := map c | c in nodes && Holds(nchare, npes, mype, c) :: nodes[c];
    var rest := set c | c in nodes && !Holds(nchare, npes, mype, c);
    var dests := set c | c in rest :: Pe(nchare, npes, c);
    var exports := map p | p in dests :: map c | c in rest && Pe(nchare, npes, c) == p :: nodes[c];
    forall p | p in exports ensures exports[p] != map[] {
      var c :| c in rest && Pe(nchare, npes, c) == p;
      assert c in exports[p];
    }
    (owned, exports)
  }

  /** A chare id below nchare that this PE does not hold is never exported
      back to this PE. */
  lemma DistributeNeverExportsToSelf(nodes: map<nat, seq<nat>>, nchare: nat, npes: nat, mype: nat)
    requires 0 < npes <= nchare && mype < npes
    requires forall c :: c in nodes ==> c < nchare
    ensures mype !in Distribute(nodes, nchare, npes, mype).1
  {
    var exports := Distribute(nodes, nchare, npes, mype).1;
    if mype in exports {
      var c :| c in exports[mype];
      PeOwnsHeldChares(nchare, npes, c, mype);
    }
  }

  /** tk::UnsMesh::Edge: a pair of old node ids. */
  type MeshEdge = (nat, nat)

  /** A PE's flattened view: the old node ids and the edges its chares touch,
      each with the set of its own chares touching it. */
  datatype PeData = PeData(
    nodeset: set<nat>,
    edgeset: set<MeshEdge>,
    nodechares: map<nat, set<nat>>,
    edgechares: map<MeshEdge, set<nat>>)

  /** Every node and edge has a non-empty chare list, and only they do. */
  ghost predicate Valid(d: PeData) {
    && d.nodeset == d.nodechares.Keys
    && d.edgeset == d.edgechares.Keys
    && (forall p :: p in d.nodechares ==> d.nodechares[p] != {})
    && (forall e :: e in d.edgechares ==> d.edgechares[e] != {})
  }

  /** flatten: collects, from the owned chares' node lists and edge sets,
      the chares touching each node and each edge (tk::unique makes them
      sets), and the node and edge sets themselves. The source asserts that
      the PE holds the node lists of exactly its own chares. */
  function Flatten(chinpoel: map<nat, seq<nat>>, chedges: map<nat, set<MeshEdge>>, mynchare: nat): (d: PeData)
    requires |chinpoel| == mynchare
    ensures Valid(d)
    ensures forall p :: p in d.nodeset <==> exists c :: c in chinpoel && p in chinpoel[c]
    ensures forall e :: e in d.edgeset <==> exists c :: c in chedges && e in chedges[c]
    ensures forall p, c :: p in d.nodeset ==> (c in d.nodechares[p] <==> c in chinpoel && p in chinpoel[c])
    ensures forall e, c :: e in d.edgeset ==> (c in d.edgechares[e] <==> c in chedges && e in chedges[c])
  {
    var nodeset := set c, p | c in chinpoel && p in chinpoel[c] :: p;
    var edgeset := set c, e | c in chedges && e in chedges[c] :: e;
    var nodechares := map p | p in nodeset :: set c | c in chinpoel && p in chinpoel[c];
    var edgechares := map e | e in edgeset :: set c | c in chedges && e in chedges[c];
    forall p | p in nodechares ensures nodechares[p] != {} {
      var c :| c in chinpoel && p in chinpoel[c];
      assert c in nodechares[p];
    }
    forall e | e in edgechares ensures edgechares[e] != {} {
      var c :| c in chedges && e in chedges[c];
      assert c in edgechares[e];
    }
    PeData(nodeset, edgeset, nodechares, edgechares)
  }

  /** What a PE answers to a query: the queried nodes and edges it has,
      each with its chares touching it. */
  datatype Answer = Answer(cn: map<nat, set<nat>>, ce: map<MeshEdge, set<nat>>)

  /** query: answers exactly the queried node and edge ids that lie in the
      local node and edge sets, each with its local chare list. */
  function Query(d: PeData, nodes: set<nat>, edges: set<MeshEdge>): (a: Answer)
    requires Valid(d)
    ensures a.cn.Keys == nodes * d.nodeset
    ensures a.ce.Keys == edges * d.edgeset
    ensures forall j :: j in a.cn ==> a.cn[j] == d.nodechares[j] && a.cn[j] != {}
    ensures forall j :: j in a.ce ==> a.ce[j] == d.edgechares[j] && a.ce[j] != {}
  {
    Answer(map j | j in nodes && j in d.nodeset :: d.nodechares[j],
           map j | j in edges && j in d.edgeset :: d.edgechares[j])
  }
}

=== FILE: Communication.dfy ===
/**
 The final communication map of the node reordering (the end of mask in
 src/Inciter/Partitioner.h): each id a PE shares with lower PEs is kept only
 under the lowest of them (m_ncommunication / m_ecommunication), and the
 ids left over are the ones the PE numbers itself (nuniq).
 */
module Communication {
  import opened OrderedSets

  /** The ids held by PEs below `p` in the communication map. */
  function Earlier<K(!new)>(comm: map<nat, set<K>>, p: nat): set<K> {
    set q, j | q in comm && q < p && j in comm[q] :: j
  }

  /** The ids of PE `p` that no lower PE reports. */
  function FirstSeen<K(!new)>(comm: map<nat, set<K>>, p: nat): set<K>
    requires p in comm
  {
    comm[p] - Earlier(comm, p)
  }

  /** Every id under the PE that reports it first, and no empty entry: the
      map the deduplication loop is meant to produce. */
  function Lowest<K(!new)>(comm: map<nat, set<K>>): map<nat, set<K>> {
    map p | p in comm && FirstSeen(comm, p) != {} :: FirstSeen(comm, p)
  }

  /** The union of all ids in a communication map. */
  function Union<K(!new)>(comm: map<nat, set<K>>): set<K> {
    set p, j | p in comm && j in comm[p] :: j
  }

  /** The entries of the PEs outside `todo`. */
  function Walked<K(!new)>(comm: map<nat, set<K>>, todo: set<nat>): map<nat, set<K>> {
    map q | q in comm && q !in todo :: comm[q]
  }

  /** The PEs already walked by the ascending loop are exactly the ones below
      every PE still to do. */
  ghost predicate WalkedBelow<K(!new)>(comm: map<nat, set<K>>, todo: set<nat>) {
    && todo <= comm.Keys
    && (forall q, p :: q in comm && q !in todo && p in todo ==> q < p)
  }

  /** The loop over m_ncomm in ascending PE order: `seen` holds the ids of the
      PEs walked so far, and an id is kept for PE p only if not seen. An entry
      that ends up empty is erased. */
  function DedupFrom<K(!new)>(comm: map<nat, set<K>>, todo: set<nat>, seen: set<K>, acc: map<nat, set<K>>)
    : map<nat, set<K>>
    requires todo <= comm.Keys
    decreases todo
  {
    if todo == {} then acc
    else
      var p := Least(todo);
      var n := comm[p] - seen;
      DedupFrom(comm, todo - {p}, seen + comm[p], if n == {} then acc else acc[p := n])
  }

  /** Walked in ascending order, the loop keeps each id under the lowest PE
      reporting it. */
  lemma {:induction false} DedupFromLowest<K(!new)>(comm: map<nat, set<K>>, todo: set<nat>, seen: set<K>, acc: map<nat, set<K>>)
    requires WalkedBelow(comm, todo)
    requires seen == Union(Walked(comm, todo))
    requires acc == map q | q in comm && q !in todo && FirstSeen(comm, q) != {} :: FirstSeen(comm, q)
    ensures DedupFrom(comm, todo, seen, acc) == Lowest(comm)
    decreases todo
  {
    if todo == {} {
      assert acc == Lowest(comm);
    } else {
      var p := Least(todo);
      var n := comm[p] - seen;
      assert seen == Earlier(comm, p) by {
        EarlierIsWalked(comm, todo, seen, p);
      }
      var acc' := if n == {} then acc else acc[p := n];
      var seen' := seen + comm[p];
      assert seen' == Union(Walked(comm, todo - {p})) by {
        UnionAddOne(comm, todo, p);
      }
      assert acc' == map q | q in comm && q !in todo - {p} && FirstSeen(comm, q) != {} :: FirstSeen(comm, q);
      DedupFromLowest(comm, todo - {p}, seen', acc');
    }
  }

  lemma EarlierIsWalked<K(!new)>(comm: map<nat, set<K>>, todo: set<nat>, seen: set<K>, p: nat)
    requires WalkedBelow(comm, todo) && p in todo
    requires forall y :: y in todo ==> p <= y
    requires seen == Union(Walked(comm, todo))
    ensures seen == Earlier(comm, p)
  {
    forall j | j in Earlier(comm, p) ensures j in seen {
      var q :| q in comm && q < p && j in comm[q];
      assert q !in todo;
      assert j in Walked(comm, todo)[q];
    }
  }

  lemma UnionAddOne<K(!new)>(comm: map<nat, set<K>>, todo: set<nat>, p: nat)
    requires p in todo && todo <= comm.Keys
    ensures Union(Walked(comm, todo - {p}))
         == Union(Walked(comm, todo)) + comm[p]
  {
    var before := Walked(comm, todo);
    var after := Walked(comm, todo - {p});
    forall j | j in Union(after) ensures j in Union(before) + comm[p] {
      var q :| q in after && j in after[q];
      if q != p {
        assert j in before[q];
      }
    }
    forall j | j in comm[p] ensures j in Union(after) {
      assert j in after[p];
    }
  }

  /** The deduplication loop of mask: walks the PE ids in ascending order. */
  function Dedup<K(!new)>(comm: map<nat, set<K>>): (r: map<nat, set<K>>)
    ensures r == Lowest(comm)
  {
    assert Walked(comm, comm.Keys) == map[];
    DedupFromLowest(comm, comm.Keys, {}, map[]);
    DedupFrom(comm, comm.Keys, {}, map[])
  }

  /** What the deduplicated map promises: an id stays under PE p exactly when
      p reports it and no lower PE does, the entries are pairwise disjoint,
      no entry is empty, and together they hold every reported id. */
  lemma DedupKeepsLowest<K(!new)>(comm: map<nat, set<K>>)
    ensures var r := Dedup(comm);
      forall p, j :: p in r ==> (j in r[p] <==> j in comm[p] && forall q :: q in comm && q < p ==> j !in comm[q])
    ensures var r := Dedup(comm);
      forall p :: p in comm && p !in r ==> comm[p] <= Earlier(comm, p)
    ensures var r := Dedup(comm); r.Keys <= comm.Keys
    ensures var r := Dedup(comm); forall p :: p in r ==> r[p] != {}
    ensures var r := Dedup(comm);
      forall p, q :: p in r && q in r && p != q ==> r[p] !! r[q]
    ensures Union(Dedup(comm)) == Union(comm)
  {
    var r := Dedup(comm);
    forall p | p in comm && p !in r ensures comm[p] <= Earlier(comm, p) {
      assert FirstSeen(comm, p) == {};
      forall j | j in comm[p] ensures j in Earlier(comm, p) {
        assert j !in FirstSeen(comm, p);
      }
    }
    forall p, q | p in r && q in r && p < q ensures r[p] !! r[q] {
      forall j | j in r[p] ensures j !in r[q] {
        assert j in Earlier(comm, q);
      }
    }
    forall j | j in Union(comm) ensures j in Union(r) {
      LowestHolder(comm, j);
    }
  }

  /** An entry of the deduplicated map: an id kept under PE p is one PE p
      reported and no PE below it did. */
  lemma DedupEntries<K(!new)>(comm: map<nat, set<K>>)
    ensures forall p :: p in Dedup(comm) ==> p in comm
    ensures forall p, j :: p in Dedup(comm) && j in Dedup(comm)[p] ==>
      j in comm[p] && forall q :: q in comm && q < p ==> j !in comm[q]
  {
    DedupKeepsLowest(comm);
  }

  /** An id reported by some PE is kept under the lowest PE reporting it. */
  lemma LowestHolder<K(!new)>(comm: map<nat, set<K>>, j: K)
    requires j in Union(comm)
    ensures exists p :: p in Lowest(comm) && j in Lowest(comm)[p]
  {
    var holders := set q | q in comm && j in comm[q];
    var q0 :| q0 in comm && j in comm[q0];
    assert q0 in holders;
    var p := Least(holders);
    forall q | q in comm && q < p ensures j !in comm[q] {
      assert q !in holders;
    }
    assert j !in Earlier(comm, p);
    assert j in FirstSeen(comm, p);
    assert p in Lowest(comm);
  }

  /** The sum of the entry sizes, as the nrecv / erecv loops add them up. */
  function SumSizes<K(!new)>(comm: map<nat, set<K>>): nat
    decreases |comm|
  {
    if comm == map[] then 0
    else
      var p := Least(comm.Keys);
      |comm[p]| + SumSizes(comm - {p})
  }

  ghost predicate Disjoint<K(!new)>(comm: map<nat, set<K>>) {
    forall p, q :: p in comm && q in comm && p != q ==> comm[p] !! comm[q]
  }

  /** For pairwise disjoint entries the summed sizes count the union. */
  lemma {:induction false} SumSizesCountsUnion<K(!new)>(comm: map<nat, set<K>>)
    requires Disjoint(comm)
    ensures SumSizes(comm) == |Union(comm)|
    decreases |comm|
  {
    if comm != map[] {
      var p := Least(comm.Keys);
      var rest := comm - {p};
      assert |rest| < |comm| by {
        assert rest.Keys == comm.Keys - {p};
      }
      SumSizesCountsUnion(rest);
      assert Union(comm) == comm[p] + Union(rest) by {
        forall j | j in Union(comm) ensures j in comm[p] + Union(rest) {
          var q :| q in comm && j in comm[q];
          if q != p {
            assert j in rest[q];
          }
        }
      }
      assert comm[p] !! Union(rest);
    }
  }

  /** Removing a subset removes its size. */
  lemma SubsetSize<K(!new)>(a: set<K>, b: set<K>)
    requires a <= b
    ensures |a| <= |b| && |b| - |a| == |b - a|
  {
    assert b == a + (b - a);
  }

  /** The received counts of the deduplicated maps: each counts the ids the
      PE shares with some lower PE, so neither exceeds the local set. */
  function Received<K(!new)>(local: set<K>, comm: map<nat, set<K>>): (n: nat)
    requires forall p :: p in comm ==> comm[p] <= local
    ensures n == |Union(comm)|
    ensures n <= |local| && |local| - n == |local - Union(comm)|
  {
    var r := Dedup(comm);
    DedupKeepsLowest(comm);
    SumSizesCountsUnion(r);
    SubsetSize(Union(comm), local);
    SumSizes(r)
  }

  /** How many ids a PE numbers itself: its nodes and edges that no lower PE
      also holds. */
  function Owned<K(!new), E(!new)>(nodeset: set<K>, edgeset: set<E>, ncomm: map<nat, set<K>>, ecomm: map<nat, set<E>>)
    : nat
  {
    |nodeset - Union(ncomm)| + |edgeset - Union(ecomm)|
  }

  /** nuniq: the ids this PE numbers itself, the nodes and the edges that no
      lower PE also holds. The size_t subtractions cannot wrap, since the
      received counts never exceed the set sizes. */
  function Nuniq<K(!new), E(!new)>(nodeset: set<K>, edgeset: set<E>, ncomm: map<nat, set<K>>, ecomm: map<nat, set<E>>)
    : (u: nat)
    requires forall p :: p in ncomm ==> ncomm[p] <= nodeset
    requires forall p :: p in ecomm ==> ecomm[p] <= edgeset
    ensures u == Owned(nodeset, edgeset, ncomm, ecomm)
  {
    var nrecv := Received(nodeset, ncomm);
    var erecv := Received(edgeset, ecomm);
    |nodeset| - nrecv + |edgeset| - erecv
  }
}

=== FILE: Derefinement.dfy ===
/**
 Derefinement: removing a parent's children and the edges refinement added
 (src/Inciter/AMR/derefinement.h).
 */
module Derefinement {
  import opened Wrappers
  import opened AmrTypes
  import opened TetStore
  import ES = EdgeStore
  import MES = MasterElementStore

  /** MIN_REFINEMENT_LEVEL, which equals DEFAULT_REFINEMENT_LEVEL. */
  const MIN_REFINEMENT_LEVEL: nat := 0

  /** num_children is a size_t: decrementing it past zero wraps. */
  const SIZE_T_MODULUS: nat := 0x1_0000_0000_0000_0000

  /** `n` decremented `k` times as a size_t. */
  function WrapSub(n: nat, k: nat): (r: nat)
    requires n < SIZE_T_MODULUS
    ensures r < SIZE_T_MODULUS
    ensures k <= n ==> r == n - k
    ensures n < k <= SIZE_T_MODULUS ==> r == SIZE_T_MODULUS + n - k
  {
    (n - k) % SIZE_T_MODULUS
  }

  /** Erases each listed tet in turn from the tet store. */
  function EraseAll(ts: TetStore, cs: seq<nat>): (r: TetStore)
    ensures r.tets.Keys == ts.tets.Keys - Ids(cs)
    ensures r.master.Keys == ts.master.Keys - Ids(cs)
    ensures r.active == ts.active - Ids(cs)
    ensures forall k :: k in r.tets ==> r.tets[k] == ts.tets[k]
    ensures forall k :: k in r.master ==> r.master[k] == ts.master[k]
    ensures r.edges == ts.edges && r.centers == ts.centers && r.marks == ts.marks
    decreases |cs|
  {
    if cs == [] then ts
    else
      assert Ids(cs) == {cs[0]} + Ids(cs[1..]);
      EraseAll(Erase(ts, cs[0]), cs[1..])
  }

  /** derefine_children: erases every child of the parent (tet, record and
      active flag), decrements the parent's size_t child count once per
      listed child, and clears its child list. The parent must be stored and
      must not be its own child (the source keeps a reference to its record
      across the erasures). */
  function DerefineChildren(ts: TetStore, parent: nat): (r: TetStore)
    requires parent in ts.master
    requires parent !in Data(ts, parent).children
    requires Data(ts, parent).numChildren < SIZE_T_MODULUS
    ensures var p := Data(ts, parent);
      && r.tets.Keys == ts.tets.Keys - Ids(p.children)
      && r.master.Keys == ts.master.Keys - Ids(p.children)
      && r.active == ts.active - Ids(p.children)
      && parent in r.master
      && r.master[parent] == p.(children := [], numChildren := WrapSub(p.numChildren, |p.children|))
    ensures forall k :: k in r.tets ==> r.tets[k] == ts.tets[k]
    ensures forall k :: k in r.master && k != parent ==> r.master[k] == ts.master[k]
    ensures r.edges == ts.edges && r.centers == ts.centers && r.marks == ts.marks
  {
    var p := Data(ts, parent);
    var erased := EraseAll(ts, p.children);
    erased.(master := erased.master[parent := p.(children := [],
                                                numChildren := WrapSub(p.numChildren, |p.children|))])
  }

  /** When the count matches the child list, derefining leaves it at zero. */
  lemma DerefineChildrenZeroesCount(ts: TetStore, parent: nat)
    requires parent in ts.master
    requires parent !in Data(ts, parent).children
    requires Data(ts, parent).numChildren == |Data(ts, parent).children|
    requires Data(ts, parent).numChildren < SIZE_T_MODULUS
    ensures Data(DerefineChildren(ts, parent), parent).numChildren == 0
    ensures forall c :: c in Data(ts, parent).children ==>
      !Exists(DerefineChildren(ts, parent), c) && !IsActive(DerefineChildren(ts, parent), c)
  {
  }

  /** generic_derefine: derefine the children, then activate the parent. */
  function GenericDerefine(ts: TetStore, parent: nat): (r: TetStore)
    requires parent in ts.master
    requires parent !in Data(ts, parent).children
    requires Data(ts, parent).numChildren < SIZE_T_MODULUS
    ensures IsActive(r, parent)
    ensures var cs := Ids(Data(ts, parent).children);
      && r.tets.Keys == ts.tets.Keys - cs
      && r.master.Keys == ts.master.Keys - cs
      && r.active == (ts.active - cs) + {parent}
    ensures parent in r.master && Data(r, parent).children == []
    ensures forall k :: k in r.master && k != parent ==> r.master[k] == ts.master[k]
    ensures r.edges == ts.edges && r.centers == ts.centers && r.marks == ts.marks
  {
    Activate(DerefineChildren(ts, parent), parent)
  }

  /** delete_intermediates applied to a key list: each listed key that is
      stored with the intermediate lock case is erased. */
  function DeleteIntermediateKeys(s: ES.Store, keys: seq<EdgeKey>): (r: ES.Store)
    ensures r.Keys == set k | k in s && !(k in keys && s[k].lockCase == Intermediate)
    ensures forall k :: k in r ==> r[k] == s[k]
    decreases |keys|
  {
    if keys == [] then s
    else
      var k := keys[0];
      var s' := if ES.Exists(s, k) && ES.Get(s, k).lockCase == Intermediate then ES.Erase(s, k) else s;
      DeleteIntermediateKeys(s', keys[1..])
  }

  /** delete_intermediates(tet): the stored tet's intermediate edges are erased. */
  function DeleteIntermediates(ts: TetStore, id: nat): (r: TetStore)
    requires Exists(ts, id)
    ensures r.edges.Keys == set k | k in ts.edges &&
      !(k in GenerateEdgeKeys(ts, id) && ts.edges[k].lockCase == Intermediate)
    ensures forall k :: k in r.edges ==> r.edges[k] == ts.edges[k]
    ensures r == ts.(edges := r.edges)
  {
    ts.(edges := DeleteIntermediateKeys(ts.edges, GenerateEdgeKeys(ts, id)))
  }

  /** The tail of a list of stored tets is stored in a store with the same tets. */
  lemma RestStored(ts: TetStore, ts': TetStore, cs: seq<nat>)
    requires ts'.tets == ts.tets && cs != []
    requires forall c :: c in cs ==> Exists(ts, c)
    ensures forall c :: c in cs[1..] ==> Exists(ts', c)
  {
    forall c | c in cs[1..] ensures Exists(ts', c) {
      assert c in cs;
    }
  }

  /** Deletes the intermediate edges of each listed tet in turn. */
  function DeleteIntermediatesOf(ts: TetStore, cs: seq<nat>): (r: TetStore)
    requires forall c :: c in cs ==> Exists(ts, c)
    ensures r.edges.Keys == set k | k in ts.edges &&
      !(k in KeysOfTets(ts.tets, Ids(cs)) && ts.edges[k].lockCase == Intermediate)
    ensures forall k :: k in r.edges ==> r.edges[k] == ts.edges[k]
    ensures r == ts.(edges := r.edges)
    decreases |cs|
  {
    if cs == [] then ts
    else
      var first := DeleteIntermediates(ts, cs[0]);
      RestStored(ts, first, cs);
      var r := DeleteIntermediatesOf(first, cs[1..]);
      KeysOfTetsAddOne(ts.tets, Ids(cs[1..]), cs[0]);
      assert Ids(cs) == Ids(cs[1..]) + {cs[0]};
      IntermediateRemovalsCompose(ts.edges, first.edges, r.edges,
        (set k | k in GenerateEdgeKeys(ts, cs[0])), KeysOfTets(ts.tets, Ids(cs[1..])));
      r
  }

  /** Removing the intermediate edges among keys A, then among keys B, removes
      the intermediate edges among A + B. */
  lemma IntermediateRemovalsCompose(s: ES.Store, first: ES.Store, r: ES.Store, a: set<EdgeKey>, b: set<EdgeKey>)
    requires first.Keys == set k | k in s && !(k in a && s[k].lockCase == Intermediate)
    requires forall k :: k in first ==> first[k] == s[k]
    requires r.Keys == set k | k in first && !(k in b && first[k].lockCase == Intermediate)
    ensures r.Keys == set k | k in s && !(k in a + b && s[k].lockCase == Intermediate)
  {
  }

  /** delete_intermediates_of_children: every stored child's intermediate
      edges are erased, and nothing else changes. */
  function DeleteIntermediatesOfChildren(ts: TetStore, parent: nat): (r: TetStore)
    requires parent in ts.master
    requires forall c :: c in Data(ts, parent).children ==> Exists(ts, c)
    ensures r.edges.Keys == set k | k in ts.edges &&
      !(k in KeysOfTets(ts.tets, Ids(Data(ts, parent).children)) && ts.edges[k].lockCase == Intermediate)
    ensures forall k :: k in r.edges ==> r.edges[k] == ts.edges[k]
    ensures r == ts.(edges := r.edges)
  {
    DeleteIntermediatesOf(ts, Data(ts, parent).children)
  }

  /** After the intermediate cleanup no child edge is intermediate any more. */
  lemma NoIntermediateChildEdgeRemains(ts: TetStore, parent: nat)
    requires parent in ts.master
    requires forall c :: c in Data(ts, parent).children ==> Exists(ts, c)
    ensures var r := DeleteIntermediatesOfChildren(ts, parent);
      forall c, k :: c in Data(ts, parent).children && k in GenerateEdgeKeys(ts, c) && k in r.edges ==>
        r.edges[k].lockCase != Intermediate
  {
    var r := DeleteIntermediatesOfChildren(ts, parent);
    forall c, k | c in Data(ts, parent).children && k in GenerateEdgeKeys(ts, c) && k in r.edges
      ensures r.edges[k].lockCase != Intermediate
    {
      assert c in Ids(Data(ts, parent).children);
      assert k in KeysOfTets(ts.tets, Ids(Data(ts, parent).children));
    }
  }

  /** delete_non_matching_edges: every candidate key not among the basis
      keys is erased (whether stored or not). */
  function DeleteNonMatchingEdges(s: ES.Store, candidate: seq<EdgeKey>, basis: seq<EdgeKey>): (r: ES.Store)
    ensures r.Keys == s.Keys - (set k | k in candidate && k !in basis)
    ensures forall k :: k in r ==> r[k] == s[k]
    decreases |candidate|
  {
    if candidate == [] then s
    else
      var k := candidate[0];
      var s' := if k !in basis then ES.Erase(s, k) else s;
      DeleteNonMatchingEdges(s', candidate[1..], basis)
  }

  /** check_allowed_derefinement: only a tet above the minimum level may be
      derefined. */
  function CheckAllowedDerefinement(ts: TetStore, id: nat): (allowed: bool)
    requires id in ts.master
    ensures allowed <==> Data(ts, id).level > MIN_REFINEMENT_LEVEL
    ensures !allowed ==> Data(ts, id).level == 0
  {
    !(Data(ts, id).level <= MIN_REFINEMENT_LEVEL)
  }

  /** What the supported derefinements demand of the parent. */
  predicate CanDerefine(ts: TetStore, parent: nat) {
    && parent in ts.master
    && parent !in Data(ts, parent).children
    && Data(ts, parent).numChildren < SIZE_T_MODULUS
    && (forall c :: c in Data(ts, parent).children ==> Exists(ts, c))
  }

  /** derefine_two_to_one and derefine_four_to_one: the children's
      intermediate edges go, then the children; the parent is active again. */
  function DerefineToOne(ts: TetStore, parent: nat): (r: TetStore)
    requires CanDerefine(ts, parent)
    ensures IsActive(r, parent) && parent in r.master && Data(r, parent).children == []
    ensures var cs := Ids(Data(ts, parent).children);
      && r.tets.Keys == ts.tets.Keys - cs
      && r.active == (ts.active - cs) + {parent}
      && r.master.Keys == ts.master.Keys - cs
      && r.edges.Keys == set k | k in ts.edges &&
           !(k in KeysOfTets(ts.tets, cs) && ts.edges[k].lockCase == Intermediate)
    ensures forall k :: k in r.master && k != parent ==> r.master[k] == ts.master[k]
    ensures forall k :: k in r.edges ==> r.edges[k] == ts.edges[k]
    ensures r.centers == ts.centers && r.marks == ts.marks
  {
    var cleaned := DeleteIntermediatesOfChildren(ts, parent);
    GenericDerefine(cleaned, parent)
  }

  /** derefine_eight_to_one as written: generic_derefine has already cleared
      the child list when the loop over the children runs, so no edge is
      deleted. The parent must be stored, since its edge keys are generated. */
  function DerefineEightToOneAsWritten(ts: TetStore, parent: nat): (r: TetStore)
    requires Exists(ts, parent)
    requires parent in ts.master
    requires parent !in Data(ts, parent).children
    requires Data(ts, parent).numChildren < SIZE_T_MODULUS
    ensures IsActive(r, parent) && parent in r.master && Data(r, parent).children == []
    ensures var cs := Ids(Data(ts, parent).children);
      && r.tets.Keys == ts.tets.Keys - cs
      && r.master.Keys == ts.master.Keys - cs
      && r.active == (ts.active - cs) + {parent}
    ensures forall k :: k in r.master && k != parent ==> r.master[k] == ts.master[k]
    ensures r.edges == ts.edges
    ensures r.centers == ts.centers && r.marks == ts.marks
  {
    var r := GenericDerefine(ts, parent);
    var parentEdges := GenerateEdgeKeys(ts, parent);
    DeleteForChildren(r, Data(r, parent).children, parentEdges)
  }

  /** The loop body of derefine_eight_to_one over a child list: each child's
      keys that are not parent keys are erased. */
  function DeleteForChildren(ts: TetStore, cs: seq<nat>, parentEdges: seq<EdgeKey>): (r: TetStore)
    requires forall c :: c in cs ==> Exists(ts, c)
    ensures r.edges.Keys == ts.edges.Keys -
      (set k | k in KeysOfTets(ts.tets, Ids(cs)) && k !in parentEdges)
    ensures forall k :: k in r.edges ==> r.edges[k] == ts.edges[k]
    ensures r == ts.(edges := r.edges)
    decreases |cs|
  {
    if cs == [] then ts
    else
      var first := ts.(edges := DeleteNonMatchingEdges(ts.edges, GenerateEdgeKeys(ts, cs[0]), parentEdges));
      RestStored(ts, first, cs);
      var r := DeleteForChildren(first, cs[1..], parentEdges);
      KeysOfTetsAddOne(ts.tets, Ids(cs[1..]), cs[0]);
      assert Ids(cs) == Ids(cs[1..]) + {cs[0]};
      r
  }

  /** derefine_eight_to_one as evidently intended: the children's edges that
      are not edges of the parent (the centre edges) are erased while the
      children are still known, then the children go. */
  function DerefineEightToOne(ts: TetStore, parent: nat): (r: TetStore)
    requires Exists(ts, parent)
    requires CanDerefine(ts, parent)
    ensures IsActive(r, parent) && parent in r.master && Data(r, parent).children == []
    ensures var cs := Ids(Data(ts, parent).children);
      && r.tets.Keys == ts.tets.Keys - cs
      && r.master.Keys == ts.master.Keys - cs
      && r.active == (ts.active - cs) + {parent}
      && r.edges.Keys == ts.edges.Keys -
           (set k | k in KeysOfTets(ts.tets, cs) && k !in GenerateEdgeKeys(ts, parent))
    ensures forall k :: k in r.tets ==> r.tets[k] == ts.tets[k]
    ensures forall k :: k in r.master && k != parent ==> r.master[k] == ts.master[k]
    ensures forall k :: k in r.edges ==> r.edges[k] == ts.edges[k]
    ensures r.centers == ts.centers && r.marks == ts.marks
  {
    var parentEdges := GenerateEdgeKeys(ts, parent);
    var cleaned := DeleteForChildren(ts, Data(ts, parent).children, parentEdges);
    GenericDerefine(cleaned, parent)
  }

  /** The as-written 8:1 derefinement keeps a child edge that is not an edge of
      the parent; the corrected one removes it. */
  lemma EightToOneKeepsCentreEdges(ts: TetStore, parent: nat, c: nat, k: EdgeKey)
    requires Exists(ts, parent) && CanDerefine(ts, parent)
    requires c in Data(ts, parent).children
    requires k in GenerateEdgeKeys(ts, c) && k !in GenerateEdgeKeys(ts, parent)
    requires k in ts.edges
    ensures k in DerefineEightToOneAsWritten(ts, parent).edges
    ensures k !in DerefineEightToOne(ts, parent).edges
  {
    assert c in Ids(Data(ts, parent).children);
    assert k in KeysOfTets(ts.tets, Ids(Data(ts, parent).children));
  }

  /** The derefinements a parent may be asked for. */
  datatype Derefinement = TwoToOne | FourToOne | EightToOne | FourToTwo | EightToTwo | EightToFour

  /** Dispatch to derefine_two_to_one, derefine_four_to_one,
      derefine_eight_to_one (with the centre edges removed, as intended),
      and to derefine_four_to_two,
      derefine_eight_to_two and derefine_eight_to_four, which are
      unimplemented and always fail. */
  function Derefine(ts: TetStore, parent: nat, d: Derefinement): (r: Result<TetStore, Fault>)
    requires d in {TwoToOne, FourToOne, EightToOne} ==> CanDerefine(ts, parent)
    requires d == EightToOne ==> Exists(ts, parent)
    ensures r.Err? <==> d in {FourToTwo, EightToTwo, EightToFour}
    ensures r.Err? ==> r.error == UnsupportedTransition
    ensures r.Ok? ==>
      IsActive(r.value, parent) && r.value.tets.Keys == ts.tets.Keys - Ids(Data(ts, parent).children)
    ensures r.Ok? ==> var cs := Ids(Data(ts, parent).children);
      && parent in r.value.master && Data(r.value, parent).children == []
      && r.value.master.Keys == ts.master.Keys - cs
      && r.value.active == (ts.active - cs) + {parent}
      && (forall k :: k in r.value.master && k != parent ==> r.value.master[k] == ts.master[k])
      && (forall k :: k in r.value.edges ==> k in ts.edges && r.value.edges[k] == ts.edges[k])
      && r.value.centers == ts.centers && r.value.marks == ts.marks
  {
    match d
    case TwoToOne => Ok(DerefineToOne(ts, parent))
    case FourToOne => Ok(DerefineToOne(ts, parent))
    case EightToOne => Ok(DerefineEightToOne(ts, parent))
    case _ => Err(UnsupportedTransition)
  }
}

=== FILE: Distribution.dfy ===
/**
 Contiguous block distribution of chares and mesh elements to PEs
 (chareDistribution, pe and the chunk arithmetic of readGraph in
 src/Inciter/Partitioner.h). Every PE but the last holds `n / npes`
 consecutive items; the last one also takes the remainder `n % npes`.
 */
module Distribution {

  /** The chunk size: items per PE except the last one. */
  function Chunk(n: nat, npes: nat): nat
    requires npes > 0
  {
    n / npes
  }

  /** How many items PE `k` holds. */
  function Share(n: nat, npes: nat, k: nat): nat
    requires k < npes
  {
    Chunk(n, npes) + (if k == npes - 1 then n % npes else 0)
  }

  /** The first item PE `k` holds. */
  function First(n: nat, npes: nat, k: nat): nat
    requires npes > 0
  {
    k * Chunk(n, npes)
  }

  /** PE `k` holds exactly the items in [First, First + Share). */
  predicate Holds(n: nat, npes: nat, k: nat, id: nat)
    requires k < npes
  {
    First(n, npes, k) <= id < First(n, npes, k) + Share(n, npes, k)
  }

  /** chareDistribution: the chunk size and the number of chares PE `mype`
      owns. The chunk is the largest count that fits `npes` times; the last
      PE takes what the others leave. */
  function ChareDistribution(nchare: nat, npes: nat, mype: nat): (r: (nat, nat))
    requires mype < npes
    ensures r.0 * npes <= nchare < (r.0 + 1) * npes
    ensures mype < npes - 1 ==> r.1 == r.0
    ensures mype == npes - 1 ==> r.0 * (npes - 1) + r.1 == nchare
  {
    (Chunk(nchare, npes), Share(nchare, npes, mype))
  }

  /** The chunk arithmetic of readGraph: PE `mype` reads elements
      [from, till). */
  function ElementRange(nel: nat, npes: nat, mype: nat): (r: (nat, nat))
    requires mype < npes
    ensures r.0 <= r.1
    ensures r.0 == First(nel, npes, mype) && r.1 - r.0 == Share(nel, npes, mype)
  {
    var chunk := nel / npes;
    var from := mype * chunk;
    var till := from + chunk;
    (from, if mype == npes - 1 then till + nel % npes else till)
  }

  /** The global element ids of PE `mype`'s chunk (std::iota from `from`). */
  function GlobalElementIds(nel: nat, npes: nat, mype: nat): (ids: seq<nat>)
    requires mype < npes
    ensures |ids| == Share(nel, npes, mype)
    ensures forall i :: 0 <= i < |ids| ==> ids[i] == First(nel, npes, mype) + i
    ensures forall i :: 0 <= i < |ids| ==> ids[i] < nel
    ensures forall i :: 0 < i < |ids| ==> ids[i] == ids[i - 1] + 1
  {
    ElementRangeBounds(nel, npes, mype);
    var range := ElementRange(nel, npes, mype);
    seq(range.1 - range.0, i => range.0 + i)
  }

  /** pe: the PE that owns chare `id`. The chunk size must be positive, so
      there must be at least as many chares as PEs; ids past the last full
      chunk belong to the last PE. */
  function Pe(nchare: nat, npes: nat, id: nat): (p: nat)
    requires 0 < npes <= nchare
    ensures p < npes
  {
    ChunkPositive(nchare, npes);
    var q := id / Chunk(nchare, npes);
    if q >= npes then npes - 1 else q
  }

  /** PE p's chares lie in its chunk; the last PE also takes everything
      past the last full chunk. */
  lemma PeBlock(nchare: nat, npes: nat, id: nat)
    requires 0 < npes <= nchare
    ensures var p := Pe(nchare, npes, id);
      && (p < npes - 1 ==> p * Chunk(nchare, npes) <= id < (p + 1) * Chunk(nchare, npes))
      && (p == npes - 1 ==> (npes - 1) * Chunk(nchare, npes) <= id)
  {
    ChunkPositive(nchare, npes);
    PeBounds(id, Chunk(nchare, npes), npes);
  }

  /** The clamped quotient lies between the expected multiples of the chunk. */
  lemma PeBounds(id: nat, chunk: nat, npes: nat)
    requires chunk > 0 && npes > 0
    ensures id / chunk < npes ==> (id / chunk) * chunk <= id < (id / chunk + 1) * chunk
    ensures id / chunk >= npes ==> (npes - 1) * chunk <= id
  {
    DivBounds(id, chunk);
    if id / chunk >= npes {
      MulMono(npes - 1, id / chunk, chunk);
    }
  }

  /** With at least as many items as PEs the chunk is not empty. */
  lemma ChunkPositive(n: nat, npes: nat)
    requires 0 < npes <= n
    ensures Chunk(n, npes) >= 1
  {
    DivBounds(n, npes);
  }

  lemma MulMono(a: nat, b: nat, c: nat)
    requires a <= b
    ensures a * c <= b * c
  {
  }

  /** Euclidean division bounds the dividend between consecutive multiples. */
  lemma DivBounds(a: nat, q: nat)
    requires q > 0
    ensures (a / q) * q <= a < (a / q + 1) * q
  {
  }

  /** The sum of the shares of PEs 0 .. k-1. */
  function SumShares(n: nat, npes: nat, k: nat): nat
    requires k <= npes
  {
    if k == 0 then 0 else SumShares(n, npes, k - 1) + Share(n, npes, k - 1)
  }

  /** The shares are laid out back to back: PE k starts where the PEs before it
      end, and all shares together count every item once. */
  lemma {:induction false} SharesTile(n: nat, npes: nat, k: nat)
    requires 0 < npes && k <= npes
    ensures k < npes ==> SumShares(n, npes, k) == First(n, npes, k)
    ensures k == npes ==> SumShares(n, npes, k) == n
    decreases k
  {
    if k > 0 {
      SharesTile(n, npes, k - 1);
      assert First(n, npes, k) == First(n, npes, k - 1) + Chunk(n, npes);
      if k == npes {
        assert n == npes * (n / npes) + n % npes;
        assert First(n, npes, k - 1) + Chunk(n, npes) == npes * (n / npes);
      }
    }
  }

  /** Element ranges of consecutive PEs meet, the first starts at 0 and the
      last ends at the element count. */
  lemma ElementRangesTile(nel: nat, npes: nat)
    requires npes > 0
    ensures ElementRange(nel, npes, 0).0 == 0
    ensures forall k :: 0 <= k < npes - 1 ==> ElementRange(nel, npes, k).1 == ElementRange(nel, npes, k + 1).0
    ensures ElementRange(nel, npes, npes - 1).1 == nel
  {
    forall k | 0 <= k < npes - 1
      ensures ElementRange(nel, npes, k).1 == ElementRange(nel, npes, k + 1).0
    {
      assert (k + 1) * Chunk(nel, npes) == k * Chunk(nel, npes) + Chunk(nel, npes);
    }
    SharesTile(nel, npes, npes);
    SharesTile(nel, npes, npes - 1);
  }

  /** Every PE reads inside [0, nel); the last one reads up to nel, and each
      other one reads the largest count that fits npes times into nel. */
  lemma ElementRangeBounds(nel: nat, npes: nat, mype: nat)
    requires mype < npes
    ensures var r := ElementRange(nel, npes, mype);
      && r.1 <= nel
      && (mype == npes - 1 ==> r.1 == nel)
      && (mype < npes - 1 ==> (r.1 - r.0) * npes <= nel < (r.1 - r.0 + 1) * npes)
  {
    var chunk := Chunk(nel, npes);
    DivBounds(nel, npes);
    assert nel == npes * chunk + nel % npes;
    assert npes * chunk == (npes - 1) * chunk + chunk;
    MulMono(mype, npes - 1, chunk);
  }

  /** The element ids the PEs read partition [0, nel): each id is read by
      exactly one PE. */
  lemma GlobalElementIdsPartition(nel: nat, npes: nat, x: nat)
    requires 0 < npes && x < nel
    ensures exists k: nat :: k < npes && x in GlobalElementIds(nel, npes, k)
    ensures forall j: nat, k: nat ::
              j < npes && k < npes && x in GlobalElementIds(nel, npes, j) && x in GlobalElementIds(nel, npes, k)
              ==> j == k
  {
    var k := if npes <= nel then Pe(nel, npes, x) else npes - 1;
    if npes <= nel {
      PeHolds(nel, npes, x);
    } else {
      assert Chunk(nel, npes) == 0;
    }
    assert Holds(nel, npes, k, x);
    assert GlobalElementIds(nel, npes, k)[x - First(nel, npes, k)] == x;
    forall j: nat, k': nat | j < npes && k' < npes && x in GlobalElementIds(nel, npes, j) && x in GlobalElementIds(nel, npes, k')
      ensures j == k'
    {
      HoldersAgree(nel, npes, j, k', x);
    }
  }

  /** pe inverts the distribution: a chare id below `nchare` maps to PE k
      exactly when PE k holds it, so every owned chare id
      `k * chunk + c` (c < the PE's count) maps back to k. */
  lemma PeOwnsHeldChares(nchare: nat, npes: nat, id: nat, k: nat)
    requires 0 < npes <= nchare
    requires id < nchare && k < npes
    ensures Pe(nchare, npes, id) == k <==> Holds(nchare, npes, k, id)
  {
    PeHolds(nchare, npes, id);
    if Holds(nchare, npes, k, id) {
      HoldersAgree(nchare, npes, Pe(nchare, npes, id), k, id);
    }
  }

  /** The PE that pe names holds the chare. */
  lemma PeHolds(nchare: nat, npes: nat, id: nat)
    requires 0 < npes <= nchare && id < nchare
    ensures Holds(nchare, npes, Pe(nchare, npes, id), id)
  {
    var chunk := Chunk(nchare, npes);
    var p := Pe(nchare, npes, id);
    PeBlock(nchare, npes, id);
    assert (p + 1) * chunk == p * chunk + chunk;
    if p == npes - 1 {
      DivBounds(nchare, npes);
      assert nchare == npes * chunk + nchare % npes;
      assert npes * chunk == (npes - 1) * chunk + chunk;
    }
  }

  /** No chare is held by two PEs. */
  lemma HoldersAgree(nchare: nat, npes: nat, j: nat, k: nat, id: nat)
    requires 0 < npes && j < npes && k < npes
    requires Holds(nchare, npes, j, id) && Holds(nchare, npes, k, id)
    ensures j == k
  {
    var chunk := Chunk(nchare, npes);
    if j < k {
      assert (j + 1) * chunk == j * chunk + chunk;
      MulMono(j + 1, k, chunk);
    } else if k < j {
      assert (k + 1) * chunk == k * chunk + chunk;
      MulMono(k + 1, j, chunk);
    }
  }
}

=== FILE: EdgeStore.dfy ===
/**
 The edge store of the AMR library: edges keyed by their canonical unordered
 node pair, each carrying a lock case and refine/derefine flags
 (src/Inciter/AMR/edge_store.h).
 */
module EdgeStore {
  import opened AmrTypes

  /** Edge_Refinement: the end nodes as given, the refinement criterion, the
      refine and derefine flags, a third flag that every constructor call in
      the core clears (taken to be the "dead" flag), and the lock case. */
  datatype Edge = Edge(
    a: nat,
    b: nat,
    criterion: real,
    needsRefining: bool,
    needsDerefining: bool,
    isDead: bool,
    lockCase: LockCase)

  type Store = map<EdgeKey, Edge>

  /** An edge as `generate` builds it: criterion 0 and every flag cleared. */
  function NewEdge(a: nat, b: nat, lc: LockCase): Edge {
    Edge(a, b, 0.0, false, false, false, lc)
  }

  /** A key whose first node is the smaller one. */
  predicate Canonical(k: EdgeKey) {
    k.lo <= k.hi
  }

  /** nodes_to_key: the same key whichever way round the nodes are given. */
  function NodesToKey(a: nat, b: nat): (k: EdgeKey)
    ensures Canonical(k)
    ensures {k.lo, k.hi} == {a, b}
  {
    if a <= b then EdgeKey(a, b) else EdgeKey(b, a)
  }

  /** Swapping the nodes gives the same key. */
  lemma KeySymmetric(a: nat, b: nat)
    ensures NodesToKey(a, b) == NodesToKey(b, a)
  {
  }

  /** Two keys are equal exactly when they name the same unordered pair. */
  lemma KeyIdentifiesPair(a: nat, b: nat, c: nat, d: nat)
    ensures NodesToKey(a, b) == NodesToKey(c, d) <==> {a, b} == {c, d}
  {
    var k1, k2 := NodesToKey(a, b), NodesToKey(c, d);
    if {a, b} == {c, d} {
      assert k1.lo in {c, d} && k1.hi in {c, d};
      assert k2.lo in {a, b} && k2.hi in {a, b};
    }
  }

  /** add: std::map::insert, so an edge already stored under `key` is kept. */
  function Add(s: Store, key: EdgeKey, e: Edge): (r: Store)
    ensures r.Keys == s.Keys + {key}
    ensures key in s ==> r[key] == s[key]
    ensures key !in s ==> r[key] == e
    ensures forall k :: k in s ==> r[k] == s[k]
  {
    if key in s then s else s[key := e]
  }

  /** Adding under a key that is already present changes nothing. */
  lemma AddIdempotent(s: Store, key: EdgeKey, e: Edge, e': Edge)
    ensures Add(Add(s, key, e), key, e') == Add(s, key, e)
  {
  }

  /** generate: a new edge between two different nodes, if none is stored. */
  function Generate(s: Store, a: nat, b: nat, lc: LockCase): (r: Store)
    requires a != b
    ensures r.Keys == s.Keys + {NodesToKey(a, b)}
    ensures NodesToKey(a, b) !in s ==> r[NodesToKey(a, b)] == NewEdge(a, b, lc)
    ensures forall k :: k in s ==> r[k] == s[k]
  {
    Add(s, NodesToKey(a, b), NewEdge(a, b, lc))
  }

  /** The freshly generated edge has all flags clear and the given lock case. */
  lemma GenerateFresh(s: Store, a: nat, b: nat, lc: LockCase)
    requires a != b
    requires NodesToKey(a, b) !in s
    ensures var e := Generate(s, a, b, lc)[NodesToKey(a, b)];
      && e.lockCase == lc
      && !e.needsRefining && !e.needsDerefining && !e.isDead
      && e.criterion == 0.0
  {
  }

  /** split: the two halves A-AB and B-AB of edge A-B exist afterwards; the
      edge A-B itself is left as it was. */
  function Split(s: Store, a: nat, b: nat, ab: nat, lc: LockCase): (r: Store)
    requires a != ab && b != ab
    ensures r.Keys == s.Keys + {NodesToKey(a, ab), NodesToKey(b, ab)}
    ensures forall k :: k in s ==> r[k] == s[k]
    ensures NodesToKey(a, b) in r <==> NodesToKey(a, b) in s
    ensures NodesToKey(a, ab) !in s ==> r[NodesToKey(a, ab)] == NewEdge(a, ab, lc)
    ensures NodesToKey(b, ab) !in s && NodesToKey(b, ab) != NodesToKey(a, ab) ==>
              r[NodesToKey(b, ab)] == NewEdge(b, ab, lc)
  {
    KeyIdentifiesPair(a, b, a, ab);
    KeyIdentifiesPair(a, b, b, ab);
    Generate(Generate(s, a, ab, lc), b, ab, lc)
  }

  /** exists. */
  predicate Exists(s: Store, key: EdgeKey) {
    key in s
  }

  /** get: only defined for a stored key. */
  function Get(s: Store, key: EdgeKey): Edge
    requires Exists(s, key)
  {
    s[key]
  }

  /** lock_case of a stored edge. */
  function LockCaseOf(s: Store, key: EdgeKey): LockCase
    requires Exists(s, key)
  {
    Get(s, key).lockCase
  }

  /** erase: std::map::erase, a no-op for an absent key. */
  function Erase(s: Store, key: EdgeKey): (r: Store)
    ensures r.Keys == s.Keys - {key}
    ensures forall k :: k in r ==> r[k] == s[k]
    ensures key !in s ==> r == s
  {
    s - {key}
  }
  /** Erasing a key that was just added to a store without it restores the
      store. */
  lemma EraseUndoesAdd(s: Store, key: EdgeKey, e: Edge)
    requires key !in s
    ensures Erase(Add(s, key, e), key) == s
  {
  }


  /** The one edge record with its refine flag set to `v`. */
  function WithRefineFlag(s: Store, key: EdgeKey, v: bool): (r: Store)
    requires key in s
    ensures r.Keys == s.Keys
    ensures r[key].needsRefining == v
    ensures var e, e' := s[key], r[key];
      e' == Edge(e.a, e.b, e.criterion, v, e.needsDerefining, e.isDead, e.lockCase)
    ensures forall k :: k in s && k != key ==> r[k] == s[k]
  {
    s[key := s[key].(needsRefining := v)]
  }

  /** mark_for_refinement: sets needs_refining of an existing edge, nothing else. */
  function MarkForRefinement(s: Store, key: EdgeKey): (r: Store)
    requires Exists(s, key)
    ensures r.Keys == s.Keys
    ensures r[key].needsRefining
    ensures var e := s[key];
      r[key] == Edge(e.a, e.b, e.criterion, true, e.needsDerefining, e.isDead, e.lockCase)
    ensures forall k :: k in s && k != key ==> r[k] == s[k]
  {
    WithRefineFlag(s, key, true)
  }

  /** unmark_for_refinement: clears needs_refining of an existing edge. */
  function UnmarkForRefinement(s: Store, key: EdgeKey): (r: Store)
    requires Exists(s, key)
    ensures r.Keys == s.Keys
    ensures !r[key].needsRefining
    ensures var e := s[key];
      r[key] == Edge(e.a, e.b, e.criterion, false, e.needsDerefining, e.isDead, e.lockCase)
    ensures forall k :: k in s && k != key ==> r[k] == s[k]
  {
    WithRefineFlag(s, key, false)
  }

  /** Unmarking undoes marking an edge that was not marked before. */
  lemma MarkUnmarkRoundTrip(s: Store, key: EdgeKey)
    requires Exists(s, key) && !s[key].needsRefining
    ensures UnmarkForRefinement(MarkForRefinement(s, key), key) == s
  {
    var r := UnmarkForRefinement(MarkForRefinement(s, key), key);
    assert r[key] == s[key];
  }

  /** mark_edge_for_derefinement: sets needs_derefining of an existing edge. */
  function MarkEdgeForDerefinement(s: Store, key: EdgeKey): (r: Store)
    requires Exists(s, key)
    ensures r.Keys == s.Keys
    ensures r[key].needsDerefining
    ensures var e := s[key];
      r[key] == Edge(e.a, e.b, e.criterion, e.needsRefining, true, e.isDead, e.lockCase)
    ensures forall k :: k in s && k != key ==> r[k] == s[k]
  {
    s[key := s[key].(needsDerefining := true)]
  }

  /** Marking an edge for derefinement a second time changes nothing, and the
      refine and derefine marks are independent: setting them in either
      order gives the same store. */
  lemma DerefinementMarkIdempotent(s: Store, key: EdgeKey)
    requires Exists(s, key)
    ensures MarkEdgeForDerefinement(MarkEdgeForDerefinement(s, key), key) == MarkEdgeForDerefinement(s, key)
    ensures MarkForRefinement(MarkEdgeForDerefinement(s, key), key) ==
            MarkEdgeForDerefinement(MarkForRefinement(s, key), key)
  {
    var d := MarkEdgeForDerefinement(s, key);
    assert MarkEdgeForDerefinement(d, key)[key] == d[key];
    assert MarkForRefinement(d, key)[key] == MarkEdgeForDerefinement(MarkForRefinement(s, key), key)[key];
  }

  /** The keys of a list of node pairs. */
  function PairKeys(pairs: seq<(nat, nat)>): set<EdgeKey> {
    set i | 0 <= i < |pairs| :: NodesToKey(pairs[i].0, pairs[i].1)
  }

  /** Extending a list of pairs by one adds exactly that pair's key. */
  lemma PairKeysExtend(pairs: seq<(nat, nat)>, i: nat)
    requires i < |pairs|
    ensures PairKeys(pairs[..i + 1]) == PairKeys(pairs[..i]) + {NodesToKey(pairs[i].0, pairs[i].1)}
  {
    var key := NodesToKey(pairs[i].0, pairs[i].1);
    assert pairs[..i + 1][i] == pairs[i];
    forall k | k in PairKeys(pairs[..i + 1])
      ensures k in PairKeys(pairs[..i]) + {key}
    {
      var j :| 0 <= j < i + 1 && k == NodesToKey(pairs[..i + 1][j].0, pairs[..i + 1][j].1);
      if j < i {
        assert pairs[..i + 1][j] == pairs[..i][j];
      }
    }
    forall k | k in PairKeys(pairs[..i])
      ensures k in PairKeys(pairs[..i + 1])
    {
      var j :| 0 <= j < i && k == NodesToKey(pairs[..i][j].0, pairs[..i][j].1);
      assert pairs[..i + 1][j] == pairs[..i][j];
    }
  }

  /** mark_edges_for_refinement: marks every listed pair; each must be stored. */
  method MarkEdgesForRefinement(s: Store, pairs: seq<(nat, nat)>) returns (r: Store)
    requires forall i :: 0 <= i < |pairs| ==> Exists(s, NodesToKey(pairs[i].0, pairs[i].1))
    ensures r.Keys == s.Keys
    ensures forall k :: k in r ==>
      r[k] == if k in PairKeys(pairs) then s[k].(needsRefining := true) else s[k]
  {
    r := s;
    var i := 0;
    while i < |pairs|
      invariant 0 <= i <= |pairs|
      invariant r.Keys == s.Keys
      invariant forall k :: k in r ==>
        r[k] == if k in PairKeys(pairs[..i]) then s[k].(needsRefining := true) else s[k]
    {
      var key := NodesToKey(pairs[i].0, pairs[i].1);
      PairKeysExtend(pairs, i);
      r := MarkForRefinement(r, key);
      i := i + 1;
    }
    assert pairs[..|pairs|] == pairs;
  }

  /** mark_edges_for_derefinement: sets needs_derefining on every listed pair. */
  method MarkEdgesForDerefinement(s: Store, pairs: seq<(nat, nat)>) returns (r: Store)
    requires forall i :: 0 <= i < |pairs| ==> Exists(s, NodesToKey(pairs[i].0, pairs[i].1))
    ensures r.Keys == s.Keys
    ensures forall k :: k in r ==>
      r[k] == if k in PairKeys(pairs) then s[k].(needsDerefining := true) else s[k]
  {
    r := s;
    var i := 0;
    while i < |pairs|
      invariant 0 <= i <= |pairs|
      invariant r.Keys == s.Keys
      invariant forall k :: k in r ==>
        r[k] == if k in PairKeys(pairs[..i]) then s[k].(needsDerefining := true) else s[k]
    {
      var key := NodesToKey(pairs[i].0, pairs[i].1);
      PairKeysExtend(pairs, i);
      r := MarkEdgeForDerefinement(r, key);
      i := i + 1;
    }
    assert pairs[..|pairs|] == pairs;
  }

  /** Node positions (i, j), i < j, of a tet's six edges: AB AC AD BC BD CD. */
  const TET_EDGES: seq<(nat, nat)> := [(0, 1), (0, 2), (0, 3), (1, 2), (1, 3), (2, 3)]

  /** Node positions of a face's three edges: AB AC BC. */
  const FACE_EDGES: seq<(nat, nat)> := [(0, 1), (0, 2), (1, 2)]

  /** The position table lists each pair i < j of tet nodes exactly once,
      in lexicographic order. */
  lemma TetEdgeTable()
    ensures forall i, j :: 0 <= i < j < 4 ==> (i, j) in TET_EDGES
    ensures forall k :: 0 <= k < 6 ==> TET_EDGES[k].0 < TET_EDGES[k].1 < 4
    ensures forall k, l :: 0 <= k < l < 6 ==> LexBefore(TET_EDGES[k], TET_EDGES[l])
  {
  }

  /** Lexicographic order on position pairs. */
  predicate LexBefore(p: (nat, nat), q: (nat, nat)) {
    p.0 < q.0 || (p.0 == q.0 && p.1 < q.1)
  }

  /** generate_keys: the keys AB, AC, AD, BC, BD, CD of a tet, in that order. */
  function GenerateKeys(t: Tet): (keys: seq<EdgeKey>)
    ensures |keys| == 6
    ensures forall k :: 0 <= k < 6 ==>
      keys[k] == NodesToKey(t[TET_EDGES[k].0], t[TET_EDGES[k].1])
  {
    var A, B, C, D := t[0], t[1], t[2], t[3];
    [NodesToKey(A, B), NodesToKey(A, C), NodesToKey(A, D),
     NodesToKey(B, C), NodesToKey(B, D), NodesToKey(C, D)]
  }

  /** Every pair of a tet's nodes has its key among the six, and nothing else is. */
  lemma GenerateKeysArePairs(t: Tet)
    ensures forall i, j :: 0 <= i < j < 4 ==> NodesToKey(t[i], t[j]) in GenerateKeys(t)
    ensures forall k :: k in GenerateKeys(t) ==>
      exists i, j :: 0 <= i < j < 4 && k == NodesToKey(t[i], t[j])
  {
    var keys := GenerateKeys(t);
    forall k | k in keys
      ensures exists i, j :: 0 <= i < j < 4 && k == NodesToKey(t[i], t[j])
    {
      var m :| 0 <= m < 6 && keys[m] == k;
      assert k == NodesToKey(t[TET_EDGES[m].0], t[TET_EDGES[m].1]);
    }
  }

  /** A tet with four distinct nodes has six distinct edge keys. */
  lemma GenerateKeysDistinct(t: Tet)
    requires DistinctNodes(t)
    ensures forall k, l :: 0 <= k < l < 6 ==> GenerateKeys(t)[k] != GenerateKeys(t)[l]
  {
    var keys := GenerateKeys(t);
    forall k, l | 0 <= k < l < 6
      ensures keys[k] != keys[l]
    {
      var p, q := TET_EDGES[k], TET_EDGES[l];
      KeyIdentifiesPair(t[p.0], t[p.1], t[q.0], t[q.1]);
    }
  }

  /** generate_keys_from_face_ids: the keys AB, AC, BC of a face. The source
      returns them in the first three slots of a six-slot array. */
  function GenerateKeysFromFaceIds(f: Face): (keys: seq<EdgeKey>)
    ensures |keys| == 3
    ensures forall k :: 0 <= k < 3 ==>
      keys[k] == NodesToKey(f[FACE_EDGES[k].0], f[FACE_EDGES[k].1])
  {
    [NodesToKey(f[0], f[1]), NodesToKey(f[0], f[2]), NodesToKey(f[1], f[2])]
  }
}

=== FILE: Exchange.dfy ===
/**
 The exchange that completes the reordering (request, prepare and neworder in
 src/Inciter/Partitioner.h): every PE asks the PEs in its communication map
 for the new ids of the nodes and edges they number, the owners look them up
 in their own numbering, and the replies are merged into the PE's map. In the
 end every PE holds, for each of its nodes and edges, the id the lowest PE
 holding it assigned.
 */
module Exchange {
  import opened OrderedSets
  import opened ChareGraph
  import opened Communication
  import opened Reorder
  import opened Renumbering

  /** prepare: the new ids of the requested keys, looked up in the answering
      PE's own numbering. tk::cref_find fails on a missing key, so every key
      must be numbered there. */
  function Prepare<K(==,!new)>(lin: map<K, nat>, req: set<K>): (n: map<K, nat>)
    requires req <= lin.Keys
    ensures n.Keys == req
    ensures forall x :: x in n ==> n[x] == lin[x]
  {
    map x | x in req :: lin[x]
  }

  /** neworder: the ids of a reply are stored into the local map. */
  function NewOrder<K(==,!new)>(lin: map<K, nat>, reply: map<K, nat>): (r: map<K, nat>)
    ensures r.Keys == lin.Keys + reply.Keys
    ensures forall x :: x in reply ==> r[x] == reply[x]
    ensures forall x :: x in lin && x !in reply ==> r[x] == lin[x]
  {
    lin + reply
  }

  /** Requests of PE k for nodes reach only lower PEs, and each requested
      node is one the PE asked holds with no PE below it holding it. */
  lemma NodeRequestsGoToOwner(m: Machine, k: nat, p: nat)
    requires Ready(m) && k < |m.pes| && p in NodeCommunication(m, k)
    ensures p < k
    ensures forall x :: x in NodeCommunication(m, k)[p] ==> x in m.pes[p].nodeset && FirstNode(m, p, x)
  {
    DedupEntries(NodeComm(m.pes, k));
    forall x | x in NodeCommunication(m, k)[p] ensures x in m.pes[p].nodeset && FirstNode(m, p, x) {
      LowestSharer(m.pes, k, p, x);
    }
  }

  /** A node PE k shares with PE p and with no PE below p is held by no PE
      below p. */
  lemma LowestSharer(pes: seq<PeData>, k: nat, p: nat, x: nat)
    requires k < |pes| && p in NodeComm(pes, k) && x in NodeComm(pes, k)[p]
    requires forall q :: q in NodeComm(pes, k) && q < p ==> x !in NodeComm(pes, k)[q]
    ensures p < k && x in pes[p].nodeset
    ensures forall q :: 0 <= q < p ==> x !in pes[q].nodeset
  {
    forall q | 0 <= q < p ensures x !in pes[q].nodeset {
      assert q in NodeComm(pes, k);
    }
  }

  /** The same for edges. */
  lemma EdgeRequestsGoToOwner(m: Machine, k: nat, p: nat)
    requires Ready(m) && k < |m.pes| && p in EdgeCommunication(m, k)
    ensures p < k
    ensures forall e :: e in EdgeCommunication(m, k)[p] ==> e in m.pes[p].edgeset && FirstEdge(m, p, e)
  {
    DedupEntries(EdgeComm(m.pes, k));
    forall e | e in EdgeCommunication(m, k)[p] ensures e in m.pes[p].edgeset && FirstEdge(m, p, e) {
      LowestEdgeSharer(m.pes, k, p, e);
    }
  }

  lemma LowestEdgeSharer(pes: seq<PeData>, k: nat, p: nat, e: MeshEdge)
    requires k < |pes| && p in EdgeComm(pes, k) && e in EdgeComm(pes, k)[p]
    requires forall q :: q in EdgeComm(pes, k) && q < p ==> e !in EdgeComm(pes, k)[q]
    ensures p < k && e in pes[p].edgeset
    ensures forall q :: 0 <= q < p ==> e !in pes[q].edgeset
  {
    forall q | 0 <= q < p ensures e !in pes[q].edgeset {
      assert q in EdgeComm(pes, k);
    }
  }

  /** The lookups of prepare succeed at the PE asked. */
  lemma PrepareFindsNodeIds(m: Machine, k: nat, p: nat)
    requires Ready(m) && k < |m.pes| && p in NodeCommunication(m, k)
    ensures p < k && NodeCommunication(m, k)[p] <= Numbered(m, p).linnodes.Keys
  {
    NodeRequestsGoToOwner(m, k, p);
    NumbersFirstHeld(m, p);
  }

  lemma PrepareFindsEdgeIds(m: Machine, k: nat, p: nat)
    requires Ready(m) && k < |m.pes| && p in EdgeCommunication(m, k)
    ensures p < k && EdgeCommunication(m, k)[p] <= Numbered(m, p).linedges.Keys
  {
    EdgeRequestsGoToOwner(m, k, p);
    NumbersFirstHeld(m, p);
  }

  /** Some PE holds node x. */
  ghost predicate HeldNode(m: Machine, x: nat) {
    exists k :: 0 <= k < |m.pes| && x in m.pes[k].nodeset
  }

  /** Some PE holds edge e. */
  ghost predicate HeldEdge(m: Machine, e: MeshEdge) {
    exists k :: 0 <= k < |m.pes| && e in m.pes[k].edgeset
  }

  /** The lowest PE holding node x: the one that numbers it. */
  function NodeOwner(m: Machine, x: nat): (k: nat)
    requires HeldNode(m, x)
    ensures k < |m.pes| && x in m.pes[k].nodeset && FirstNode(m, k, x)
  {
    var holders := set k | 0 <= k < |m.pes| && x in m.pes[k].nodeset;
    var k0 :| 0 <= k0 < |m.pes| && x in m.pes[k0].nodeset;
    assert k0 in holders;
    var k := Least(holders);
    assert k in holders;
    forall p | 0 <= p < k ensures x !in m.pes[p].nodeset {
      assert p !in holders;
    }
    k
  }

  /** The lowest PE holding edge e. */
  function EdgeOwner(m: Machine, e: MeshEdge): (k: nat)
    requires HeldEdge(m, e)
    ensures k < |m.pes| && e in m.pes[k].edgeset && FirstEdge(m, k, e)
  {
    var holders := set k | 0 <= k < |m.pes| && e in m.pes[k].edgeset;
    var k0 :| 0 <= k0 < |m.pes| && e in m.pes[k0].edgeset;
    assert k0 in holders;
    var k := Least(holders);
    assert k in holders;
    forall p | 0 <= p < k ensures e !in m.pes[p].edgeset {
      assert p !in holders;
    }
    k
  }

  /** Exactly one PE numbers a held node: its lowest holder. */
  lemma NodeNumberedOnce(m: Machine, x: nat, k: nat)
    requires Ready(m) && HeldNode(m, x) && k < |m.pes|
    ensures x in Numbered(m, k).linnodes <==> k == NodeOwner(m, x)
  {
    NumbersFirstHeld(m, k);
  }

  /** Exactly one PE numbers a held edge: its lowest holder. */
  lemma EdgeNumberedOnce(m: Machine, e: MeshEdge, k: nat)
    requires Ready(m) && HeldEdge(m, e) && k < |m.pes|
    ensures e in Numbered(m, k).linedges <==> k == EdgeOwner(m, e)
  {
    NumbersFirstHeld(m, k);
  }

  /** The id every PE ends up with for node x. */
  function FinalNodeId(m: Machine, x: nat): nat
    requires Ready(m) && HeldNode(m, x)
  {
    NodeNumberedOnce(m, x, NodeOwner(m, x));
    Numbered(m, NodeOwner(m, x)).linnodes[x]
  }

  /** The id every PE ends up with for edge e. */
  function FinalEdgeId(m: Machine, e: MeshEdge): nat
    requires Ready(m) && HeldEdge(m, e)
  {
    EdgeNumberedOnce(m, e, EdgeOwner(m, e));
    Numbered(m, EdgeOwner(m, e)).linedges[e]
  }

  /** What PE k should hold once reordered: the final id of each of its
      nodes, and of each of its edges. */
  function FinalNodes(m: Machine, k: nat): (f: map<nat, nat>)
    requires Ready(m) && k < |m.pes|
    ensures f.Keys == m.pes[k].nodeset
  {
    map x | x in m.pes[k].nodeset :: FinalNodeId(m, x)
  }

  function FinalEdges(m: Machine, k: nat): (f: map<MeshEdge, nat>)
    requires Ready(m) && k < |m.pes|
    ensures f.Keys == m.pes[k].edgeset
  {
    map e | e in m.pes[k].edgeset :: FinalEdgeId(m, e)
  }

  /** The PEs in `order` are ones PE k requests nodes from. */
  ghost predicate NodeRequestOrder(m: Machine, k: nat, order: seq<nat>)
    requires Ready(m) && k < |m.pes|
  {
    forall i :: 0 <= i < |order| ==> order[i] in NodeCommunication(m, k)
  }

  ghost predicate EdgeRequestOrder(m: Machine, k: nat, order: seq<nat>)
    requires Ready(m) && k < |m.pes|
  {
    forall i :: 0 <= i < |order| ==> order[i] in EdgeCommunication(m, k)
  }

  /** The map after neworder has stored each reply of `replies` in turn. */
  function MergeAll<K(==,!new)>(base: map<K, nat>, replies: seq<map<K, nat>>): (r: map<K, nat>)
    decreases |replies|
  {
    if replies == [] then base
    else
      var n := |replies| - 1;
      NewOrder(MergeAll(base, replies[..n]), replies[n])
  }

  /** The merged map holds exactly the keys of the base and of the replies. */
  lemma {:induction false} MergeAllKeys<K(!new)>(base: map<K, nat>, replies: seq<map<K, nat>>)
    ensures forall x :: x in MergeAll(base, replies) <==>
      x in base || exists i :: 0 <= i < |replies| && x in replies[i]
    decreases |replies|
  {
    if replies != [] {
      var n := |replies| - 1;
      MergeAllKeys(base, replies[..n]);
      forall x | x in MergeAll(base, replies)
        ensures x in base || exists i :: 0 <= i < |replies| && x in replies[i]
      {
        if x !in replies[n] && x !in base {
          var i :| 0 <= i < n && x in replies[..n][i];
          assert x in replies[i];
        }
      }
      forall x, i | 0 <= i < |replies| && x in replies[i] ensures x in MergeAll(base, replies) {
        if i < n {
          assert x in replies[..n][i];
        }
      }
    }
  }

  /** Every entry of `g` carries the id `f` gives its key. */
  ghost predicate Agrees<K(!new)>(g: map<K, nat>, f: map<K, nat>) {
    forall x :: x in g ==> x in f && g[x] == f[x]
  }

  /** Merging replies that agree with `f` into a map that agrees with `f`
      keeps it agreeing, whatever the order of the replies. */
  lemma {:induction false} MergeAllAgrees<K(!new)>(base: map<K, nat>, replies: seq<map<K, nat>>, f: map<K, nat>)
    requires Agrees(base, f)
    requires forall i :: 0 <= i < |replies| ==> Agrees(replies[i], f)
    ensures Agrees(MergeAll(base, replies), f)
    decreases |replies|
  {
    if replies != [] {
      var n := |replies| - 1;
      assert forall i :: 0 <= i < n ==> replies[..n][i] == replies[i];
      MergeAllAgrees(base, replies[..n], f);
    }
  }

  /** The reply PE p sends to PE k: the ids of the nodes k requested from
      it, none when k requested nothing from p. */
  function NodeReply(m: Machine, k: nat, p: nat): (r: map<nat, nat>)
    requires Ready(m) && k < |m.pes|
    ensures p in NodeCommunication(m, k) ==> r.Keys == NodeCommunication(m, k)[p]
    ensures p !in NodeCommunication(m, k) ==> r == map[]
  {
    if p in NodeCommunication(m, k) then
      PrepareFindsNodeIds(m, k, p);
      Prepare(Numbered(m, p).linnodes, NodeCommunication(m, k)[p])
    else map[]
  }

  function EdgeReply(m: Machine, k: nat, p: nat): (r: map<MeshEdge, nat>)
    requires Ready(m) && k < |m.pes|
    ensures p in EdgeCommunication(m, k) ==> r.Keys == EdgeCommunication(m, k)[p]
    ensures p !in EdgeCommunication(m, k) ==> r == map[]
  {
    if p in EdgeCommunication(m, k) then
      PrepareFindsEdgeIds(m, k, p);
      Prepare(Numbered(m, p).linedges, EdgeCommunication(m, k)[p])
    else map[]
  }

  /** The replies of the PEs in `order`, in that order. */
  function Replies<K(==,!new)>(reply: nat -> map<K, nat>, order: seq<nat>): (rs: seq<map<K, nat>>)
    ensures |rs| == |order|
    ensures forall i :: 0 <= i < |order| ==> rs[i] == reply(order[i])
  {
    seq(|order|, i requires 0 <= i < |order| => reply(order[i]))
  }

  function NodeReplies(m: Machine, k: nat, order: seq<nat>): (rs: seq<map<nat, nat>>)
    requires Ready(m) && k < |m.pes|
  {
    Replies(p => NodeReply(m, k, p), order)
  }

  function EdgeReplies(m: Machine, k: nat, order: seq<nat>): (rs: seq<map<MeshEdge, nat>>)
    requires Ready(m) && k < |m.pes|
  {
    Replies(p => EdgeReply(m, k, p), order)
  }

  /** m_linnodes of PE k: its own numbering, then the replies of the PEs in
      `order` merged by neworder in the order they arrive. */
  function GatherNodes(m: Machine, k: nat, order: seq<nat>): map<nat, nat>
    requires Ready(m) && k < |m.pes|
  {
    MergeAll(Numbered(m, k).linnodes, NodeReplies(m, k, order))
  }

  /** m_linedges of PE k, gathered the same way. */
  function GatherEdges(m: Machine, k: nat, order: seq<nat>): map<MeshEdge, nat>
    requires Ready(m) && k < |m.pes|
  {
    MergeAll(Numbered(m, k).linedges, EdgeReplies(m, k, order))
  }

  /** The ids requested from the PEs in `order`, one request per PE. */
  function Requested<K(==,!new)>(comm: map<nat, set<K>>, order: seq<nat>): (r: set<K>)
    requires forall i :: 0 <= i < |order| ==> order[i] in comm
    ensures forall x :: x in r <==> exists i :: 0 <= i < |order| && x in comm[order[i]]
    decreases |order|
  {
    if order == [] then {}
    else
      var n := |order| - 1;
      assert forall i :: 0 <= i < n ==> order[..n][i] == order[i];
      Requested(comm, order[..n]) + comm[order[n]]
  }

  /** Once every PE of the map has answered, the requested ids are all the
      ids of the map. */
  lemma RequestedCovers<K(!new)>(comm: map<nat, set<K>>, order: seq<nat>)
    requires forall i :: 0 <= i < |order| ==> order[i] in comm
    requires forall p :: p in comm ==> p in order
    ensures Requested(comm, order) == Union(comm)
  {
    forall x | x in Union(comm) ensures x in Requested(comm, order) {
      var p :| p in comm && x in comm[p];
      var i :| 0 <= i < |order| && order[i] == p;
    }
  }

  /** Merging one reply per requested PE adds exactly the requested ids. */
  lemma MergeRequested<K(!new)>(base: map<K, nat>, replies: seq<map<K, nat>>, comm: map<nat, set<K>>, order: seq<nat>)
    requires |replies| == |order|
    requires forall i :: 0 <= i < |order| ==> order[i] in comm && replies[i].Keys == comm[order[i]]
    ensures forall x :: x in MergeAll(base, replies) <==> x in base || x in Requested(comm, order)
  {
    MergeAllKeys(base, replies);
  }

  /** The ids PE k numbers itself are the final ones. */
  lemma OwnNodesFinal(m: Machine, k: nat)
    requires Ready(m) && k < |m.pes|
    ensures Agrees(Numbered(m, k).linnodes, FinalNodes(m, k))
  {
    NumbersFirstHeld(m, k);
    forall x | x in Numbered(m, k).linnodes
      ensures x in FinalNodes(m, k) && Numbered(m, k).linnodes[x] == FinalNodes(m, k)[x]
    {
      NodeNumberedOnce(m, x, k);
    }
  }

  lemma OwnEdgesFinal(m: Machine, k: nat)
    requires Ready(m) && k < |m.pes|
    ensures Agrees(Numbered(m, k).linedges, FinalEdges(m, k))
  {
    NumbersFirstHeld(m, k);
    forall e | e in Numbered(m, k).linedges
      ensures e in FinalEdges(m, k) && Numbered(m, k).linedges[e] == FinalEdges(m, k)[e]
    {
      EdgeNumberedOnce(m, e, k);
    }
  }

  /** A reply carries the final ids of the nodes asked for. */
  lemma NodeReplyFinal(m: Machine, k: nat, p: nat)
    requires Ready(m) && k < |m.pes| && p in NodeCommunication(m, k)
    ensures Agrees(NodeReply(m, k, p), FinalNodes(m, k))
  {
    PrepareFindsNodeIds(m, k, p);
    NumbersFirstHeld(m, p);
    forall x | x in NodeReply(m, k, p)
      ensures x in FinalNodes(m, k) && NodeReply(m, k, p)[x] == FinalNodes(m, k)[x]
    {
      NodeNumberedOnce(m, x, p);
    }
  }

  lemma EdgeReplyFinal(m: Machine, k: nat, p: nat)
    requires Ready(m) && k < |m.pes| && p in EdgeCommunication(m, k)
    ensures Agrees(EdgeReply(m, k, p), FinalEdges(m, k))
  {
    PrepareFindsEdgeIds(m, k, p);
    NumbersFirstHeld(m, p);
    forall e | e in EdgeReply(m, k, p)
      ensures e in FinalEdges(m, k) && EdgeReply(m, k, p)[e] == FinalEdges(m, k)[e]
    {
      EdgeNumberedOnce(m, e, p);
    }
  }

  /** A map that agrees with `f` on all of `f`'s keys is `f`. */
  lemma AgreesEverywhere<K(!new)>(g: map<K, nat>, f: map<K, nat>)
    requires Agrees(g, f) && f.Keys <= g.Keys
    ensures g == f
  {
  }

  /** Each reply answers the request sent and carries final ids. */
  lemma NodeRepliesFinal(m: Machine, k: nat, order: seq<nat>)
    requires Ready(m) && k < |m.pes| && NodeRequestOrder(m, k, order)
    ensures forall i :: 0 <= i < |order| ==>
      NodeReplies(m, k, order)[i].Keys == NodeCommunication(m, k)[order[i]]
      && Agrees(NodeReplies(m, k, order)[i], FinalNodes(m, k))
  {
    forall i | 0 <= i < |order|
      ensures NodeReplies(m, k, order)[i].Keys == NodeCommunication(m, k)[order[i]]
      ensures Agrees(NodeReplies(m, k, order)[i], FinalNodes(m, k))
    {
      NodeReplyFinal(m, k, order[i]);
    }
  }

  lemma EdgeRepliesFinal(m: Machine, k: nat, order: seq<nat>)
    requires Ready(m) && k < |m.pes| && EdgeRequestOrder(m, k, order)
    ensures forall i :: 0 <= i < |order| ==>
      EdgeReplies(m, k, order)[i].Keys == EdgeCommunication(m, k)[order[i]]
      && Agrees(EdgeReplies(m, k, order)[i], FinalEdges(m, k))
  {
    forall i | 0 <= i < |order|
      ensures EdgeReplies(m, k, order)[i].Keys == EdgeCommunication(m, k)[order[i]]
      ensures Agrees(EdgeReplies(m, k, order)[i], FinalEdges(m, k))
    {
      EdgeReplyFinal(m, k, order[i]);
    }
  }

  /** After the replies of the PEs in `order` PE k holds its own nodes and
      every node requested so far, each with the id its owner gave it. */
  lemma GatherNodesInvariant(m: Machine, k: nat, order: seq<nat>)
    requires Ready(m) && k < |m.pes| && NodeRequestOrder(m, k, order)
    ensures forall x :: x in GatherNodes(m, k, order) <==>
      x in Numbered(m, k).linnodes || x in Requested(NodeCommunication(m, k), order)
    ensures Agrees(GatherNodes(m, k, order), FinalNodes(m, k))
  {
    var replies := NodeReplies(m, k, order);
    NodeRepliesFinal(m, k, order);
    MergeRequested(Numbered(m, k).linnodes, replies, NodeCommunication(m, k), order);
    OwnNodesFinal(m, k);
    MergeAllAgrees(Numbered(m, k).linnodes, replies, FinalNodes(m, k));
  }

  lemma GatherEdgesInvariant(m: Machine, k: nat, order: seq<nat>)
    requires Ready(m) && k < |m.pes| && EdgeRequestOrder(m, k, order)
    ensures forall e :: e in GatherEdges(m, k, order) <==>
      e in Numbered(m, k).linedges || e in Requested(EdgeCommunication(m, k), order)
    ensures Agrees(GatherEdges(m, k, order), FinalEdges(m, k))
  {
    var replies := EdgeReplies(m, k, order);
    EdgeRepliesFinal(m, k, order);
    MergeRequested(Numbered(m, k).linedges, replies, EdgeCommunication(m, k), order);
    OwnEdgesFinal(m, k);
    MergeAllAgrees(Numbered(m, k).linedges, replies, FinalEdges(m, k));
  }

  /** A merged map that holds the unshared ids and every shared one, each
      agreeing with `f`, is `f` itself when `f` covers exactly the local ids. */
  lemma CompleteMerge<K(!new)>(g: map<K, nat>, f: map<K, nat>, own: set<K>, req: set<K>, local: set<K>, shared: set<K>)
    requires forall x :: x in g <==> x in own || x in req
    requires Agrees(g, f) && f.Keys == local
    requires own == local - shared && req == shared
    requires forall x :: x in shared ==> x in local
    ensures g == f && |g| == |local|
  {
    assert g.Keys == local;
  }

  /** The ids of a deduplicated map all belong to the local set. */
  lemma UnionWithin<K(!new)>(comm: map<nat, set<K>>, local: set<K>)
    requires CommWithin(comm, local)
    ensures forall x :: x in Union(comm) ==> x in local
  {
  }

  /** Once every PE in the communication map has replied, PE k holds the
      final id of each of its nodes and of nothing else, so the size check of
      neworder (m_linnodes.size() == m_nodeset.size()) passes. */
  lemma ReorderCompletesNodes(m: Machine, k: nat, order: seq<nat>)
    requires Ready(m) && k < |m.pes| && NodeRequestOrder(m, k, order)
    requires forall p :: p in NodeCommunication(m, k) ==> p in order
    ensures GatherNodes(m, k, order) == FinalNodes(m, k)
    ensures |GatherNodes(m, k, order)| == |m.pes[k].nodeset|
  {
    var comm := NodeCommunication(m, k);
    GatherNodesInvariant(m, k, order);
    RequestedCovers(comm, order);
    UnionWithin(comm, m.pes[k].nodeset);
    CompleteMerge(GatherNodes(m, k, order), FinalNodes(m, k), Numbered(m, k).linnodes.Keys,
      Requested(comm, order), m.pes[k].nodeset, Union(comm));
  }

  lemma ReorderCompletesEdges(m: Machine, k: nat, order: seq<nat>)
    requires Ready(m) && k < |m.pes| && EdgeRequestOrder(m, k, order)
    requires forall p :: p in EdgeCommunication(m, k) ==> p in order
    ensures GatherEdges(m, k, order) == FinalEdges(m, k)
    ensures |GatherEdges(m, k, order)| == |m.pes[k].edgeset|
  {
    var comm := EdgeCommunication(m, k);
    GatherEdgesInvariant(m, k, order);
    RequestedCovers(comm, order);
    UnionWithin(comm, m.pes[k].edgeset);
    CompleteMerge(GatherEdges(m, k, order), FinalEdges(m, k), Numbered(m, k).linedges.Keys,
      Requested(comm, order), m.pes[k].edgeset, Union(comm));
  }

  /** Distinct nodes end up with distinct ids. */
  lemma FinalNodeIdsDistinct(m: Machine, x: nat, y: nat)
    requires Ready(m) && HeldNode(m, x) && HeldNode(m, y) && x != y
    ensures FinalNodeId(m, x) != FinalNodeId(m, y)
  {
    NodeNumberedOnce(m, x, NodeOwner(m, x));
    NodeNumberedOnce(m, y, NodeOwner(m, y));
    NodeIdUnique(m, NodeOwner(m, x), NodeOwner(m, y), x, y);
  }

  /** Distinct edges end up with distinct ids. */
  lemma FinalEdgeIdsDistinct(m: Machine, e: MeshEdge, f: MeshEdge)
    requires Ready(m) && HeldEdge(m, e) && HeldEdge(m, f) && e != f
    ensures FinalEdgeId(m, e) != FinalEdgeId(m, f)
  {
    EdgeNumberedOnce(m, e, EdgeOwner(m, e));
    EdgeNumberedOnce(m, f, EdgeOwner(m, f));
    EdgeIdUnique(m, EdgeOwner(m, e), EdgeOwner(m, f), e, f);
  }

  /** No node shares its final id with an edge. */
  lemma FinalIdsApart(m: Machine, x: nat, e: MeshEdge)
    requires Ready(m) && HeldNode(m, x) && HeldEdge(m, e)
    ensures FinalNodeId(m, x) != FinalEdgeId(m, e)
  {
    NodeNumberedOnce(m, x, NodeOwner(m, x));
    EdgeNumberedOnce(m, e, EdgeOwner(m, e));
    NodeEdgeIdsApart(m, NodeOwner(m, x), EdgeOwner(m, e), x, e);
  }

  /** Every final id lies below the total count of nodes and edges. */
  lemma FinalIdsBelowTotal(m: Machine, x: nat, e: MeshEdge)
    requires Ready(m)
    ensures HeldNode(m, x) ==> FinalNodeId(m, x) < Total(m)
    ensures HeldEdge(m, e) ==> FinalEdgeId(m, e) < Total(m)
  {
    if HeldNode(m, x) {
      var k := NodeOwner(m, x);
      NodeNumberedOnce(m, x, k);
      assert Hit(Numbered(m, k).linnodes, FinalNodeId(m, x));
      IssuedBelowTotal(m, FinalNodeId(m, x));
    }
    if HeldEdge(m, e) {
      var k := EdgeOwner(m, e);
      EdgeNumberedOnce(m, e, k);
      assert Hit(Numbered(m, k).linedges, FinalEdgeId(m, e));
      IssuedBelowTotal(m, FinalEdgeId(m, e));
    }
  }

  /** The final id of a node lies in its owner's range. */
  lemma FinalNodeIdInRange(m: Machine, x: nat)
    requires Ready(m) && HeldNode(m, x)
    ensures Start(m, NodeOwner(m, x)) <= FinalNodeId(m, x) < Start(m, NodeOwner(m, x) + 1)
  {
    NodeNumberedOnce(m, x, NodeOwner(m, x));
    OwnRange(m, NodeOwner(m, x));
  }

  lemma FinalEdgeIdInRange(m: Machine, e: MeshEdge)
    requires Ready(m) && HeldEdge(m, e)
    ensures Start(m, EdgeOwner(m, e)) <= FinalEdgeId(m, e) < Start(m, EdgeOwner(m, e) + 1)
  {
    EdgeNumberedOnce(m, e, EdgeOwner(m, e));
    OwnRange(m, EdgeOwner(m, e));
  }

  /** A PE holding a node is its owner or above it. */
  lemma NodeOwnerAtOrBelow(m: Machine, k: nat, x: nat)
    requires Ready(m) && k < |m.pes| && x in m.pes[k].nodeset
    ensures HeldNode(m, x) && NodeOwner(m, x) <= k
  {
  }

  lemma EdgeOwnerAtOrBelow(m: Machine, k: nat, e: MeshEdge)
    requires Ready(m) && k < |m.pes| && e in m.pes[k].edgeset
    ensures HeldEdge(m, e) && EdgeOwner(m, e) <= k
  {
  }

  /** A node PE k holds was numbered by PE k or a PE below it, so its final
      id lies below the start of PE k + 1. */
  lemma HeldNodeIdBelow(m: Machine, k: nat, x: nat)
    requires Ready(m) && k < |m.pes| && x in m.pes[k].nodeset
    ensures HeldNode(m, x) && FinalNodeId(m, x) < Start(m, k + 1)
  {
    NodeOwnerAtOrBelow(m, k, x);
    var o := NodeOwner(m, x);
    assert FinalNodeId(m, x) < Start(m, o + 1) by { FinalNodeIdInRange(m, x); }
    assert Start(m, o + 1) <= Start(m, k + 1) by { LaterEnd(m, o, k); }
  }

  lemma HeldEdgeIdBelow(m: Machine, k: nat, e: MeshEdge)
    requires Ready(m) && k < |m.pes| && e in m.pes[k].edgeset
    ensures HeldEdge(m, e) && FinalEdgeId(m, e) < Start(m, k + 1)
  {
    EdgeOwnerAtOrBelow(m, k, e);
    var o := EdgeOwner(m, e);
    assert FinalEdgeId(m, e) < Start(m, o + 1) by { FinalEdgeIdInRange(m, e); }
    assert Start(m, o + 1) <= Start(m, k + 1) by { LaterEnd(m, o, k); }
  }

  /** Every id in PE k's range is the final id of a node or an edge PE k
      holds. */
  lemma OwnIdHeld(m: Machine, k: nat, v: nat)
    requires Ready(m) && k < |m.pes| && Start(m, k) <= v < Start(m, k + 1)
    ensures (exists x :: x in m.pes[k].nodeset && HeldNode(m, x) && FinalNodeId(m, x) == v)
         || (exists e :: e in m.pes[k].edgeset && HeldEdge(m, e) && FinalEdgeId(m, e) == v)
  {
    IssuedInRange(m, k, v);
    NumbersFirstHeld(m, k);
    if Hit(Numbered(m, k).linnodes, v) {
      var x :| x in Numbered(m, k).linnodes && Numbered(m, k).linnodes[x] == v;
      NodeOwnerAtOrBelow(m, k, x);
      NodeNumberedOnce(m, x, k);
    } else {
      var e :| e in Numbered(m, k).linedges && Numbered(m, k).linedges[e] == v;
      EdgeOwnerAtOrBelow(m, k, e);
      EdgeNumberedOnce(m, e, k);
    }
  }
}

=== FILE: Mask.dfy ===
/**
 The mask step of the node reordering (mask in src/Inciter/Partitioner.h):
 every PE receives one query answer from each PE and records, per own chare,
 which other chares share which node or edge (m_msum / m_msumed), and which
 ids PEs with a lower index also hold (m_ncomm / m_ecomm).
 The definitions are generic in the id type so that nodes (old node ids)
 and edges (pairs of old node ids) share them.
 */
module Mask {
  import opened OrderedSets
  import opened ChareGraph

  /** m_msum / m_msumed: own chare -> surrounding chare -> shared ids. */
  type Border<K(==,!new)> = map<nat, map<nat, set<K>>>

  /** Chare `c` records that chare `s` shares id `h`. */
  predicate Has<K(==,!new)>(m: Border<K>, c: nat, s: nat, h: K) {
    c in m && s in m[c] && h in m[c][s]
  }

  /** Entries are only created by inserting into them. */
  predicate NoEmpty<K(==,!new)>(m: Border<K>) {
    forall c, s :: c in m && s in m[c] ==> m[c][s] != {}
  }

  /** Two borders without empty entries that record the same triples under
      the same chares are equal. */
  lemma BorderExt<K(!new)>(a: Border<K>, b: Border<K>)
    requires NoEmpty(a) && NoEmpty(b) && a.Keys == b.Keys
    requires forall c, s, h :: Has(a, c, s, h) <==> Has(b, c, s, h)
    ensures a == b
  {
    forall c | c in a ensures a[c] == b[c] {
      forall s | s in a[c] ensures s in b[c] {
        var h :| h in a[c][s];
        assert Has(a, c, s, h);
      }
      forall s | s in b[c] ensures s in a[c] {
        var h :| h in b[c][s];
        assert Has(b, c, s, h);
      }
      forall s | s in a[c] ensures a[c][s] == b[c][s] {
        assert forall h :: h in a[c][s] <==> Has(a, c, s, h);
      }
    }
  }

  /** m_msum[c]: the entry of chare `c`, created empty when missing. */
  function Touch<K(==,!new)>(m: Border<K>, c: nat): (r: Border<K>)
    ensures r.Keys == m.Keys + {c}
    ensures NoEmpty(m) ==> NoEmpty(r)
    ensures forall c', s', h' :: Has(r, c', s', h') <==> Has(m, c', s', h')
  {
    if c in m then m else m[c := map[]]
  }

  /** sch[s].insert(h): chare `c` records that chare `s` shares `h`. */
  function Insert<K(==,!new)>(m: Border<K>, c: nat, s: nat, h: K): (r: Border<K>)
    ensures r.Keys == m.Keys + {c}
    ensures NoEmpty(m) ==> NoEmpty(r)
    ensures forall c', s', h' :: Has(r, c', s', h') <==> Has(m, c', s', h') || (c' == c && s' == s && h' == h)
  {
    var sch := if c in m then m[c] else map[];
    m[c := sch[s := (if s in sch then sch[s] else {}) + {h}]]
  }

  /** The innermost loop: own chare `c` touches `h`, and every surrounding
      chare `s` in `surr` other than `c` itself is recorded as sharing `h`. */
  function AddSurrounding<K(==,!new)>(m: Border<K>, c: nat, surr: set<nat>, h: K): (r: Border<K>)
    ensures r.Keys == m.Keys + {c}
    ensures NoEmpty(m) ==> NoEmpty(r)
    ensures forall c', s', h' :: Has(r, c', s', h') <==>
      Has(m, c', s', h') || (c' == c && s' in surr && s' != c && h' == h)
    decreases surr
  {
    if surr == {} then Touch(m, c)
    else
      var s := Least(surr);
      AddSurrounding(if s != c then Insert(m, c, s, h) else m, c, surr - {s}, h)
  }

  /** The loop over the own chares `chares` touching `h`. */
  function AddSurrounded<K(==,!new)>(m: Border<K>, chares: set<nat>, surr: set<nat>, h: K): (r: Border<K>)
    ensures r.Keys == m.Keys + chares
    ensures NoEmpty(m) ==> NoEmpty(r)
    ensures forall c', s', h' :: Has(r, c', s', h') <==>
      Has(m, c', s', h') || (c' in chares && s' in surr && s' != c' && h' == h)
    decreases chares
  {
    if chares == {} then m
    else
      var c := Least(chares);
      AddSurrounded(AddSurrounding(m, c, surr, h), chares - {c}, surr, h)
  }

  /** The loop over one answer: for each answered id `h`, in the order the
      hash map is walked, the own chares touching `h` (the local chare list)
      record the answering PE's chares touching `h`. */
  function AddAnswer<K(==,!new)>(m: Border<K>, ans: map<K, set<nat>>, order: seq<K>, local: map<K, set<nat>>): (r: Border<K>)
    requires forall i :: 0 <= i < |order| ==> order[i] in ans && order[i] in local
    ensures NoEmpty(m) ==> NoEmpty(r)
    ensures forall c :: c in r <==> c in m || exists h :: h in order && c in local[h]
    ensures forall c, s, h :: Has(r, c, s, h) <==>
      Has(m, c, s, h) || (h in order && c in local[h] && s in ans[h] && s != c)
    decreases |order|
  {
    if order == [] then m
    else
      var h := order[|order| - 1];
      var prev := AddAnswer(m, ans, order[..|order| - 1], local);
      assert forall x :: x in order <==> x in order[..|order| - 1] || x == h;
      AddSurrounded(prev, local[h], ans[h], h)
  }

  /** A received answer with the order in which its two hash maps are walked. */
  datatype Message = Message(from: nat, answer: Answer, nodeOrder: seq<nat>, edgeOrder: seq<MeshEdge>)

  /** The walk orders list exactly the answered ids. */
  ghost predicate WellOrdered(msg: Message) {
    && (forall h :: h in msg.nodeOrder <==> h in msg.answer.cn)
    && (forall e :: e in msg.edgeOrder <==> e in msg.answer.ce)
  }

  /** What mask accumulates on a PE. */
  datatype MaskState = MaskState(
    msum: Border<nat>,
    msumed: Border<MeshEdge>,
    ncomm: map<nat, set<nat>>,
    ecomm: map<nat, set<MeshEdge>>)

  /** An answer only carries ids this PE asked about, that is, ids of its own
      node and edge sets (so tk::ref_find on the local chare lists succeeds). */
  predicate Answerable(d: PeData, msg: Message) {
    && msg.answer.cn.Keys <= d.nodeset
    && msg.answer.ce.Keys <= d.edgeset
  }

  /** mask(p, cn, ce) on PE `me`: borders grow by the answer, and an answer
      from a lower PE creates (or extends) that PE's communication entries. */
  function Receive(st: MaskState, d: PeData, me: nat, msg: Message): (r: MaskState)
    requires Valid(d) && WellOrdered(msg) && Answerable(d, msg)
    ensures msg.from < me ==> r.ncomm == st.ncomm[msg.from := (if msg.from in st.ncomm then st.ncomm[msg.from] else {}) + msg.answer.cn.Keys]
    ensures msg.from < me ==> r.ecomm == st.ecomm[msg.from := (if msg.from in st.ecomm then st.ecomm[msg.from] else {}) + msg.answer.ce.Keys]
    ensures msg.from >= me ==> r.ncomm == st.ncomm && r.ecomm == st.ecomm
    ensures NoEmpty(st.msum) ==> NoEmpty(r.msum)
    ensures NoEmpty(st.msumed) ==> NoEmpty(r.msumed)
  {
    var a := msg.answer;
    var msum := AddAnswer(st.msum, a.cn, msg.nodeOrder, d.nodechares);
    var msumed := AddAnswer(st.msumed, a.ce, msg.edgeOrder, d.edgechares);
    if msg.from < me then
      var p := msg.from;
      MaskState(msum, msumed,
        st.ncomm[p := (if p in st.ncomm then st.ncomm[p] else {}) + a.cn.Keys],
        st.ecomm[p := (if p in st.ecomm then st.ecomm[p] else {}) + a.ce.Keys])
    else
      MaskState(msum, msumed, st.ncomm, st.ecomm)
  }

  /** The node borders grow by exactly what the answer reports about ids
      that own chares touch, never pairing a chare with itself. */
  lemma ReceiveNodeBorders(st: MaskState, d: PeData, me: nat, msg: Message)
    requires Valid(d) && WellOrdered(msg) && Answerable(d, msg)
    ensures var r := Receive(st, d, me, msg);
      forall c :: c in r.msum <==> c in st.msum || exists h :: h in msg.answer.cn && c in d.nodechares[h]
    ensures var r := Receive(st, d, me, msg);
      forall c, s, h :: Has(r.msum, c, s, h) <==>
        Has(st.msum, c, s, h) || (h in msg.answer.cn && c in d.nodechares[h] && s in msg.answer.cn[h] && s != c)
  {
  }

  /** The same for the edge borders. */
  lemma ReceiveEdgeBorders(st: MaskState, d: PeData, me: nat, msg: Message)
    requires Valid(d) && WellOrdered(msg) && Answerable(d, msg)
    ensures var r := Receive(st, d, me, msg);
      forall c :: c in r.msumed <==> c in st.msumed || exists e :: e in msg.answer.ce && c in d.edgechares[e]
    ensures var r := Receive(st, d, me, msg);
      forall c, s, h :: Has(r.msumed, c, s, h) <==>
        Has(st.msumed, c, s, h) || (h in msg.answer.ce && c in d.edgechares[h] && s in msg.answer.ce[h] && s != c)
  {
  }

  const NOTHING_RECEIVED := MaskState(map[], map[], map[], map[])

  /** The sender indices of the messages received so far. */
  function Senders(msgs: seq<Message>): set<nat> {
    set i | 0 <= i < |msgs| :: msgs[i].from
  }

  ghost predicate AllReceivable(d: PeData, msgs: seq<Message>) {
    forall i :: 0 <= i < |msgs| ==> WellOrdered(msgs[i]) && Answerable(d, msgs[i])
  }

  /** mask called once per message, in arrival order. */
  function ReceiveAll(d: PeData, me: nat, msgs: seq<Message>): (r: MaskState)
    requires Valid(d) && AllReceivable(d, msgs)
    ensures NoEmpty(r.msum) && NoEmpty(r.msumed)
    decreases |msgs|
  {
    if msgs == [] then NOTHING_RECEIVED
    else
      var n := |msgs| - 1;
      ReceivablePrefix(d, msgs, n);
      Receive(ReceiveAll(d, me, msgs[..n]), d, me, msgs[n])
  }

  /** m_ncomm and m_ecomm have an entry for exactly the lower PEs that have
      answered. */
  lemma {:induction false} ReceiveAllKeys(d: PeData, me: nat, msgs: seq<Message>)
    requires Valid(d) && AllReceivable(d, msgs)
    ensures var r := ReceiveAll(d, me, msgs);
      r.ncomm.Keys == r.ecomm.Keys == set p | p in Senders(msgs) && p < me
    decreases |msgs|
  {
    if msgs != [] {
      var n := |msgs| - 1;
      ReceivablePrefix(d, msgs, n);
      ReceiveAllKeys(d, me, msgs[..n]);
      SendersStep(msgs);
      var prev, r := ReceiveAll(d, me, msgs[..n]), ReceiveAll(d, me, msgs);
      assert r == Receive(prev, d, me, msgs[n]);
      if msgs[n].from < me {
        assert r.ncomm.Keys == prev.ncomm.Keys + {msgs[n].from};
        assert r.ecomm.Keys == prev.ecomm.Keys + {msgs[n].from};
      }
    }
  }

  /** Some received answer reports id `h` as touched by chare `s`, and own
      chare `c` touches `h` too. */
  ghost predicate Shared<K(!new)>(sent: set<map<K, set<nat>>>, local: map<K, set<nat>>, c: nat, s: nat, h: K) {
    exists a :: a in sent && h in a && h in local && c in local[h] && s in a[h] && s != c
  }

  /** Some received answer reports an id that own chare `c` touches. */
  ghost predicate Touched<K(!new)>(sent: set<map<K, set<nat>>>, local: map<K, set<nat>>, c: nat) {
    exists a, h :: a in sent && h in a && h in local && c in local[h]
  }

  /** The node answers received so far, and the edge answers. */
  function NodeAnswers(msgs: seq<Message>): set<map<nat, set<nat>>> {
    set i | 0 <= i < |msgs| :: msgs[i].answer.cn
  }

  function EdgeAnswers(msgs: seq<Message>): set<map<MeshEdge, set<nat>>> {
    set i | 0 <= i < |msgs| :: msgs[i].answer.ce
  }

  /** m_msum[c][s] holds h exactly when an answer reported another chare s
      touching h and own chare c touches h; it never records s == c. */
  lemma {:induction false} ReceiveAllNodeBorders(d: PeData, me: nat, msgs: seq<Message>)
    requires Valid(d) && AllReceivable(d, msgs)
    ensures forall c :: c in ReceiveAll(d, me, msgs).msum <==> Touched(NodeAnswers(msgs), d.nodechares, c)
    ensures forall c, s, h :: Has(ReceiveAll(d, me, msgs).msum, c, s, h) <==> Shared(NodeAnswers(msgs), d.nodechares, c, s, h)
    decreases |msgs|
  {
    if msgs != [] {
      var n := |msgs| - 1;
      ReceivablePrefix(d, msgs, n);
      ReceiveAllNodeBorders(d, me, msgs[..n]);
      ReceiveNodeBorders(ReceiveAll(d, me, msgs[..n]), d, me, msgs[n]);
      NodeAnswersStep(msgs);
    }
  }

  /** The same holds for m_msumed and edges. */
  lemma {:induction false} ReceiveAllEdgeBorders(d: PeData, me: nat, msgs: seq<Message>)
    requires Valid(d) && AllReceivable(d, msgs)
    ensures forall c :: c in ReceiveAll(d, me, msgs).msumed <==> Touched(EdgeAnswers(msgs), d.edgechares, c)
    ensures forall c, s, e :: Has(ReceiveAll(d, me, msgs).msumed, c, s, e) <==> Shared(EdgeAnswers(msgs), d.edgechares, c, s, e)
    decreases |msgs|
  {
    if msgs != [] {
      var n := |msgs| - 1;
      ReceivablePrefix(d, msgs, n);
      ReceiveAllEdgeBorders(d, me, msgs[..n]);
      ReceiveEdgeBorders(ReceiveAll(d, me, msgs[..n]), d, me, msgs[n]);
      EdgeAnswersStep(msgs);
    }
  }

  /** Lower PE p answered that it also holds node `h` (or edge `e`). */
  ghost predicate NodeReported(msgs: seq<Message>, p: nat, h: nat) {
    exists i :: 0 <= i < |msgs| && msgs[i].from == p && h in msgs[i].answer.cn
  }

  ghost predicate EdgeReported(msgs: seq<Message>, p: nat, e: MeshEdge) {
    exists i :: 0 <= i < |msgs| && msgs[i].from == p && e in msgs[i].answer.ce
  }

  /** m_ncomm[p] collects the node ids lower PE p answered with. */
  lemma {:induction false} ReceiveAllNodeComm(d: PeData, me: nat, msgs: seq<Message>)
    requires Valid(d) && AllReceivable(d, msgs)
    ensures var r := ReceiveAll(d, me, msgs);
      forall p, h :: p in r.ncomm ==> (h in r.ncomm[p] <==> NodeReported(msgs, p, h))
    decreases |msgs|
  {
    if msgs != [] {
      var n := |msgs| - 1;
      ReceivablePrefix(d, msgs, n);
      ReceiveAllNodeComm(d, me, msgs[..n]);
      var r := ReceiveAll(d, me, msgs);
      forall p, h | p in r.ncomm ensures h in r.ncomm[p] <==> NodeReported(msgs, p, h) {
        NodeCommStep(d, me, msgs, p, h);
      }
    }
  }

  /** One more answer extends m_ncomm[p] by what it reports for p. */
  lemma NodeCommStep(d: PeData, me: nat, msgs: seq<Message>, p: nat, h: nat)
    requires msgs != [] && Valid(d) && AllReceivable(d, msgs)
    requires AllReceivable(d, msgs[..|msgs| - 1])
    requires var prev := ReceiveAll(d, me, msgs[..|msgs| - 1]);
      p in prev.ncomm ==> (h in prev.ncomm[p] <==> NodeReported(msgs[..|msgs| - 1], p, h))
    requires p in ReceiveAll(d, me, msgs).ncomm
    ensures h in ReceiveAll(d, me, msgs).ncomm[p] <==> NodeReported(msgs, p, h)
  {
    var n := |msgs| - 1;
    var prev := ReceiveAll(d, me, msgs[..n]);
    assert ReceiveAll(d, me, msgs) == Receive(prev, d, me, msgs[n]);
    ReceiveAllKeys(d, me, msgs[..n]);
    ReportedStep(msgs, p, h);
    if p !in prev.ncomm {
      SilentSender(d, me, msgs[..n], p, h);
    }
  }

  /** m_ecomm[p] collects the edges lower PE p answered with. */
  lemma {:induction false} ReceiveAllEdgeComm(d: PeData, me: nat, msgs: seq<Message>)
    requires Valid(d) && AllReceivable(d, msgs)
    ensures var r := ReceiveAll(d, me, msgs);
      forall p, e :: p in r.ecomm ==> (e in r.ecomm[p] <==> EdgeReported(msgs, p, e))
    decreases |msgs|
  {
    if msgs != [] {
      var n := |msgs| - 1;
      ReceivablePrefix(d, msgs, n);
      ReceiveAllEdgeComm(d, me, msgs[..n]);
      var r := ReceiveAll(d, me, msgs);
      forall p, e | p in r.ecomm ensures e in r.ecomm[p] <==> EdgeReported(msgs, p, e) {
        EdgeCommStep(d, me, msgs, p, e);
      }
    }
  }

  /** One more answer extends m_ecomm[p] by what it reports for p. */
  lemma EdgeCommStep(d: PeData, me: nat, msgs: seq<Message>, p: nat, e: MeshEdge)
    requires msgs != [] && Valid(d) && AllReceivable(d, msgs)
    requires AllReceivable(d, msgs[..|msgs| - 1])
    requires var prev := ReceiveAll(d, me, msgs[..|msgs| - 1]);
      p in prev.ecomm ==> (e in prev.ecomm[p] <==> EdgeReported(msgs[..|msgs| - 1], p, e))
    requires p in ReceiveAll(d, me, msgs).ecomm
    ensures e in ReceiveAll(d, me, msgs).ecomm[p] <==> EdgeReported(msgs, p, e)
  {
    var n := |msgs| - 1;
    var prev := ReceiveAll(d, me, msgs[..n]);
    assert ReceiveAll(d, me, msgs) == Receive(prev, d, me, msgs[n]);
    ReceiveAllKeys(d, me, msgs[..n]);
    EdgeReportedStep(msgs, p, e);
    if p !in prev.ecomm {
      SilentSender(d, me, msgs[..n], p, e.0);
    }
  }

  /** A lower PE without a communication entry has sent nothing yet. */
  lemma SilentSender(d: PeData, me: nat, msgs: seq<Message>, p: nat, h: nat)
    requires Valid(d) && AllReceivable(d, msgs)
    requires p < me && (p !in ReceiveAll(d, me, msgs).ncomm || p !in ReceiveAll(d, me, msgs).ecomm)
    ensures !NodeReported(msgs, p, h)
    ensures forall e :: !EdgeReported(msgs, p, e)
  {
    ReceiveAllKeys(d, me, msgs);
    assert p !in Senders(msgs);
  }

  lemma ReportedStep(msgs: seq<Message>, p: nat, h: nat)
    requires msgs != []
    ensures NodeReported(msgs, p, h) <==>
      NodeReported(msgs[..|msgs| - 1], p, h) || (msgs[|msgs| - 1].from == p && h in msgs[|msgs| - 1].answer.cn)
  {
    var n := |msgs| - 1;
    if NodeReported(msgs, p, h) {
      var i :| 0 <= i < |msgs| && msgs[i].from == p && h in msgs[i].answer.cn;
      if i < n {
        assert msgs[..n][i] == msgs[i];
      }
    }
    if NodeReported(msgs[..n], p, h) {
      var i :| 0 <= i < n && msgs[..n][i].from == p && h in msgs[..n][i].answer.cn;
      assert msgs[..n][i] == msgs[i];
    }
  }

  lemma EdgeReportedStep(msgs: seq<Message>, p: nat, e: MeshEdge)
    requires msgs != []
    ensures EdgeReported(msgs, p, e) <==>
      EdgeReported(msgs[..|msgs| - 1], p, e) || (msgs[|msgs| - 1].from == p && e in msgs[|msgs| - 1].answer.ce)
  {
    var n := |msgs| - 1;
    if EdgeReported(msgs, p, e) {
      var i :| 0 <= i < |msgs| && msgs[i].from == p && e in msgs[i].answer.ce;
      if i < n {
        assert msgs[..n][i] == msgs[i];
      }
    }
    if EdgeReported(msgs[..n], p, e) {
      var i :| 0 <= i < n && msgs[..n][i].from == p && e in msgs[..n][i].answer.ce;
      assert msgs[..n][i] == msgs[i];
    }
  }

  lemma ReceivablePrefix(d: PeData, msgs: seq<Message>, n: nat)
    requires n <= |msgs| && AllReceivable(d, msgs)
    ensures AllReceivable(d, msgs[..n])
  {
    forall i | 0 <= i < n ensures msgs[..n][i] == msgs[i] { }
  }

  lemma SendersStep(msgs: seq<Message>)
    requires msgs != []
    ensures Senders(msgs) == Senders(msgs[..|msgs| - 1]) + {msgs[|msgs| - 1].from}
  {
    var n := |msgs| - 1;
    forall p | p in Senders(msgs) ensures p in Senders(msgs[..n]) + {msgs[n].from} {
      var i :| 0 <= i < |msgs| && p == msgs[i].from;
      if i < n {
        assert msgs[..n][i] == msgs[i];
      }
    }
    forall p | p in Senders(msgs[..n]) ensures p in Senders(msgs) {
      var i :| 0 <= i < n && p == msgs[..n][i].from;
      assert msgs[..n][i] == msgs[i];
    }
  }

  lemma NodeAnswersStep(msgs: seq<Message>)
    requires msgs != []
    ensures NodeAnswers(msgs) == NodeAnswers(msgs[..|msgs| - 1]) + {msgs[|msgs| - 1].answer.cn}
  {
    var n := |msgs| - 1;
    assert forall i :: 0 <= i < n ==> msgs[..n][i] == msgs[i];
    forall a | a in NodeAnswers(msgs) ensures a in NodeAnswers(msgs[..n]) + {msgs[n].answer.cn} {
      var i :| 0 <= i < |msgs| && a == msgs[i].answer.cn;
      if i < n {
        assert msgs[..n][i] == msgs[i];
      }
    }
  }

  lemma EdgeAnswersStep(msgs: seq<Message>)
    requires msgs != []
    ensures EdgeAnswers(msgs) == EdgeAnswers(msgs[..|msgs| - 1]) + {msgs[|msgs| - 1].answer.ce}
  {
    var n := |msgs| - 1;
    assert forall i :: 0 <= i < n ==> msgs[..n][i] == msgs[i];
    forall a | a in EdgeAnswers(msgs) ensures a in EdgeAnswers(msgs[..n]) + {msgs[n].answer.ce} {
      var i :| 0 <= i < |msgs| && a == msgs[i].answer.ce;
      if i < n {
        assert msgs[..n][i] == msgs[i];
      }
    }
  }

  /** What the messages say, without the walk orders. */
  function Sent(msgs: seq<Message>): set<(nat, Answer)> {
    set i | 0 <= i < |msgs| :: (msgs[i].from, msgs[i].answer)
  }

  /** The PE ids below `k`. */
  function Below(k: nat): (r: set<nat>)
    ensures forall p: nat :: p in r <==> p < k
  {
    if k == 0 then {} else Below(k - 1) + {k - 1}
  }

  /** There are k PE ids below k. */
  lemma {:induction false} BelowSize(k: nat)
    ensures |Below(k)| == k
  {
    if k > 0 {
      BelowSize(k - 1);
    }
  }

  /** Once every PE has answered, m_ncomm and m_ecomm have an entry for
      exactly the PEs below this one, which is what mask asserts. */
  lemma CommMapSize(d: PeData, me: nat, npes: nat, msgs: seq<Message>)
    requires Valid(d) && AllReceivable(d, msgs)
    requires me < npes && Senders(msgs) == Below(npes)
    ensures |ReceiveAll(d, me, msgs).ncomm| == me
    ensures |ReceiveAll(d, me, msgs).ecomm| == me
  {
    var r := ReceiveAll(d, me, msgs);
    ReceiveAllKeys(d, me, msgs);
    assert r.ncomm.Keys == Below(me);
    BelowSize(me);
  }

  /** The state after all answers does not depend on the order in which
      they arrive, nor on the order in which each answer's hash maps are
      walked: only on what was answered by whom. */
  lemma MaskIgnoresArrivalOrder(d: PeData, me: nat, msgs: seq<Message>, msgs': seq<Message>)
    requires Valid(d) && AllReceivable(d, msgs) && AllReceivable(d, msgs')
    requires Sent(msgs) == Sent(msgs')
    ensures ReceiveAll(d, me, msgs) == ReceiveAll(d, me, msgs')
  {
    SentDetermines(msgs, msgs');
    SentDetermines(msgs', msgs);
    SameBorders(d, me, msgs, msgs');
    SameComm(d, me, msgs, msgs');
  }

  lemma SameBorders(d: PeData, me: nat, msgs: seq<Message>, msgs': seq<Message>)
    requires Valid(d) && AllReceivable(d, msgs) && AllReceivable(d, msgs')
    requires NodeAnswers(msgs) == NodeAnswers(msgs') && EdgeAnswers(msgs) == EdgeAnswers(msgs')
    ensures ReceiveAll(d, me, msgs).msum == ReceiveAll(d, me, msgs').msum
    ensures ReceiveAll(d, me, msgs).msumed == ReceiveAll(d, me, msgs').msumed
  {
    var r, r' := ReceiveAll(d, me, msgs), ReceiveAll(d, me, msgs');
    ReceiveAllNodeBorders(d, me, msgs);
    ReceiveAllNodeBorders(d, me, msgs');
    ReceiveAllEdgeBorders(d, me, msgs);
    ReceiveAllEdgeBorders(d, me, msgs');
    BorderExt(r.msum, r'.msum);
    BorderExt(r.msumed, r'.msumed);
  }

  lemma SameComm(d: PeData, me: nat, msgs: seq<Message>, msgs': seq<Message>)
    requires Valid(d) && AllReceivable(d, msgs) && AllReceivable(d, msgs')
    requires Senders(msgs) == Senders(msgs')
    requires forall p, h :: NodeReported(msgs, p, h) <==> NodeReported(msgs', p, h)
    requires forall p, e :: EdgeReported(msgs, p, e) <==> EdgeReported(msgs', p, e)
    ensures ReceiveAll(d, me, msgs).ncomm == ReceiveAll(d, me, msgs').ncomm
    ensures ReceiveAll(d, me, msgs).ecomm == ReceiveAll(d, me, msgs').ecomm
  {
    SameNodeComm(d, me, msgs, msgs');
    SameEdgeComm(d, me, msgs, msgs');
  }

  lemma SameNodeComm(d: PeData, me: nat, msgs: seq<Message>, msgs': seq<Message>)
    requires Valid(d) && AllReceivable(d, msgs) && AllReceivable(d, msgs')
    requires Senders(msgs) == Senders(msgs')
    requires forall p, h :: NodeReported(msgs, p, h) <==> NodeReported(msgs', p, h)
    ensures ReceiveAll(d, me, msgs).ncomm == ReceiveAll(d, me, msgs').ncomm
  {
    var a, b := ReceiveAll(d, me, msgs).ncomm, ReceiveAll(d, me, msgs').ncomm;
    ReceiveAllNodeComm(d, me, msgs);
    ReceiveAllNodeComm(d, me, msgs');
    ReceiveAllKeys(d, me, msgs);
    ReceiveAllKeys(d, me, msgs');
    forall p | p in a ensures a[p] == b[p] {
      SameSet(a[p], b[p], msgs, msgs', p);
    }
  }

  lemma SameEdgeComm(d: PeData, me: nat, msgs: seq<Message>, msgs': seq<Message>)
    requires Valid(d) && AllReceivable(d, msgs) && AllReceivable(d, msgs')
    requires Senders(msgs) == Senders(msgs')
    requires forall p, e :: EdgeReported(msgs, p, e) <==> EdgeReported(msgs', p, e)
    ensures ReceiveAll(d, me, msgs).ecomm == ReceiveAll(d, me, msgs').ecomm
  {
    var a, b := ReceiveAll(d, me, msgs).ecomm, ReceiveAll(d, me, msgs').ecomm;
    ReceiveAllEdgeComm(d, me, msgs);
    ReceiveAllEdgeComm(d, me, msgs');
    ReceiveAllKeys(d, me, msgs);
    ReceiveAllKeys(d, me, msgs');
    forall p | p in a ensures a[p] == b[p] {
      SameEdgeSet(a[p], b[p], msgs, msgs', p);
    }
  }

  lemma SameSet(a: set<nat>, b: set<nat>, msgs: seq<Message>, msgs': seq<Message>, p: nat)
    requires forall h :: h in a <==> NodeReported(msgs, p, h)
    requires forall h :: h in b <==> NodeReported(msgs', p, h)
    requires forall h :: NodeReported(msgs, p, h) <==> NodeReported(msgs', p, h)
    ensures a == b
  {
  }

  lemma SameEdgeSet(a: set<MeshEdge>, b: set<MeshEdge>, msgs: seq<Message>, msgs': seq<Message>, p: nat)
    requires forall e :: e in a <==> EdgeReported(msgs, p, e)
    requires forall e :: e in b <==> EdgeReported(msgs', p, e)
    requires forall e :: EdgeReported(msgs, p, e) <==> EdgeReported(msgs', p, e)
    ensures a == b
  {
  }

  /** Everything msgs reports, msgs' reports too when they send the same. */
  lemma SentDetermines(msgs: seq<Message>, msgs': seq<Message>)
    requires Sent(msgs) == Sent(msgs')
    ensures Senders(msgs) <= Senders(msgs')
    ensures NodeAnswers(msgs) <= NodeAnswers(msgs')
    ensures EdgeAnswers(msgs) <= EdgeAnswers(msgs')
    ensures forall p, h :: NodeReported(msgs, p, h) ==> NodeReported(msgs', p, h)
    ensures forall p, e :: EdgeReported(msgs, p, e) ==> EdgeReported(msgs', p, e)
  {
    forall i | 0 <= i < |msgs|
      ensures exists j :: 0 <= j < |msgs'| && msgs'[j].from == msgs[i].from && msgs'[j].answer == msgs[i].answer
    {
      assert (msgs[i].from, msgs[i].answer) in Sent(msgs');
    }
  }
}

=== FILE: MasterElementStore.dfy ===
/**
 The master element store: each tet's lineage record (refinement case,
 level, parent, children, child count), keyed by element id
 (src/Inciter/AMR/master_element_store.h).
 */
module MasterElementStore {
  import opened AmrTypes

  /** Refinement_State. A new record has no children. */
  datatype RefinementState = RefinementState(
    elementId: nat,
    refinementCase: RefinementCase,
    level: nat,
    parentId: nat,
    children: seq<nat>,
    numChildren: nat)

  type Store = map<nat, RefinementState>

  /** The record the four-argument add builds. */
  function NewState(e: nat, c: RefinementCase, level: nat, parent: nat): RefinementState {
    RefinementState(e, c, level, parent, [], 0)
  }

  /** add(element, case, level, parent): std::map::insert, returning the id.
      An existing record under the id is never replaced. */
  function Add(s: Store, e: nat, c: RefinementCase, level: nat, parent: nat): (r: (Store, nat))
    ensures r.1 == e
    ensures r.0.Keys == s.Keys + {e}
    ensures e in s ==> r.0 == s
    ensures e !in s ==> r.0[e] == NewState(e, c, level, parent)
    ensures forall k :: k in s ==> r.0[k] == s[k]
  {
    if e in s then (s, e) else (s[e := NewState(e, c, level, parent)], e)
  }

  /** add(element, case): a root element, level 0 and parent 0. */
  function AddRoot(s: Store, e: nat, c: RefinementCase): (r: (Store, nat))
    ensures r.1 == e
    ensures r.0.Keys == s.Keys + {e}
    ensures e !in s ==> r.0[e] == NewState(e, c, 0, 0)
    ensures forall k :: k in s ==> r.0[k] == s[k]
  {
    Add(s, e, c, 0, 0)
  }

  /** add(element, case, parent): the parent must be stored; the new record
      sits one level below it and names it as parent. */
  function AddChild(s: Store, e: nat, c: RefinementCase, parent: nat): (r: (Store, nat))
    requires parent in s
    ensures r.1 == e
    ensures r.0.Keys == s.Keys + {e}
    ensures e !in s ==> r.0[e] == NewState(e, c, s[parent].level + 1, parent)
    ensures forall k :: k in s ==> r.0[k] == s[k]
  {
    Add(s, e, c, Get(s, parent).level + 1, parent)
  }

  /** get: map::at, so the id must be stored. */
  function Get(s: Store, e: nat): RefinementState
    requires e in s
  {
    s[e]
  }

  /** get_parent: the parent id recorded for a stored element. */
  function GetParent(s: Store, e: nat): (p: nat)
    requires e in s
    ensures p == s[e].parentId
  {
    Get(s, e).parentId
  }

  /** erase: removes that id only, a no-op if it is absent. */
  function Erase(s: Store, e: nat): (r: Store)
    ensures r.Keys == s.Keys - {e}
    ensures forall k :: k in r ==> r[k] == s[k]
  {
    s - {e}
  }
  /** Erasing an element that was just added to a store without it restores
      the store. */
  lemma EraseUndoesAdd(s: Store, e: nat, c: RefinementCase, level: nat, parent: nat)
    requires e !in s
    ensures Erase(Add(s, e, c, level, parent).0, e) == s
  {
  }


  /** size. */
  function Size(s: Store): nat {
    |s|
  }

  /** Erasing a stored id drops the size by one; erasing an absent id keeps it. */
  lemma EraseSize(s: Store, e: nat)
    ensures e in s ==> Size(Erase(s, e)) == Size(s) - 1
    ensures e !in s ==> Size(Erase(s, e)) == Size(s)
  {
    var r := Erase(s, e);
    if e in s {
      assert r.Keys == s.Keys - {e};
      assert |r.Keys| == |s.Keys| - 1;
    } else {
      assert r.Keys == s.Keys;
    }
  }

  /** A child added under a stored parent then reports that parent. */
  lemma AddChildThenGetParent(s: Store, e: nat, c: RefinementCase, parent: nat)
    requires parent in s && e !in s
    ensures GetParent(AddChild(s, e, c, parent).0, e) == parent
    ensures Get(AddChild(s, e, c, parent).0, e).level == Get(s, parent).level + 1
  {
  }
}

=== FILE: MeshAdapter.dfy ===
/**
 The mesh adapter driver: reading the initial tets, uniform refinement and
 the two-pass perform_refinement (src/Inciter/AMR/mesh_adapter.h).

 The refiner (refinement.h) and id_generator_t::get_parent_id are not part of
 this model; they are parameters here. The refiner may do anything to the
 tet store except change the pending marks, drop master records, or alter
 the master record of any stored tet other than the one it refines (it adds
 children through tet_store.add, which touches only the new child and its
 parent).
 */
module MeshAdapter {
  import opened Wrappers
  import opened AmrTypes
  import opened OrderedSets
  import opened TetStore
  import ES = EdgeStore
  import MES = MasterElementStore
  import D = Derefinement

  /** refine_one_to_two, refine_one_to_four, refine_one_to_eight. */
  type Refiner = (TetStore, nat, RefinementCase) -> TetStore

  /** What perform_refinement relies on from the refiner. */
  ghost predicate RefinerFrame(refine: Refiner) {
    forall s: TetStore, id: nat, c: RefinementCase ::
      && refine(s, id, c).marks == s.marks
      && s.master.Keys <= refine(s, id, c).master.Keys
      && (forall k :: k in s.master && k != id ==> refine(s, id, c).master[k] == s.master[k])
  }

  /** A tet store with nothing in it. */
  const EMPTY: TetStore := TetStore(map[], map[], map[], {}, {}, map[])

  /** Tet `j` of a flat connectivity list: entries 4j .. 4j+3. */
  function TetAt(tetinpoel: seq<nat>, j: nat): Tet
    requires 4 * j + 4 <= |tetinpoel|
  {
    tetinpoel[4 * j .. 4 * j + 4]
  }

  /** The store after the first `j` tets of the list were consumed. */
  ghost predicate ConsumedPrefix(ts: TetStore, r: TetStore, tetinpoel: seq<nat>, ids: seq<nat>, j: nat)
    requires |tetinpoel| == 4 * |ids| && j <= |ids|
  {
    && TetsConsumed(ts, r, tetinpoel, ids, j)
    && MasterConsumed(ts, r, ids, j)
    && r.edges == ts.edges && r.centers == ts.centers && r.marks == ts.marks
  }

  /** The tets and the active set after `j` tets were consumed. */
  ghost predicate TetsConsumed(ts: TetStore, r: TetStore, tetinpoel: seq<nat>, ids: seq<nat>, j: nat)
    requires |tetinpoel| == 4 * |ids| && j <= |ids|
  {
    && r.tets.Keys == ts.tets.Keys + Ids(ids[..j])
    && (forall l :: 0 <= l < j ==> r.tets[ids[l]] == TetAt(tetinpoel, l))
    && (forall k :: k in ts.tets ==> r.tets[k] == ts.tets[k])
    && r.active == ts.active + Ids(ids[..j])
  }

  /** The master records after `j` tets were consumed. */
  ghost predicate MasterConsumed(ts: TetStore, r: TetStore, ids: seq<nat>, j: nat)
    requires j <= |ids|
  {
    && r.master.Keys == ts.master.Keys + Ids(ids[..j])
    && (forall l :: 0 <= l < j && ids[l] !in ts.master ==>
          r.master[ids[l]] == MES.NewState(ids[l], InitialGrid, 0, 0))
    && (forall k :: k in ts.master ==> r.master[k] == ts.master[k])
  }

  /** Pairwise different ids: the `j`th is not among the ones before it. */
  lemma NotInPrefix(ids: seq<nat>, j: nat)
    requires forall j, l :: 0 <= j < l < |ids| ==> ids[j] != ids[l]
    requires j < |ids|
    ensures ids[j] !in Ids(ids[..j])
  {
    forall l | 0 <= l < j ensures ids[..j][l] != ids[j] {
      assert ids[..j][l] == ids[l];
    }
  }

  /** Consuming tet `j` extends the consumed prefix by one. */
  lemma ConsumeStep(ts: TetStore, r: TetStore, tetinpoel: seq<nat>, ids: seq<nat>, j: nat)
    requires |tetinpoel| == 4 * |ids| && j < |ids|
    requires ids[j] !in Ids(ids[..j]) && !Exists(ts, ids[j])
    requires DistinctNodes(TetAt(tetinpoel, j))
    requires ConsumedPrefix(ts, r, tetinpoel, ids, j)
    ensures !Exists(r, ids[j])
    ensures ConsumedPrefix(ts, Add(r, ids[j], TetAt(tetinpoel, j), InitialGrid), tetinpoel, ids, j + 1)
  {
    assert Ids(ids[..j + 1]) == Ids(ids[..j]) + {ids[j]};
    assert !Exists(r, ids[j]);
    ConsumeTetStep(ts, r, tetinpoel, ids, j);
    ConsumeMasterStep(ts, r, tetinpoel, ids, j);
  }

  lemma ConsumeTetStep(ts: TetStore, r: TetStore, tetinpoel: seq<nat>, ids: seq<nat>, j: nat)
    requires |tetinpoel| == 4 * |ids| && j < |ids|
    requires !Exists(r, ids[j]) && DistinctNodes(TetAt(tetinpoel, j))
    requires TetsConsumed(ts, r, tetinpoel, ids, j)
    requires Ids(ids[..j + 1]) == Ids(ids[..j]) + {ids[j]}
    ensures TetsConsumed(ts, Add(r, ids[j], TetAt(tetinpoel, j), InitialGrid), tetinpoel, ids, j + 1)
  {
    var next := Add(r, ids[j], TetAt(tetinpoel, j), InitialGrid);
    forall l | 0 <= l < j ensures next.tets[ids[l]] == TetAt(tetinpoel, l) {
      assert ids[l] == ids[..j][l];
      assert ids[l] in r.tets;
    }
  }

  lemma ConsumeMasterStep(ts: TetStore, r: TetStore, tetinpoel: seq<nat>, ids: seq<nat>, j: nat)
    requires |tetinpoel| == 4 * |ids| && j < |ids|
    requires !Exists(r, ids[j]) && DistinctNodes(TetAt(tetinpoel, j))
    requires MasterConsumed(ts, r, ids, j) && ids[j] !in Ids(ids[..j])
    requires Ids(ids[..j + 1]) == Ids(ids[..j]) + {ids[j]}
    ensures MasterConsumed(ts, Add(r, ids[j], TetAt(tetinpoel, j), InitialGrid), ids, j + 1)
  {
    var next := Add(r, ids[j], TetAt(tetinpoel, j), InitialGrid);
    forall l | 0 <= l < j && ids[l] !in ts.master
      ensures next.master[ids[l]] == MES.NewState(ids[l], InitialGrid, 0, 0)
    {
      assert ids[l] == ids[..j][l];
      assert ids[l] in r.master;
    }
  }

  /** consume_tets: each group of four entries becomes an initial_grid tet
      under the next id the generator hands out (`ids`, fresh and pairwise
      different). The source reads four entries per step, so the list length
      must be a multiple of four. */
  method ConsumeTets(ts: TetStore, tetinpoel: seq<nat>, ids: seq<nat>) returns (r: TetStore)
    requires |tetinpoel| == 4 * |ids|
    requires forall j, l :: 0 <= j < l < |ids| ==> ids[j] != ids[l]
    requires forall j :: 0 <= j < |ids| ==> !Exists(ts, ids[j])
    requires forall j :: 0 <= j < |ids| ==> DistinctNodes(TetAt(tetinpoel, j))
    ensures r.tets.Keys == ts.tets.Keys + Ids(ids)
    ensures forall j :: 0 <= j < |ids| ==> r.tets[ids[j]] == TetAt(tetinpoel, j)
    ensures forall k :: k in ts.tets ==> r.tets[k] == ts.tets[k]
    ensures r.active == ts.active + Ids(ids)
    ensures r.master.Keys == ts.master.Keys + Ids(ids)
    ensures forall j :: 0 <= j < |ids| && ids[j] !in ts.master ==>
      r.master[ids[j]] == MES.NewState(ids[j], InitialGrid, 0, 0)
    ensures forall k :: k in ts.master ==> r.master[k] == ts.master[k]
    ensures r.edges == ts.edges && r.centers == ts.centers && r.marks == ts.marks
  {
    r := ts;
    var j := 0;
    while j < |ids|
      invariant 0 <= j <= |ids|
      invariant ConsumedPrefix(ts, r, tetinpoel, ids, j)
    {
      NotInPrefix(ids, j);
      ConsumeStep(ts, r, tetinpoel, ids, j);
      r := Add(r, ids[j], TetAt(tetinpoel, j), InitialGrid);
      j := j + 1;
    }
    assert ids[..j] == ids;
  }

  /** init (without the node connectivity): consume the tets into an empty
      store, then generate the edges. Every tet is an active initial-grid root
      and the edge store holds exactly the tets' edges, all unlocked. */
  method Init(tetinpoel: seq<nat>, ids: seq<nat>) returns (r: TetStore)
    requires |tetinpoel| == 4 * |ids|
    requires forall j, l :: 0 <= j < l < |ids| ==> ids[j] != ids[l]
    requires forall j :: 0 <= j < |ids| ==> DistinctNodes(TetAt(tetinpoel, j))
    ensures r.tets.Keys == Ids(ids) && r.active == Ids(ids) && r.master.Keys == Ids(ids)
    ensures forall j :: 0 <= j < |ids| ==> r.tets[ids[j]] == TetAt(tetinpoel, j)
    ensures forall j :: 0 <= j < |ids| ==>
      r.master[ids[j]].level == 0 && r.master[ids[j]].refinementCase == InitialGrid
    ensures forall j :: 0 <= j < |ids| ==>
      r.master[ids[j]].parentId == 0 && r.master[ids[j]].children == [] && r.master[ids[j]].numChildren == 0
    ensures r.edges.Keys == KeysOfTets(r.tets, r.tets.Keys)
    ensures forall k :: k in r.edges ==> r.edges[k].lockCase == Unlocked
    ensures r.marks == map[] && r.centers == {}
  {
    var consumed := ConsumeTets(EMPTY, tetinpoel, ids);
    r := GenerateEdges(consumed);
  }

  /** Sets every edge's refinement criterion, nothing else. */
  function SetCriteria(s: ES.Store, v: real): (r: ES.Store)
    ensures r.Keys == s.Keys
    ensures forall k :: k in r ==> r[k] == s[k].(criterion := v)
  {
    map k | k in s :: s[k].(criterion := v)
  }

  /** The parents a pending 2:8 or 4:8 mark among `todo` sends to round two. */
  function Promoted(marks: map<nat, RefinementCase>, todo: set<nat>, parentOf: nat -> nat): set<nat> {
    set id | id in todo && id in marks && (marks[id] == TwoToEight || marks[id] == FourToEight) :: parentOf(id)
  }

  /** The marks the first pass hands to the refiner. */
  predicate RefinedInPassOne(c: RefinementCase) {
    c == OneToTwo || c == OneToFour || c == OneToEight
  }

  /** One step of the first pass: act on the tet's pending mark, if any, and
      drop the mark. 1:2, 1:4 and 1:8 go to the refiner; 2:8 and 4:8 send the
      parent to round two; initial_grid and none do nothing. */
  function Visit(ts: TetStore, id: nat, roundTwo: set<nat>, refine: Refiner, parentOf: nat -> nat)
    : (r: (TetStore, set<nat>))
    requires RefinerFrame(refine)
    ensures r.0.marks == ts.marks - {id}
    ensures r.1 == roundTwo + Promoted(ts.marks, {id}, parentOf)
    ensures ts.master.Keys <= r.0.master.Keys
    ensures !HasRefinementDecision(ts, id) ==> r == (ts, roundTwo)
    ensures HasRefinementDecision(ts, id) && !RefinedInPassOne(ts.marks[id]) ==>
      r.0 == ts.(marks := ts.marks - {id})
    ensures HasRefinementDecision(ts, id) && RefinedInPassOne(ts.marks[id]) ==>
      r.0 == refine(ts, id, ts.marks[id]).(marks := ts.marks - {id})
  {
    if !HasRefinementDecision(ts, id) then
      assert Promoted(ts.marks, {id}, parentOf) == {};
      (ts, roundTwo)
    else
      var c := ts.marks[id];
      var (acted, rt) :=
        match c
        case OneToTwo => (refine(ts, id, c), roundTwo)
        case OneToFour => (refine(ts, id, c), roundTwo)
        case OneToEight => (refine(ts, id, c), roundTwo)
        case TwoToEight => (ts, roundTwo + {parentOf(id)})
        case FourToEight => (ts, roundTwo + {parentOf(id)})
        case InitialGrid => (ts, roundTwo)
        case NoneCase => (ts, roundTwo);
      assert c == TwoToEight || c == FourToEight ==> Promoted(ts.marks, {id}, parentOf) == {parentOf(id)};
      assert !(c == TwoToEight || c == FourToEight) ==> Promoted(ts.marks, {id}, parentOf) == {};
      (acted.(marks := acted.marks - {id}), rt)
  }

  lemma PromotedSplit(marks: map<nat, RefinementCase>, marks': map<nat, RefinementCase>,
                      todo: set<nat>, id: nat, parentOf: nat -> nat)
    requires id in todo && marks' == marks - {id}
    ensures Promoted(marks, todo, parentOf) ==
            Promoted(marks, {id}, parentOf) + Promoted(marks', todo - {id}, parentOf)
  {
  }

  /** The first pass of perform_refinement over the ids `todo`, in ascending
      order. Every visited mark is dropped and the round-two set collects the
      parents of the tets marked 2:8 or 4:8. */
  function PassOne(ts: TetStore, todo: set<nat>, roundTwo: set<nat>, refine: Refiner, parentOf: nat -> nat)
    : (r: (TetStore, set<nat>))
    requires RefinerFrame(refine)
    ensures r.0.marks == ts.marks - todo
    ensures r.1 == roundTwo + Promoted(ts.marks, todo, parentOf)
    ensures ts.master.Keys <= r.0.master.Keys
    ensures (forall id :: id in todo ==> id !in ts.marks) ==> r == (ts, roundTwo)
    ensures (forall id :: id in todo && id in ts.marks ==> !RefinedInPassOne(ts.marks[id])) ==>
      r.0 == ts.(marks := ts.marks - todo)
    decreases todo
  {
    if todo == {} then (ts, roundTwo)
    else
      var id := Least(todo);
      var (next, rt) := Visit(ts, id, roundTwo, refine, parentOf);
      var r := PassOne(next, todo - {id}, rt, refine, parentOf);
      PromotedSplit(ts.marks, next.marks, todo, id, parentOf);
      assert next.marks - (todo - {id}) == ts.marks - todo;
      r
  }

  /** Index of the first listed id that has no stored tet (|cs| if none). */
  function FirstMissing(cs: seq<nat>, ts: TetStore): (i: nat)
    ensures i <= |cs|
    ensures forall l :: 0 <= l < i ==> Exists(ts, cs[l])
    ensures i < |cs| ==> !Exists(ts, cs[i])
    decreases |cs|
  {
    if cs == [] || !Exists(ts, cs[0]) then 0
    else 1 + FirstMissing(cs[1..], ts)
  }

  /** The second pass's work on one parent: 2:1 or 4:1 derefinement (by its
      child count; any other count aborts), refine_one_to_eight, drop the new
      children's marks, and record the parent as 1:8. The parent's record
      must exist (map::at), and every child must be stored (tet_store::get
      asserts it). A parent listed among its own children is rejected. */
  function RefineParentToEight(ts: TetStore, i: nat, refine: Refiner): (r: Result<TetStore, Fault>)
    requires RefinerFrame(refine)
    ensures i !in ts.master ==> r == Err(MissingElement(i))
    ensures i in ts.master && Data(ts, i).numChildren != 2 && Data(ts, i).numChildren != 4 ==>
      r == Err(BadChildCount(i, Data(ts, i).numChildren))
    ensures r.Ok? <==>
      && i in ts.master
      && (Data(ts, i).numChildren == 2 || Data(ts, i).numChildren == 4)
      && i !in Data(ts, i).children
      && (forall c :: c in Data(ts, i).children ==> Exists(ts, c))
    ensures r.Ok? ==> i in r.value.master && GetRefinementCase(r.value, i) == OneToEight
    ensures r.Ok? ==> forall c :: c in Data(r.value, i).children ==> !HasRefinementDecision(r.value, c)
    ensures r.Ok? ==> r.value.marks.Keys <= ts.marks.Keys
    ensures r.Err? && r.error.MissingTet? ==>
      i in ts.master && r.error.id in Data(ts, i).children && !Exists(ts, r.error.id)
  {
    if i !in ts.master then Err(MissingElement(i))
    else
      var element := Data(ts, i);
      if element.numChildren != 2 && element.numChildren != 4 then
        Err(BadChildCount(i, element.numChildren))
      else if i in element.children then Err(SelfChild(i))
      else
        var m := FirstMissing(element.children, ts);
        if m < |element.children| then Err(MissingTet(element.children[m]))
        else
          // derefine_two_to_one and derefine_four_to_one do the same work
          var derefined := D.DerefineToOne(ts, i);
          var refined := refine(derefined, i, OneToEight);
          var unset := UnsetMarkedChildren(refined, i);
          var p := Data(unset, i);
          Ok(unset.(master := unset.master[i := p.(refinementCase := OneToEight)]))
  }

  /** The second pass over the round-two parents, in ascending order; the
      first failure aborts. */
  function PassTwo(ts: TetStore, todo: set<nat>, refine: Refiner): (r: Result<TetStore, Fault>)
    requires RefinerFrame(refine)
    ensures todo == {} ==> r == Ok(ts)
    ensures r.Ok? ==> r.value.marks.Keys <= ts.marks.Keys
    ensures r.Err? ==> match r.error
      case MissingElement(id) => id in todo
      case BadChildCount(id, n) => id in todo && n != 2 && n != 4
      case SelfChild(id) => id in todo
      case MissingTet(_) => true
      case UnsupportedTransition => false
    decreases todo
  {
    if todo == {} then Ok(ts)
    else
      var i := Least(todo);
      var step := RefineParentToEight(ts, i, refine);
      if step.Err? then Err(step.error)
      else PassTwo(step.value, todo - {i}, refine)
  }

  /** No collected parent is listed among another collected parent's children. */
  ghost predicate Unnested(ts: TetStore, todo: set<nat>) {
    forall i, j :: i in todo && j in todo && i != j && j in ts.master ==> i !in ts.master[j].children
  }

  /** One parent's second-pass step leaves every other stored record that is
      not one of its children as it was. */
  lemma RefineParentKeepsOthers(ts: TetStore, i: nat, refine: Refiner, k: nat)
    requires RefinerFrame(refine)
    requires RefineParentToEight(ts, i, refine).Ok?
    requires k in ts.master && k != i && k !in Data(ts, i).children
    ensures k in RefineParentToEight(ts, i, refine).value.master
    ensures RefineParentToEight(ts, i, refine).value.master[k] == ts.master[k]
  {
    var derefined := D.DerefineToOne(ts, i);
    assert k in derefined.master && derefined.master[k] == ts.master[k];
    var refined := refine(derefined, i, OneToEight);
    assert k in refined.master && refined.master[k] == ts.master[k];
  }

  /** The second pass keeps the record of a stored tet that is neither a
      collected parent nor a child of one. */
  lemma PassTwoKeeps(ts: TetStore, todo: set<nat>, refine: Refiner, k: nat)
    requires RefinerFrame(refine)
    requires PassTwo(ts, todo, refine).Ok?
    requires todo <= ts.master.Keys && Unnested(ts, todo)
    requires k in ts.master && k !in todo
    requires forall j :: j in todo ==> k !in ts.master[j].children
    ensures k in PassTwo(ts, todo, refine).value.master
    ensures PassTwo(ts, todo, refine).value.master[k] == ts.master[k]
    decreases todo
  {
    if todo != {} {
      var i := Least(todo);
      var s1 := RefineParentToEight(ts, i, refine).value;
      var rest := todo - {i};
      RefineParentKeepsOthers(ts, i, refine, k);
      StepKeepsRest(ts, todo, refine);
      PassTwoKeeps(s1, rest, refine, k);
    }
  }

  /** After the least parent's step the other collected parents keep their
      records, so the hypotheses carry over to the rest of the pass. */
  lemma StepKeepsRest(ts: TetStore, todo: set<nat>, refine: Refiner)
    requires RefinerFrame(refine)
    requires todo != {}
    requires RefineParentToEight(ts, Least(todo), refine).Ok?
    requires todo <= ts.master.Keys && Unnested(ts, todo)
    ensures var s1 := RefineParentToEight(ts, Least(todo), refine).value;
      forall j :: j in todo - {Least(todo)} ==> j in s1.master && s1.master[j] == ts.master[j]
    ensures Unnested(RefineParentToEight(ts, Least(todo), refine).value, todo - {Least(todo)})
  {
    var i := Least(todo);
    var s1 := RefineParentToEight(ts, i, refine).value;
    forall j | j in todo - {i} ensures j in s1.master && s1.master[j] == ts.master[j] {
      RefineParentKeepsOthers(ts, i, refine, j);
    }
  }

  /** With no collected parent nested under another, a successful second
      pass leaves every collected parent recorded as 1:8 with no pending
      mark on any of its children. */
  lemma PassTwoRefinesEveryParent(ts: TetStore, todo: set<nat>, refine: Refiner)
    requires RefinerFrame(refine)
    requires PassTwo(ts, todo, refine).Ok?
    requires todo <= ts.master.Keys && Unnested(ts, todo)
    ensures var r := PassTwo(ts, todo, refine).value;
      forall i :: i in todo ==>
        && i in r.master && GetRefinementCase(r, i) == OneToEight
        && (forall c :: c in Data(r, i).children ==> !HasRefinementDecision(r, c))
    decreases todo
  {
    if todo != {} {
      var i := Least(todo);
      var s1 := RefineParentToEight(ts, i, refine).value;
      var rest := todo - {i};
      StepKeepsRest(ts, todo, refine);
      PassTwoRefinesEveryParent(s1, rest, refine);
      assert forall j :: j in rest ==> i !in s1.master[j].children;
      PassTwoKeeps(s1, rest, refine, i);
    }
  }

  /** perform_refinement: pass one over the tets stored at the start, then
      pass two over the collected parents. Afterwards no tet stored at the
      start has a pending mark, and marks are only ever removed. */
  function PerformRefinement(ts: TetStore, refine: Refiner, parentOf: nat -> nat): (r: Result<TetStore, Fault>)
    requires RefinerFrame(refine)
    ensures r.Ok? ==> forall id :: id in ts.tets ==> !HasRefinementDecision(r.value, id)
    ensures r.Ok? ==> r.value.marks.Keys <= ts.marks.Keys
    ensures r.Err? ==> r.error != UnsupportedTransition
  {
    var (afterOne, roundTwo) := PassOne(ts, ts.tets.Keys, {}, refine, parentOf);
    PassTwo(afterOne, roundTwo, refine)
  }

  /** The round-two set is exactly the parents of the tets marked 2:8 or 4:8. */
  lemma RoundTwoIsPromotedParents(ts: TetStore, refine: Refiner, parentOf: nat -> nat)
    requires RefinerFrame(refine)
    ensures var rt := PassOne(ts, ts.tets.Keys, {}, refine, parentOf).1;
      forall p :: p in rt <==>
        exists id :: id in ts.tets && id in ts.marks &&
          (ts.marks[id] == TwoToEight || ts.marks[id] == FourToEight) && parentOf(id) == p
  {
  }

  /** With no pending marks perform_refinement changes nothing. */
  lemma NoMarksNoRefinement(ts: TetStore, refine: Refiner, parentOf: nat -> nat)
    requires RefinerFrame(refine)
    requires ts.marks == map[]
    ensures PerformRefinement(ts, refine, parentOf) == Ok(ts)
  {
  }

  /** uniform_refinement: every edge's refinement criterion becomes 1.0, then
      perform_refinement runs on the pending marks. */
  function UniformRefinement(ts: TetStore, refine: Refiner, parentOf: nat -> nat): (r: Result<TetStore, Fault>)
    requires RefinerFrame(refine)
    ensures r.Ok? ==> forall id :: id in ts.tets ==> !HasRefinementDecision(r.value, id)
  {
    PerformRefinement(ts.(edges := SetCriteria(ts.edges, 1.0)), refine, parentOf)
  }

  /** Without pending marks, uniform refinement only sets the criteria: the
      marks, not the criteria, decide what perform_refinement refines. */
  lemma UniformRefinementWithoutMarks(ts: TetStore, refine: Refiner, parentOf: nat -> nat)
    requires RefinerFrame(refine)
    requires ts.marks == map[]
    ensures UniformRefinement(ts, refine, parentOf).Ok?
    ensures var r := UniformRefinement(ts, refine, parentOf).value;
      && r.tets == ts.tets && r.master == ts.master && r.active == ts.active
      && r.edges.Keys == ts.edges.Keys
      && forall k :: k in r.edges ==> r.edges[k].criterion == 1.0
    ensures var r := UniformRefinement(ts, refine, parentOf).value;
      && (forall k :: k in r.edges ==> r.edges[k] == ts.edges[k].(criterion := 1.0))
      && r.centers == ts.centers && r.marks == ts.marks
    ensures UniformRefinement(ts, refine, parentOf) == Ok(ts.(edges := SetCriteria(ts.edges, 1.0)))
  {
    NoMarksNoRefinement(ts.(edges := SetCriteria(ts.edges, 1.0)), refine, parentOf);
  }
}

=== FILE: OrderedSets.dfy ===
/** Ascending traversal of finite sets of ids, as std::map / std::set iterate. */
module OrderedSets {

  predicate IsLeast(m: nat, s: set<nat>) {
    m in s && forall y :: y in s ==> m <= y
  }

  lemma {:induction false} LeastExists(s: set<nat>)
    requires s != {}
    ensures exists m :: IsLeast(m, s)
    decreases |s|
  {
    var x :| x in s;
    if s == {x} {
      assert IsLeast(x, s);
    } else {
      var rest := s - {x};
      LeastExists(rest);
      var m :| IsLeast(m, rest);
      var w := if x < m then x else m;
      forall y | y in s
        ensures w <= y
      {
        if y != x {
          assert y in rest;
        }
      }
      assert IsLeast(w, s);
    }
  }

  /** The smallest element of a non-empty set: where an ascending loop starts. */
  function Least(s: set<nat>): (m: nat)
    requires s != {}
    ensures m in s
    ensures forall y :: y in s ==> m <= y
  {
    LeastExists(s);
    var m :| IsLeast(m, s);
    m
  }

  /** The elements of a set in ascending order, as std::set iterates. */
  function Ascending(s: set<nat>): (xs: seq<nat>)
    ensures |xs| == |s|
    ensures forall x :: x in xs <==> x in s
    ensures forall i, j :: 0 <= i < j < |xs| ==> xs[i] < xs[j]
    decreases s
  {
    if s == {} then []
    else
      var m := Least(s);
      [m] + Ascending(s - {m})
  }
}

=== FILE: Renumbering.dfy ===
/**
 The distributed node reordering of src/Inciter/Partitioner.h seen from all
 PEs at once: every PE's communication map (mask), its count of ids to number
 (nuniq), its start (offset) and its own numbering (reorder). Together the
 PEs number every node and every edge-node exactly once, with the ids
 0 .. total-1, and each id is assigned by the lowest PE holding it.
 */
module Renumbering {
  import opened OrderedSets
  import opened ChareGraph
  import opened Communication
  import opened Reorder
  import opened Mask

  /** The machine after flatten: each PE's node and edge sets, the order its
      hash set of edges is walked in, and the nuniq count it broadcasts. */
  datatype Machine = Machine(pes: seq<PeData>, edgeOrders: seq<seq<MeshEdge>>, counts: seq<nat>)

  /** Each PE's sets are consistent, its edge walk covers its edge set, and
      the count it broadcasts is the number of ids it numbers itself. */
  ghost predicate Ready(m: Machine) {
    && |m.pes| == |m.edgeOrders|
    && (forall k :: 0 <= k < |m.pes| ==> Valid(m.pes[k]))
    && (forall k :: 0 <= k < |m.pes| ==> WalksEdges(m.edgeOrders[k], m.pes[k].edgeset))
    && |m.counts| == |m.pes|
    && (forall k {:trigger m.pes[k]} :: 0 <= k < |m.pes| ==>
          m.counts[k] == Owned(m.pes[k].nodeset, m.pes[k].edgeset, NodeComm(m.pes, k), EdgeComm(m.pes, k)))
  }

  /** m_ncomm on PE k once every query is answered: for each lower PE the
      node ids both hold. */
  function NodeComm(pes: seq<PeData>, k: nat): map<nat, set<nat>>
    requires k < |pes|
  {
    map p | p in Below(k) :: pes[k].nodeset * pes[p].nodeset
  }

  /** m_ecomm on PE k: for each lower PE the edges both hold. */
  function EdgeComm(pes: seq<PeData>, k: nat): map<nat, set<MeshEdge>>
    requires k < |pes|
  {
    map p | p in Below(k) :: pes[k].edgeset * pes[p].edgeset
  }

  /** Every PE answers the query of PE k with its own query(), and the
      answers arrive in some order. */
  ghost predicate Replies(pes: seq<PeData>, k: nat, msgs: seq<Message>)
    requires k < |pes|
  {
    forall i :: 0 <= i < |msgs| ==>
      && msgs[i].from < |pes|
      && Valid(pes[msgs[i].from])
      && WellOrdered(msgs[i])
      && msgs[i].answer == Query(pes[msgs[i].from], pes[k].nodeset, pes[k].edgeset)
  }

  /** Answers to PE k's query only carry ids PE k holds. */
  lemma RepliesReceivable(pes: seq<PeData>, k: nat, msgs: seq<Message>)
    requires k < |pes| && Valid(pes[k]) && Replies(pes, k, msgs)
    ensures AllReceivable(pes[k], msgs)
  {
    var d := pes[k];
    forall i | 0 <= i < |msgs| ensures Answerable(d, msgs[i]) {
      var a := Query(pes[msgs[i].from], d.nodeset, d.edgeset);
      assert a.cn.Keys <= d.nodeset && a.ce.Keys <= d.edgeset;
    }
  }

  /** A lower PE reports exactly the node ids it shares with PE k. */
  lemma ReportedNodes(pes: seq<PeData>, k: nat, msgs: seq<Message>, p: nat)
    requires k < |pes| && p < |pes| && Replies(pes, k, msgs) && p in Senders(msgs)
    ensures forall h :: NodeReported(msgs, p, h) <==> h in pes[k].nodeset * pes[p].nodeset
  {
    var i :| 0 <= i < |msgs| && msgs[i].from == p;
    var a := Query(pes[p], pes[k].nodeset, pes[k].edgeset);
    assert msgs[i].answer == a;
    forall h | NodeReported(msgs, p, h) ensures h in a.cn {
      var j :| 0 <= j < |msgs| && msgs[j].from == p && h in msgs[j].answer.cn;
      assert msgs[j].answer == a;
    }
  }

  /** A lower PE reports exactly the edges it shares with PE k. */
  lemma ReportedEdges(pes: seq<PeData>, k: nat, msgs: seq<Message>, p: nat)
    requires k < |pes| && p < |pes| && Replies(pes, k, msgs) && p in Senders(msgs)
    ensures forall e :: EdgeReported(msgs, p, e) <==> e in pes[k].edgeset * pes[p].edgeset
  {
    var i :| 0 <= i < |msgs| && msgs[i].from == p;
    var a := Query(pes[p], pes[k].nodeset, pes[k].edgeset);
    assert msgs[i].answer == a;
    forall e | EdgeReported(msgs, p, e) ensures e in a.ce {
      var j :| 0 <= j < |msgs| && msgs[j].from == p && e in msgs[j].answer.ce;
      assert msgs[j].answer == a;
    }
  }

  /** When every PE has answered, the answers from lower PEs are those of
      the PEs below k. */
  lemma LowerSenders(msgs: seq<Message>, k: nat, npes: nat)
    requires k < npes && Senders(msgs) == Below(npes)
    ensures (set p | p in Senders(msgs) && p < k) == Below(k)
  {
  }

  /** A map keyed by the lower senders, each entry holding what that PE
      reported, is the node communication map. */
  lemma NodeCommFromReports(a: map<nat, set<nat>>, pes: seq<PeData>, k: nat, msgs: seq<Message>)
    requires k < |pes| && Replies(pes, k, msgs) && Senders(msgs) == Below(|pes|)
    requires a.Keys == set p | p in Senders(msgs) && p < k
    requires forall p, h :: p in a ==> (h in a[p] <==> NodeReported(msgs, p, h))
    ensures a == NodeComm(pes, k)
  {
    LowerSenders(msgs, k, |pes|);
    NodeEntries(a, pes, k, msgs);
  }

  lemma NodeEntries(a: map<nat, set<nat>>, pes: seq<PeData>, k: nat, msgs: seq<Message>)
    requires k < |pes| && Replies(pes, k, msgs) && Senders(msgs) == Below(|pes|)
    requires a.Keys == Below(k)
    requires forall p, h :: p in a ==> (h in a[p] <==> NodeReported(msgs, p, h))
    ensures NodeComm(pes, k).Keys == a.Keys
    ensures forall p :: p in a ==> p in NodeComm(pes, k) && a[p] == NodeComm(pes, k)[p]
  {
    forall p | p in a ensures p in NodeComm(pes, k) && a[p] == NodeComm(pes, k)[p] {
      ReportedNodes(pes, k, msgs, p);
    }
  }

  /** The same for edges. */
  lemma EdgeCommFromReports(a: map<nat, set<MeshEdge>>, pes: seq<PeData>, k: nat, msgs: seq<Message>)
    requires k < |pes| && Replies(pes, k, msgs) && Senders(msgs) == Below(|pes|)
    requires a.Keys == set p | p in Senders(msgs) && p < k
    requires forall p, e :: p in a ==> (e in a[p] <==> EdgeReported(msgs, p, e))
    ensures a == EdgeComm(pes, k)
  {
    LowerSenders(msgs, k, |pes|);
    EdgeEntries(a, pes, k, msgs);
  }

  lemma EdgeEntries(a: map<nat, set<MeshEdge>>, pes: seq<PeData>, k: nat, msgs: seq<Message>)
    requires k < |pes| && Replies(pes, k, msgs) && Senders(msgs) == Below(|pes|)
    requires a.Keys == Below(k)
    requires forall p, e :: p in a ==> (e in a[p] <==> EdgeReported(msgs, p, e))
    ensures EdgeComm(pes, k).Keys == a.Keys
    ensures forall p :: p in a ==> p in EdgeComm(pes, k) && a[p] == EdgeComm(pes, k)[p]
  {
    forall p | p in a ensures p in EdgeComm(pes, k) && a[p] == EdgeComm(pes, k)[p] {
      ReportedEdges(pes, k, msgs, p);
    }
  }

  /** Once the answers of all PEs have arrived, mask has built exactly the
      node communication map above: one entry per lower PE, holding the
      shared node ids. */
  lemma MaskBuildsNodeComm(pes: seq<PeData>, k: nat, msgs: seq<Message>)
    requires k < |pes| && Valid(pes[k])
    requires Replies(pes, k, msgs) && Senders(msgs) == Below(|pes|)
    ensures AllReceivable(pes[k], msgs) && ReceiveAll(pes[k], k, msgs).ncomm == NodeComm(pes, k)
  {
    RepliesReceivable(pes, k, msgs);
    ReceiveAllNodeComm(pes[k], k, msgs);
    ReceiveAllKeys(pes[k], k, msgs);
    NodeCommFromReports(ReceiveAll(pes[k], k, msgs).ncomm, pes, k, msgs);
  }

  /** The same for the edge communication map. */
  lemma MaskBuildsEdgeComm(pes: seq<PeData>, k: nat, msgs: seq<Message>)
    requires k < |pes| && Valid(pes[k])
    requires Replies(pes, k, msgs) && Senders(msgs) == Below(|pes|)
    ensures AllReceivable(pes[k], msgs) && ReceiveAll(pes[k], k, msgs).ecomm == EdgeComm(pes, k)
  {
    RepliesReceivable(pes, k, msgs);
    ReceiveAllEdgeComm(pes[k], k, msgs);
    ReceiveAllKeys(pes[k], k, msgs);
    EdgeCommFromReports(ReceiveAll(pes[k], k, msgs).ecomm, pes, k, msgs);
  }

  /** The nuniq counts every PE receives, one per PE. */
  function Nuniqs(m: Machine): (u: seq<nat>)
    requires Ready(m)
    ensures |u| == |m.pes|
  {
    m.counts
  }

  /** The count each PE broadcasts is the nuniq mask computes from its
      received counts. */
  lemma NuniqsBroadcast(m: Machine, k: nat)
    requires Ready(m) && k < |m.pes|
    ensures Nuniqs(m)[k] == Nuniq(m.pes[k].nodeset, m.pes[k].edgeset, NodeComm(m.pes, k), EdgeComm(m.pes, k))
  {
  }

  /** The start of PE k, as offset() accumulates it. */
  function Start(m: Machine, k: nat): nat
    requires Ready(m) && k <= |m.pes|
  {
    PrefixSum(Nuniqs(m), k)
  }

  /** How many ids all PEs number together. */
  function Total(m: Machine): nat
    requires Ready(m)
  {
    Start(m, |m.pes|)
  }

  /** The deduplicated map m_ncommunication of PE k. */
  function NodeCommunication(m: Machine, k: nat): (c: map<nat, set<nat>>)
    requires Ready(m) && k < |m.pes|
    ensures CommWithin(c, m.pes[k].nodeset)
    ensures Union(c) == Union(NodeComm(m.pes, k))
  {
    DedupKeepsLowest(NodeComm(m.pes, k));
    Dedup(NodeComm(m.pes, k))
  }

  /** The deduplicated map m_ecommunication of PE k. */
  function EdgeCommunication(m: Machine, k: nat): (c: map<nat, set<MeshEdge>>)
    requires Ready(m) && k < |m.pes|
    ensures CommWithin(c, m.pes[k].edgeset)
    ensures Union(c) == Union(EdgeComm(m.pes, k))
  {
    DedupKeepsLowest(EdgeComm(m.pes, k));
    Dedup(EdgeComm(m.pes, k))
  }

  /** reorder() on PE k. */
  function Numbered(m: Machine, k: nat): Numbering
    requires Ready(m) && k < |m.pes|
  {
    ReorderOwned(m.pes[k].nodeset, m.pes[k].edgeset,
                 NodeCommunication(m, k), EdgeCommunication(m, k),
                 Start(m, k), m.edgeOrders[k])
  }

  /** No PE below k holds node x. */
  ghost predicate FirstNode(m: Machine, k: nat, x: nat)
    requires k < |m.pes|
  {
    forall p :: 0 <= p < k ==> x !in m.pes[p].nodeset
  }

  /** No PE below k holds edge e. */
  ghost predicate FirstEdge(m: Machine, k: nat, e: MeshEdge)
    requires k < |m.pes|
  {
    forall p :: 0 <= p < k ==> e !in m.pes[p].edgeset
  }

  /** A PE numbers a node (an edge) exactly when it holds it and no lower PE
      does. */
  lemma NumbersFirstHeld(m: Machine, k: nat)
    requires Ready(m) && k < |m.pes|
    ensures forall x :: x in Numbered(m, k).linnodes <==> x in m.pes[k].nodeset && FirstNode(m, k, x)
    ensures forall e :: e in Numbered(m, k).linedges <==> e in m.pes[k].edgeset && FirstEdge(m, k, e)
  {
    NumbersFirstNodes(m, k);
    NumbersFirstEdges(m, k);
  }

  lemma NumbersFirstNodes(m: Machine, k: nat)
    requires Ready(m) && k < |m.pes|
    ensures forall x :: x in Numbered(m, k).linnodes <==> x in m.pes[k].nodeset && FirstNode(m, k, x)
  {
    SharedNodes(m.pes, k);
  }

  lemma NumbersFirstEdges(m: Machine, k: nat)
    requires Ready(m) && k < |m.pes|
    ensures forall e :: e in Numbered(m, k).linedges <==> e in m.pes[k].edgeset && FirstEdge(m, k, e)
  {
    SharedEdges(m.pes, k);
  }

  /** A node of PE k is in its communication map exactly when a lower PE
      holds it too. */
  lemma SharedNodes(pes: seq<PeData>, k: nat)
    requires k < |pes|
    ensures forall x :: x in pes[k].nodeset ==>
      (x in Union(NodeComm(pes, k)) <==> exists p :: 0 <= p < k && x in pes[p].nodeset)
  {
    forall x | x in Union(NodeComm(pes, k)) ensures exists p :: 0 <= p < k && x in pes[p].nodeset {
      var p :| p in NodeComm(pes, k) && x in NodeComm(pes, k)[p];
      assert x in pes[p].nodeset;
    }
    forall x | x in pes[k].nodeset && (exists p :: 0 <= p < k && x in pes[p].nodeset)
      ensures x in Union(NodeComm(pes, k))
    {
      var p :| 0 <= p < k && x in pes[p].nodeset;
      assert x in NodeComm(pes, k)[p];
    }
  }

  /** The same for edges. */
  lemma SharedEdges(pes: seq<PeData>, k: nat)
    requires k < |pes|
    ensures forall e :: e in pes[k].edgeset ==>
      (e in Union(EdgeComm(pes, k)) <==> exists p :: 0 <= p < k && e in pes[p].edgeset)
  {
    forall e | e in Union(EdgeComm(pes, k)) ensures exists p :: 0 <= p < k && e in pes[p].edgeset {
      var p :| p in EdgeComm(pes, k) && e in EdgeComm(pes, k)[p];
      assert e in pes[p].edgeset;
    }
    forall e | e in pes[k].edgeset && (exists p :: 0 <= p < k && e in pes[p].edgeset)
      ensures e in Union(EdgeComm(pes, k))
    {
      var p :| 0 <= p < k && e in pes[p].edgeset;
      assert e in EdgeComm(pes, k)[p];
    }
  }

  /** PE k numbers from its start up to the next PE's start. */
  lemma OwnRange(m: Machine, k: nat)
    requires Ready(m) && k < |m.pes|
    ensures Start(m, k + 1) == Start(m, k) + Nuniqs(m)[k]
    ensures var r := Numbered(m, k);
      forall x :: x in r.linnodes ==> Start(m, k) <= r.linnodes[x] < Start(m, k + 1)
    ensures var r := Numbered(m, k);
      forall e :: e in r.linedges ==> Start(m, k) <= r.linedges[e] < Start(m, k + 1)
  {
    var d := m.pes[k];
    var nc := NodeCommunication(m, k);
    var ec := EdgeCommunication(m, k);
    ReorderNodeIds(d.nodeset, d.edgeset, nc, ec, Start(m, k), m.edgeOrders[k]);
    ReorderEdgeIds(d.nodeset, d.edgeset, nc, ec, Start(m, k), m.edgeOrders[k]);
    assert Owned(d.nodeset, d.edgeset, nc, ec) == Nuniqs(m)[k];
  }

  /** Within PE k the nodes come first, in ascending old-id order, then the
      edges, each id once. */
  lemma OwnOrder(m: Machine, k: nat)
    requires Ready(m) && k < |m.pes|
    ensures var r := Numbered(m, k);
      forall x, e :: x in r.linnodes && e in r.linedges ==> r.linnodes[x] < r.linedges[e]
    ensures var r := Numbered(m, k);
      forall x, y :: x in r.linnodes && y in r.linnodes && x < y ==> r.linnodes[x] < r.linnodes[y]
    ensures var r := Numbered(m, k);
      forall e, f :: e in r.linedges && f in r.linedges && e != f ==> r.linedges[e] != r.linedges[f]
  {
    var d := m.pes[k];
    var nc := NodeCommunication(m, k);
    var ec := EdgeCommunication(m, k);
    ReorderNodeIds(d.nodeset, d.edgeset, nc, ec, Start(m, k), m.edgeOrders[k]);
    ReorderEdgeIds(d.nodeset, d.edgeset, nc, ec, Start(m, k), m.edgeOrders[k]);
  }

  /** Starts never decrease from one PE to the next. */
  lemma StartMono(m: Machine, j: nat, k: nat)
    requires Ready(m) && j <= k <= |m.pes|
    ensures Start(m, j) <= Start(m, k)
  {
    PrefixSumMono(Nuniqs(m), j, k);
  }

  /** The range of a lower PE ends at or below the start of a higher one. */
  lemma LaterStart(m: Machine, j: nat, k: nat)
    requires Ready(m) && j < k < |m.pes|
    ensures Start(m, j + 1) <= Start(m, k)
  {
    StartMono(m, j + 1, k);
  }

  /** The range of a PE ends at or below the end of any PE above it. */
  lemma LaterEnd(m: Machine, j: nat, k: nat)
    requires Ready(m) && j <= k < |m.pes|
    ensures Start(m, j + 1) <= Start(m, k + 1)
  {
    StartMono(m, j + 1, k + 1);
  }

  /** A node numbered by PE k gets an id of that PE's range. */
  lemma NodeIdInRange(m: Machine, k: nat, x: nat)
    requires Ready(m) && k < |m.pes| && x in Numbered(m, k).linnodes
    ensures Start(m, k) <= Numbered(m, k).linnodes[x] < Start(m, k + 1)
  {
    OwnRange(m, k);
  }

  /** An edge numbered by PE k gets an id of that PE's range. */
  lemma EdgeIdInRange(m: Machine, k: nat, e: MeshEdge)
    requires Ready(m) && k < |m.pes| && e in Numbered(m, k).linedges
    ensures Start(m, k) <= Numbered(m, k).linedges[e] < Start(m, k + 1)
  {
    OwnRange(m, k);
  }

  /** Ids from the ranges of two different PEs never coincide. */
  lemma RangesApart(m: Machine, j: nat, k: nat, a: nat, b: nat)
    requires Ready(m) && j < |m.pes| && k < |m.pes| && j != k
    requires Start(m, j) <= a < Start(m, j + 1) && Start(m, k) <= b < Start(m, k + 1)
    ensures a != b
  {
    if j < k {
      LaterStart(m, j, k);
    } else {
      LaterStart(m, k, j);
    }
  }

  /** Two nodes numbered anywhere get different ids unless they are the same
      node numbered by the same PE. */
  lemma NodeIdUnique(m: Machine, j: nat, k: nat, x: nat, y: nat)
    requires Ready(m) && j < |m.pes| && k < |m.pes|
    requires x in Numbered(m, j).linnodes && y in Numbered(m, k).linnodes
    requires j != k || x != y
    ensures Numbered(m, j).linnodes[x] != Numbered(m, k).linnodes[y]
  {
    var a, b := Numbered(m, j).linnodes[x], Numbered(m, k).linnodes[y];
    NodeIdInRange(m, j, x);
    NodeIdInRange(m, k, y);
    if j != k {
      RangesApart(m, j, k, a, b);
    } else {
      OwnOrder(m, k);
    }
  }

  /** The same for edges. */
  lemma EdgeIdUnique(m: Machine, j: nat, k: nat, e: MeshEdge, f: MeshEdge)
    requires Ready(m) && j < |m.pes| && k < |m.pes|
    requires e in Numbered(m, j).linedges && f in Numbered(m, k).linedges
    requires j != k || e != f
    ensures Numbered(m, j).linedges[e] != Numbered(m, k).linedges[f]
  {
    var a, b := Numbered(m, j).linedges[e], Numbered(m, k).linedges[f];
    EdgeIdInRange(m, j, e);
    EdgeIdInRange(m, k, f);
    if j != k {
      RangesApart(m, j, k, a, b);
    } else {
      OwnOrder(m, k);
    }
  }

  /** No node and edge anywhere share an id. */
  lemma NodeEdgeIdsApart(m: Machine, j: nat, k: nat, x: nat, e: MeshEdge)
    requires Ready(m) && j < |m.pes| && k < |m.pes|
    requires x in Numbered(m, j).linnodes && e in Numbered(m, k).linedges
    ensures Numbered(m, j).linnodes[x] != Numbered(m, k).linedges[e]
  {
    var a, b := Numbered(m, j).linnodes[x], Numbered(m, k).linedges[e];
    NodeIdInRange(m, j, x);
    EdgeIdInRange(m, k, e);
    if j != k {
      RangesApart(m, j, k, a, b);
    } else {
      OwnOrder(m, k);
    }
  }

  /** Some PE's start is at or below v and the next one's above it. */
  lemma {:induction false} PrefixSumLocate(nuniq: seq<nat>, n: nat, v: nat)
    requires n <= |nuniq| && v < PrefixSum(nuniq, n)
    ensures exists k :: 0 <= k < n && PrefixSum(nuniq, k) <= v < PrefixSum(nuniq, k + 1)
    decreases n
  {
    if v < PrefixSum(nuniq, n - 1) {
      PrefixSumLocate(nuniq, n - 1, v);
    } else {
      assert PrefixSum(nuniq, n - 1) <= v < PrefixSum(nuniq, n);
    }
  }

  /** Some PE issues id v to a node or an edge it numbers. */
  ghost predicate Issued(m: Machine, v: nat)
    requires Ready(m)
  {
    exists k :: 0 <= k < |m.pes| && (Hit(Numbered(m, k).linnodes, v) || Hit(Numbered(m, k).linedges, v))
  }

  /** Every id below the total is issued by the PE whose range holds it. */
  lemma IdIssued(m: Machine, v: nat)
    requires Ready(m) && v < Total(m)
    ensures Issued(m, v)
  {
    PrefixSumLocate(Nuniqs(m), |m.pes|, v);
    var k :| 0 <= k < |m.pes| && PrefixSum(Nuniqs(m), k) <= v < PrefixSum(Nuniqs(m), k + 1);
    IssuedInRange(m, k, v);
  }

  lemma IssuedInRange(m: Machine, k: nat, v: nat)
    requires Ready(m) && k < |m.pes| && Start(m, k) <= v < Start(m, k + 1)
    ensures Hit(Numbered(m, k).linnodes, v) || Hit(Numbered(m, k).linedges, v)
  {
    var d := m.pes[k];
    ReorderLeavesNoGap(d.nodeset, d.edgeset, NodeCommunication(m, k), EdgeCommunication(m, k),
                       Start(m, k), m.edgeOrders[k]);
    OwnRange(m, k);
  }

  /** An issued id lies below the total. */
  lemma IssuedBelowTotal(m: Machine, v: nat)
    requires Ready(m) && Issued(m, v)
    ensures v < Total(m)
  {
    var k :| 0 <= k < |m.pes| && (Hit(Numbered(m, k).linnodes, v) || Hit(Numbered(m, k).linedges, v));
    IssuedByBelowEnd(m, k, v);
    BelowTotal(m, k, v);
  }

  /** An id PE k issues lies below the end of its range. */
  lemma IssuedByBelowEnd(m: Machine, k: nat, v: nat)
    requires Ready(m) && k < |m.pes|
    requires Hit(Numbered(m, k).linnodes, v) || Hit(Numbered(m, k).linedges, v)
    ensures v < Start(m, k + 1)
  {
    if Hit(Numbered(m, k).linnodes, v) {
      var x :| x in Numbered(m, k).linnodes && Numbered(m, k).linnodes[x] == v;
      NodeIdInRange(m, k, x);
    } else {
      var e :| e in Numbered(m, k).linedges && Numbered(m, k).linedges[e] == v;
      EdgeIdInRange(m, k, e);
    }
  }

  /** An id below the end of some PE's range is below the total. */
  lemma BelowTotal(m: Machine, k: nat, v: nat)
    requires Ready(m) && k < |m.pes| && v < Start(m, k + 1)
    ensures v < Total(m)
  {
    StartMono(m, k + 1, |m.pes|);
  }

  /** Together the PEs issue every id from 0 up to the total, and no other. */
  lemma IdsFillTotal(m: Machine)
    requires Ready(m)
    ensures forall v: nat :: Issued(m, v) <==> v < Total(m)
  {
    forall v: nat ensures Issued(m, v) <==> v < Total(m) {
      if v < Total(m) {
        IdIssued(m, v);
      }
      if Issued(m, v) {
        IssuedBelowTotal(m, v);
      }
    }
  }
}

=== FILE: Reorder.dfy ===
/**
 Where each PE starts numbering (offset) and how it numbers the nodes and
 edges it owns (reorder), in src/Inciter/Partitioner.h.
 */
module Reorder {
  import opened OrderedSets
  import opened Communication
  import opened ChareGraph

  /** The sum of nuniq over the PEs below `k`. */
  function PrefixSum(nuniq: seq<nat>, k: nat): nat
    requires k <= |nuniq|
  {
    if k == 0 then 0 else PrefixSum(nuniq, k - 1) + nuniq[k - 1]
  }

  /** Prefix sums never decrease, and the gap between two of them covers
      every PE in between. */
  lemma {:induction false} PrefixSumMono(nuniq: seq<nat>, j: nat, k: nat)
    requires j <= k <= |nuniq|
    ensures PrefixSum(nuniq, j) <= PrefixSum(nuniq, k)
    ensures j < k ==> PrefixSum(nuniq, j) + nuniq[j] <= PrefixSum(nuniq, k)
    decreases k - j
  {
    if j < k {
      PrefixSumMono(nuniq, j + 1, k);
    }
  }

  /** offset(p, u): the start accumulates the counts of the lower PEs, in the
      order their broadcasts arrive. */
  function Offset(msgs: seq<(nat, nat)>, me: nat): nat {
    if msgs == [] then 0
    else
      var last := msgs[|msgs| - 1];
      Offset(msgs[..|msgs| - 1], me) + (if last.0 < me then last.1 else 0)
  }

  /** The senders of the offset broadcasts. */
  function OffsetSenders(msgs: seq<(nat, nat)>): set<nat> {
    set i | 0 <= i < |msgs| :: msgs[i].0
  }

  /** Each PE broadcasts once, its own nuniq. */
  ghost predicate Broadcasts(msgs: seq<(nat, nat)>, nuniq: seq<nat>) {
    && (forall i :: 0 <= i < |msgs| ==> msgs[i].0 < |nuniq| && msgs[i].1 == nuniq[msgs[i].0])
    && (forall i, j :: 0 <= i < j < |msgs| ==> msgs[i].0 != msgs[j].0)
  }

  /** nuniq summed over the members of `s` below `k`. */
  function SumBelow(nuniq: seq<nat>, s: set<nat>, k: nat): nat
    requires k <= |nuniq|
  {
    if k == 0 then 0 else SumBelow(nuniq, s, k - 1) + (if k - 1 in s then nuniq[k - 1] else 0)
  }

  lemma {:induction false} SumBelowAdd(nuniq: seq<nat>, s: set<nat>, x: nat, k: nat)
    requires k <= |nuniq| && x !in s
    ensures SumBelow(nuniq, s + {x}, k) == SumBelow(nuniq, s, k) + (if x < k then nuniq[x] else 0)
    decreases k
  {
    if k > 0 {
      SumBelowAdd(nuniq, s, x, k - 1);
    }
  }

  lemma {:induction false} SumBelowNone(nuniq: seq<nat>, s: set<nat>, k: nat)
    requires k <= |nuniq| && s == {}
    ensures SumBelow(nuniq, s, k) == 0
    decreases k
  {
    if k > 0 {
      SumBelowNone(nuniq, s, k - 1);
    }
  }

  lemma {:induction false} SumBelowAll(nuniq: seq<nat>, s: set<nat>, k: nat)
    requires k <= |nuniq|
    requires forall p :: p < k ==> p in s
    ensures SumBelow(nuniq, s, k) == PrefixSum(nuniq, k)
    decreases k
  {
    if k > 0 {
      SumBelowAll(nuniq, s, k - 1);
    }
  }

  lemma {:induction false} OffsetSumsSenders(msgs: seq<(nat, nat)>, nuniq: seq<nat>, me: nat)
    requires Broadcasts(msgs, nuniq) && me <= |nuniq|
    ensures Offset(msgs, me) == SumBelow(nuniq, OffsetSenders(msgs), me)
    decreases |msgs|
  {
    if msgs != [] {
      var n := |msgs| - 1;
      var pre := msgs[..n];
      assert Broadcasts(pre, nuniq) by {
        assert forall i :: 0 <= i < n ==> pre[i] == msgs[i];
      }
      OffsetSumsSenders(pre, nuniq, me);
      assert OffsetSenders(msgs) == OffsetSenders(pre) + {msgs[n].0} by {
        assert forall i :: 0 <= i < n ==> pre[i] == msgs[i];
        forall p | p in OffsetSenders(msgs) ensures p in OffsetSenders(pre) + {msgs[n].0} {
          var i :| 0 <= i < |msgs| && msgs[i].0 == p;
          if i < n {
            assert pre[i].0 == p;
          }
        }
      }
      assert msgs[n].0 !in OffsetSenders(pre);
      assert msgs[n].1 == nuniq[msgs[n].0];
      SumBelowAdd(nuniq, OffsetSenders(pre), msgs[n].0, me);
    } else {
      SumBelowNone(nuniq, OffsetSenders(msgs), me);
    }
  }

  /** Once all npes broadcasts have arrived, in whatever order, the start of
      PE `me` is the sum of nuniq over the PEs below it. */
  lemma OffsetIsPrefixSum(msgs: seq<(nat, nat)>, nuniq: seq<nat>, me: nat)
    requires Broadcasts(msgs, nuniq) && me <= |nuniq|
    requires forall p :: p < |nuniq| ==> p in OffsetSenders(msgs)
    ensures Offset(msgs, me) == PrefixSum(nuniq, me)
  {
    OffsetSumsSenders(msgs, nuniq, me);
    SumBelowAll(nuniq, OffsetSenders(msgs), me);
  }

  /** No id occurs twice. */
  predicate Distinct<K(==)>(xs: seq<K>) {
    forall i, j :: 0 <= i < j < |xs| ==> xs[i] != xs[j]
  }

  /** How many of the first `i` ids are numbered by this PE. */
  function CountOwned<K(==)>(xs: seq<K>, received: set<K>, i: nat): nat
    requires i <= |xs|
  {
    if i == 0 then 0 else CountOwned(xs, received, i - 1) + (if xs[i - 1] in received then 0 else 1)
  }

  /** Some id is numbered `v`. */
  ghost predicate Hit<K(!new)>(m: map<K, nat>, v: nat) {
    exists x :: x in m && m[x] == v
  }

  /** The reorder loop over the first `n` ids of `xs`: every id that is not
      received from a lower PE gets the next new id, counting up from
      `next`. Returns the new ids and where the count stops. */
  function AssignUpTo<K(==,!new)>(xs: seq<K>, received: set<K>, next: nat, n: nat): (r: (map<K, nat>, nat))
    requires n <= |xs|
    ensures forall i :: 0 <= i < n && xs[i] !in received ==> xs[i] in r.0
    ensures r.1 == next + CountOwned(xs, received, n)
    decreases n
  {
    if n == 0 then (map[], next)
    else
      var x := xs[n - 1];
      var prev := AssignUpTo(xs, received, next, n - 1);
      if x in received then prev else (prev.0[x := prev.1], prev.1 + 1)
  }

  /** Only ids of the walked prefix that are not received get a new id. */
  lemma {:induction false} AssignUpToKeys<K(!new)>(xs: seq<K>, received: set<K>, next: nat, n: nat, x: K)
    requires n <= |xs| && x in AssignUpTo(xs, received, next, n).0
    ensures x !in received && exists i :: 0 <= i < n && xs[i] == x
    decreases n
  {
    if x != xs[n - 1] || xs[n - 1] in received {
      AssignUpToKeys(xs, received, next, n - 1, x);
    }
  }

  /** With distinct ids, one new id per owned id. */
  lemma {:induction false} AssignUpToSize<K(!new)>(xs: seq<K>, received: set<K>, next: nat, n: nat)
    requires Distinct(xs) && n <= |xs|
    ensures |AssignUpTo(xs, received, next, n).0| == CountOwned(xs, received, n)
    decreases n
  {
    if n > 0 {
      AssignUpToSize(xs, received, next, n - 1);
      var prev := AssignUpTo(xs, received, next, n - 1);
      if xs[n - 1] in prev.0 {
        AssignUpToKeys(xs, received, next, n - 1, xs[n - 1]);
        assert false;
      }
    }
  }

  /** The i-th id not received from a lower PE gets `next + i`. */
  lemma {:induction false} AssignUpToRank<K(!new)>(xs: seq<K>, received: set<K>, next: nat, n: nat, i: nat)
    requires Distinct(xs) && i < n <= |xs| && xs[i] !in received
    ensures AssignUpTo(xs, received, next, n).0[xs[i]] == next + CountOwned(xs, received, i)
    decreases n
  {
    if i < n - 1 {
      AssignUpToRank(xs, received, next, n - 1, i);
      assert xs[i] != xs[n - 1];
    }
  }

  /** The ids numbered by the reorder loop over all of `xs`: the i-th id not
      received from a lower PE gets `next + i`. */
  function Assign<K(==,!new)>(xs: seq<K>, received: set<K>, next: nat): (r: (map<K, nat>, nat))
    requires Distinct(xs)
    ensures forall x :: x in r.0 <==> x in xs && x !in received
    ensures forall i {:trigger r.0[xs[i]]} :: 0 <= i < |xs| && xs[i] !in received ==> r.0[xs[i]] == next + CountOwned(xs, received, i)
    ensures r.1 == next + CountOwned(xs, received, |xs|) == next + |r.0|
  {
    var r := AssignUpTo(xs, received, next, |xs|);
    forall x | x in r.0 ensures x in xs && x !in received {
      AssignUpToKeys(xs, received, next, |xs|, x);
    }
    forall i | 0 <= i < |xs| && xs[i] !in received
      ensures r.0[xs[i]] == next + CountOwned(xs, received, i)
    {
      AssignUpToRank(xs, received, next, |xs|, i);
    }
    AssignUpToSize(xs, received, next, |xs|);
    r
  }

  lemma {:induction false} CountOwnedMono<K>(xs: seq<K>, received: set<K>, i: nat, j: nat)
    requires i < j <= |xs|
    ensures CountOwned(xs, received, i) + (if xs[i] in received then 0 else 1) <= CountOwned(xs, received, j)
    decreases j - i
  {
    if i + 1 < j {
      CountOwnedMono(xs, received, i + 1, j);
    }
  }

  lemma {:induction false} CountOwnedHits<K>(xs: seq<K>, received: set<K>, n: nat, c: nat)
    requires n <= |xs| && c < CountOwned(xs, received, n)
    ensures exists i :: 0 <= i < n && xs[i] !in received && CountOwned(xs, received, i) == c
    decreases n
  {
    if c < CountOwned(xs, received, n - 1) {
      CountOwnedHits(xs, received, n - 1, c);
    }
  }

  /** The new ids lie in [next, next + count). */
  lemma AssignWithinRange<K(!new)>(xs: seq<K>, received: set<K>, next: nat)
    requires Distinct(xs)
    ensures var r := Assign(xs, received, next);
      forall x :: x in r.0 ==> next <= r.0[x] < r.1
  {
    var r := Assign(xs, received, next);
    forall i | 0 <= i < |xs| && xs[i] in r.0 ensures r.0[xs[i]] < r.1 {
      CountOwnedMono(xs, received, i, |xs|);
    }
  }

  /** The new ids follow the order of `xs`. */
  lemma AssignFollowsOrder<K(!new)>(xs: seq<K>, received: set<K>, next: nat)
    requires Distinct(xs)
    ensures var r := Assign(xs, received, next);
      forall i, j :: 0 <= i < j < |xs| && xs[i] in r.0 && xs[j] in r.0 ==> r.0[xs[i]] < r.0[xs[j]]
  {
    var r := Assign(xs, received, next);
    forall i, j | 0 <= i < j < |xs| && xs[i] in r.0 && xs[j] in r.0 ensures r.0[xs[i]] < r.0[xs[j]] {
      CountOwnedMono(xs, received, i, j);
    }
  }

  /** No new id is given twice. */
  lemma AssignInjective<K(!new)>(xs: seq<K>, received: set<K>, next: nat)
    requires Distinct(xs)
    ensures var r := Assign(xs, received, next);
      forall x, y :: x in r.0 && y in r.0 && x != y ==> r.0[x] != r.0[y]
  {
    var r := Assign(xs, received, next);
    forall x, y | x in r.0 && y in r.0 && x != y ensures r.0[x] != r.0[y] {
      var i, j := IndexOf(xs, x), IndexOf(xs, y);
      if i < j {
        AssignPairOrder(xs, received, next, i, j);
      } else {
        AssignPairOrder(xs, received, next, j, i);
      }
    }
  }

  /** Every id of [next, next + count) is given. */
  lemma AssignLeavesNoGap<K(!new)>(xs: seq<K>, received: set<K>, next: nat)
    requires Distinct(xs)
    ensures var r := Assign(xs, received, next);
      forall v :: next <= v < r.1 ==> Hit(r.0, v)
  {
    var r := Assign(xs, received, next);
    forall v | next <= v < r.1 ensures Hit(r.0, v) {
      CountOwnedHits(xs, received, |xs|, v - next);
      var i :| 0 <= i < |xs| && xs[i] !in received && CountOwned(xs, received, i) == v - next;
      assert r.0[xs[i]] == v;
    }
  }

  /** What reorder leaves on a PE. */
  datatype Numbering = Numbering(linnodes: map<nat, nat>, linedges: map<MeshEdge, nat>, next: nat)

  /** The edge walk lists every edge of the set once. */
  ghost predicate WalksEdges(edgeOrder: seq<MeshEdge>, edgeset: set<MeshEdge>) {
    Distinct(edgeOrder) && forall e :: e in edgeOrder <==> e in edgeset
  }

  /** The communication entries only hold local ids. */
  ghost predicate CommWithin<K(!new)>(comm: map<nat, set<K>>, local: set<K>) {
    forall p :: p in comm ==> comm[p] <= local
  }

  /** reorder: from `start`, the nodes this PE owns (those in no entry of its
      communication map) get consecutive new ids in ascending old-id order,
      then its owned edges, in the order the edge set is walked. The count
      stops after nuniq ids. */
  function ReorderOwned(nodeset: set<nat>, edgeset: set<MeshEdge>,
                        ncomm: map<nat, set<nat>>, ecomm: map<nat, set<MeshEdge>>,
                        start: nat, edgeOrder: seq<MeshEdge>): (r: Numbering)
    requires CommWithin(ncomm, nodeset) && CommWithin(ecomm, edgeset)
    requires WalksEdges(edgeOrder, edgeset)
    ensures r.linnodes.Keys == nodeset - Union(ncomm)
    ensures r.linedges.Keys == edgeset - Union(ecomm)
    ensures r.next == start + Owned(nodeset, edgeset, ncomm, ecomm)
  {
    var nodes := Assign(Ascending(nodeset), Union(ncomm), start);
    AssignCovers(Ascending(nodeset), Union(ncomm), start, nodeset);
    var edges := Assign(edgeOrder, Union(ecomm), nodes.1);
    AssignCovers(edgeOrder, Union(ecomm), nodes.1, edgeset);
    Numbering(nodes.0, edges.0, edges.1)
  }

  /** Walking a list of the ids of a set numbers the set's ids that were not
      received, one new id each. */
  lemma AssignCovers<K(!new)>(xs: seq<K>, received: set<K>, next: nat, s: set<K>)
    requires Distinct(xs) && forall x :: x in xs <==> x in s
    ensures Assign(xs, received, next).0.Keys == s - received
    ensures Assign(xs, received, next).1 == next + |s - received|
  {
    var r := Assign(xs, received, next);
    assert r.0.Keys == s - received;
  }

  /** The owned nodes get [start, start + their count) in ascending old-id
      order. */
  lemma ReorderNodeIds(nodeset: set<nat>, edgeset: set<MeshEdge>,
                       ncomm: map<nat, set<nat>>, ecomm: map<nat, set<MeshEdge>>,
                       start: nat, edgeOrder: seq<MeshEdge>)
    requires CommWithin(ncomm, nodeset) && CommWithin(ecomm, edgeset)
    requires WalksEdges(edgeOrder, edgeset)
    ensures var r := ReorderOwned(nodeset, edgeset, ncomm, ecomm, start, edgeOrder);
      forall x :: x in r.linnodes ==> start <= r.linnodes[x] < start + |r.linnodes|
    ensures var r := ReorderOwned(nodeset, edgeset, ncomm, ecomm, start, edgeOrder);
      forall x, y :: x in r.linnodes && y in r.linnodes && x < y ==> r.linnodes[x] < r.linnodes[y]
  {
    var order := Ascending(nodeset);
    var nodes := Assign(order, Union(ncomm), start);
    assert ReorderOwned(nodeset, edgeset, ncomm, ecomm, start, edgeOrder).linnodes == nodes.0;
    AssignWithinRange(order, Union(ncomm), start);
    AssignKeepsOrder(order, Union(ncomm), start);
  }

  /** Strictly increasing ids. */
  ghost predicate Increasing(xs: seq<nat>) {
    forall i, j :: 0 <= i < j < |xs| ==> xs[i] < xs[j]
  }

  /** Numbering ids walked in increasing order keeps their order. */
  lemma AssignKeepsOrder(xs: seq<nat>, received: set<nat>, next: nat)
    requires Distinct(xs) && Increasing(xs)
    ensures var r := Assign(xs, received, next);
      forall x, y :: x in r.0 && y in r.0 && x < y ==> r.0[x] < r.0[y]
  {
    var r := Assign(xs, received, next);
    forall x, y | x in r.0 && y in r.0 && x < y ensures r.0[x] < r.0[y] {
      var i, j := IndexOf(xs, x), IndexOf(xs, y);
      IncreasingIndices(xs, i, j);
      AssignPairOrder(xs, received, next, i, j);
    }
  }

  /** The position of an id in a sequence holding it. */
  ghost function IndexOf<K>(xs: seq<K>, x: K): (i: nat)
    requires x in xs
    ensures i < |xs| && xs[i] == x
  {
    var i :| 0 <= i < |xs| && xs[i] == x; i
  }

  /** In an increasing sequence the smaller id sits earlier. */
  lemma IncreasingIndices(xs: seq<nat>, i: nat, j: nat)
    requires Increasing(xs) && i < |xs| && j < |xs| && xs[i] < xs[j]
    ensures i < j
  {
  }

  /** Of two owned ids, the one walked first gets the smaller new id. */
  lemma AssignPairOrder<K(!new)>(xs: seq<K>, received: set<K>, next: nat, i: nat, j: nat)
    requires Distinct(xs) && i < j < |xs| && xs[i] !in received && xs[j] !in received
    ensures xs[i] in Assign(xs, received, next).0 && xs[j] in Assign(xs, received, next).0
    ensures Assign(xs, received, next).0[xs[i]] < Assign(xs, received, next).0[xs[j]]
  {
    CountOwnedMono(xs, received, i, j);
  }

  /** The owned edges get distinct ids after the nodes', up to the end of
      the count. */
  lemma ReorderEdgeIds(nodeset: set<nat>, edgeset: set<MeshEdge>,
                       ncomm: map<nat, set<nat>>, ecomm: map<nat, set<MeshEdge>>,
                       start: nat, edgeOrder: seq<MeshEdge>)
    requires CommWithin(ncomm, nodeset) && CommWithin(ecomm, edgeset)
    requires WalksEdges(edgeOrder, edgeset)
    ensures var r := ReorderOwned(nodeset, edgeset, ncomm, ecomm, start, edgeOrder);
      forall e :: e in r.linedges ==> start + |r.linnodes| <= r.linedges[e] < r.next
    ensures var r := ReorderOwned(nodeset, edgeset, ncomm, ecomm, start, edgeOrder);
      forall e, f :: e in r.linedges && f in r.linedges && e != f ==> r.linedges[e] != r.linedges[f]
  {
    var nodes := Assign(Ascending(nodeset), Union(ncomm), start);
    var edges := Assign(edgeOrder, Union(ecomm), nodes.1);
    assert ReorderOwned(nodeset, edgeset, ncomm, ecomm, start, edgeOrder)
        == Numbering(nodes.0, edges.0, edges.1);
    AssignWithinRange(edgeOrder, Union(ecomm), nodes.1);
    AssignInjective(edgeOrder, Union(ecomm), nodes.1);
  }

  /** Every id in [start, next) goes to a node or an edge: the range has no
      gap. */
  lemma ReorderLeavesNoGap(nodeset: set<nat>, edgeset: set<MeshEdge>,
                           ncomm: map<nat, set<nat>>, ecomm: map<nat, set<MeshEdge>>,
                           start: nat, edgeOrder: seq<MeshEdge>)
    requires CommWithin(ncomm, nodeset) && CommWithin(ecomm, edgeset)
    requires WalksEdges(edgeOrder, edgeset)
    ensures var r := ReorderOwned(nodeset, edgeset, ncomm, ecomm, start, edgeOrder);
      forall v :: start <= v < r.next ==> Hit(r.linnodes, v) || Hit(r.linedges, v)
  {
    var nodes := Assign(Ascending(nodeset), Union(ncomm), start);
    var edges := Assign(edgeOrder, Union(ecomm), nodes.1);
    assert ReorderOwned(nodeset, edgeset, ncomm, ecomm, start, edgeOrder)
        == Numbering(nodes.0, edges.0, edges.1);
    AssignLeavesNoGap(Ascending(nodeset), Union(ncomm), start);
    AssignLeavesNoGap(edgeOrder, Union(ecomm), nodes.1);
  }
}

=== FILE: TetStore.dfy ===
/**
 The tet store: tetrahedra keyed by id, composed with the edge store, the
 master element store, the active set, the 1:4 centre list and the pending
 refinement marks (src/Inciter/AMR/tet_store.h). The active element store
 and the marked refinements store are not part of this model; they are a set
 and a map here.
 */
module TetStore {
  import opened AmrTypes
  import opened OrderedSets
  import ES = EdgeStore
  import MES = MasterElementStore

  datatype TetStore = TetStore(
    tets: map<nat, Tet>,
    edges: ES.Store,
    master: MES.Store,
    active: set<nat>,
    centers: set<nat>,
    marks: map<nat, RefinementCase>)

  /** size: the number of stored tets. */
  function Size(ts: TetStore): nat {
    |ts.tets|
  }

  /** is_active. */
  predicate IsActive(ts: TetStore, id: nat) {
    id in ts.active
  }

  /** data: the master record, which must exist. */
  function Data(ts: TetStore, id: nat): MES.RefinementState
    requires id in ts.master
  {
    MES.Get(ts.master, id)
  }

  /** get_refinement_case. */
  function GetRefinementCase(ts: TetStore, id: nat): RefinementCase
    requires id in ts.master
  {
    Data(ts, id).refinementCase
  }

  /** exists. */
  predicate Exists(ts: TetStore, id: nat) {
    id in ts.tets
  }

  /** get: a copy of a stored tet. */
  function Get(ts: TetStore, id: nat): Tet
    requires Exists(ts, id)
  {
    ts.tets[id]
  }

  /** insert: the id must be new; only the tet map changes. */
  function Insert(ts: TetStore, id: nat, t: Tet): (r: TetStore)
    requires !Exists(ts, id)
    ensures Exists(r, id) && Get(r, id) == t
    ensures r.tets.Keys == ts.tets.Keys + {id}
    ensures forall k :: k in ts.tets ==> r.tets[k] == ts.tets[k]
    ensures r == ts.(tets := r.tets)
  {
    ts.(tets := ts.tets[id := t])
  }

  /** store_tet: insert, and the four node ids must be pairwise distinct. */
  function StoreTet(ts: TetStore, id: nat, t: Tet): (r: TetStore)
    requires !Exists(ts, id)
    requires DistinctNodes(t)
    ensures Exists(r, id) && Get(r, id) == t
    ensures r.tets.Keys == ts.tets.Keys + {id}
    ensures forall k :: k in ts.tets ==> r.tets[k] == ts.tets[k]
    ensures r == ts.(tets := r.tets)
  {
    Insert(ts, id, t)
  }

  /** add(id, nodes, case), and add(nodes, case) with the id the generator
      hands out: the tet is stored, recorded in the master store at level 0
      with parent 0 (unless a record already exists), and active. */
  function Add(ts: TetStore, id: nat, t: Tet, c: RefinementCase): (r: TetStore)
    requires !Exists(ts, id)
    requires DistinctNodes(t)
    ensures Exists(r, id) && Get(r, id) == t
    ensures r.tets.Keys == ts.tets.Keys + {id}
    ensures forall k :: k in ts.tets ==> r.tets[k] == ts.tets[k]
    ensures r.master.Keys == ts.master.Keys + {id}
    ensures id !in ts.master ==>
      r.master[id] == MES.NewState(id, c, 0, 0)
    ensures forall k :: k in ts.master ==> r.master[k] == ts.master[k]
    ensures r.active == ts.active + {id}
    ensures r.edges == ts.edges && r.centers == ts.centers && r.marks == ts.marks
  {
    var stored := StoreTet(ts, id, t);
    stored.(master := MES.Add(stored.master, id, c, 0, 0).0,
            active := stored.active + {id})
  }

  /** The master store after `id` was added to it by `Add`. */
  function MasterAfterAdd(ts: TetStore, id: nat, c: RefinementCase): MES.Store {
    MES.Add(ts.master, id, c, 0, 0).0
  }

  /** add(id, nodes, case, parent) as written: the child is added exactly as a
      root is (level 0, parent 0), then appended to the parent's children and
      counted; the new count must not exceed 8. */
  function AddChild(ts: TetStore, id: nat, t: Tet, c: RefinementCase, parent: nat): (r: TetStore)
    requires !Exists(ts, id)
    requires DistinctNodes(t)
    requires parent in MasterAfterAdd(ts, id, c)
    requires MasterAfterAdd(ts, id, c)[parent].numChildren + 1 <= 8
    ensures Exists(r, id) && Get(r, id) == t && id in r.active
    ensures r.master.Keys == ts.master.Keys + {id}
    ensures var before := MasterAfterAdd(ts, id, c)[parent];
      && r.master[parent].children == before.children + [id]
      && r.master[parent].numChildren == before.numChildren + 1
      && r.master[parent].numChildren <= 8
      && r.master[parent].elementId == before.elementId
      && r.master[parent].refinementCase == before.refinementCase
      && r.master[parent].level == before.level
      && r.master[parent].parentId == before.parentId
    ensures id !in ts.master && id != parent ==> r.master[id] == MES.NewState(id, c, 0, 0)
    ensures forall k :: k in ts.master && k != parent ==> r.master[k] == ts.master[k]
    ensures r.tets.Keys == ts.tets.Keys + {id}
    ensures forall k :: k in ts.tets ==> r.tets[k] == ts.tets[k]
    ensures r.active == ts.active + {id}
    ensures r.edges == ts.edges && r.centers == ts.centers && r.marks == ts.marks
  {
    var added := Add(ts, id, t, c);
    var p := added.master[parent];
    added.(master := added.master[parent := p.(children := p.children + [id],
                                               numChildren := p.numChildren + 1)])
  }

  /** The recorded level of a child added by `AddChild` is 0 whatever the
      parent's level: the lineage invariant level(child) = level(parent) + 1
      does not hold for it. */
  lemma AddChildLosesLevel(ts: TetStore, id: nat, t: Tet, c: RefinementCase, parent: nat)
    requires !Exists(ts, id) && DistinctNodes(t)
    requires id !in ts.master && parent in ts.master
    requires ts.master[parent].numChildren + 1 <= 8
    ensures AddChild(ts, id, t, c, parent).master[id].level != ts.master[parent].level + 1
    ensures AddChild(ts, id, t, c, parent).master[id].parentId == 0
  {
  }

  /** add(id, nodes, case, parent) with the lineage recorded through the
      master store's add(element, case, parent): the child sits one level
      below its parent and names it. */
  function AddChildAtLevel(ts: TetStore, id: nat, t: Tet, c: RefinementCase, parent: nat): (r: TetStore)
    requires !Exists(ts, id)
    requires DistinctNodes(t)
    requires parent in ts.master && parent != id
    requires ts.master[parent].numChildren + 1 <= 8
    ensures Exists(r, id) && Get(r, id) == t && id in r.active
    ensures r.master.Keys == ts.master.Keys + {id}
    ensures r.master[parent].children == ts.master[parent].children + [id]
    ensures r.master[parent].numChildren == ts.master[parent].numChildren + 1
    ensures var before := ts.master[parent];
      && r.master[parent].elementId == before.elementId
      && r.master[parent].refinementCase == before.refinementCase
      && r.master[parent].level == before.level
      && r.master[parent].parentId == before.parentId
    ensures id !in ts.master ==> r.master[id] == MES.NewState(id, c, ts.master[parent].level + 1, parent)
    ensures forall k :: k in ts.master && k != parent ==> r.master[k] == ts.master[k]
    ensures r.tets.Keys == ts.tets.Keys + {id}
    ensures forall k :: k in ts.tets ==> r.tets[k] == ts.tets[k]
    ensures r.active == ts.active + {id}
    ensures r.edges == ts.edges && r.centers == ts.centers && r.marks == ts.marks
  {
    var stored := StoreTet(ts, id, t);
    var m := MES.AddChild(stored.master, id, c, parent).0;
    var p := m[parent];
    stored.(master := m[parent := p.(children := p.children + [id],
                                     numChildren := p.numChildren + 1)],
            active := stored.active + {id})
  }

  /** The as-written and the corrected add differ only in the new child's
      record: same tets, active set, edges, marks and centres, and the same
      parent record; the corrected one records the child one level below its
      parent and names it. */
  lemma AddChildVariantsDifferInLineage(ts: TetStore, id: nat, t: Tet, c: RefinementCase, parent: nat)
    requires !Exists(ts, id) && DistinctNodes(t)
    requires id !in ts.master && parent in ts.master && parent != id
    requires ts.master[parent].numChildren + 1 <= 8
    ensures var a, b := AddChild(ts, id, t, c, parent), AddChildAtLevel(ts, id, t, c, parent);
      && a.tets == b.tets && a.active == b.active
      && a.edges == b.edges && a.marks == b.marks && a.centers == b.centers
      && a.master.Keys == b.master.Keys
      && (forall k :: k in a.master && k != id ==> a.master[k] == b.master[k])
      && b.master[id] == a.master[id].(level := ts.master[parent].level + 1, parentId := parent)
  {
    var a, b := AddChild(ts, id, t, c, parent), AddChildAtLevel(ts, id, t, c, parent);
    assert a.tets == b.tets;
    assert a.master[parent] == b.master[parent];
  }

  /** deactivate: only active-set membership changes. */
  function Deactivate(ts: TetStore, id: nat): (r: TetStore)
    ensures !IsActive(r, id)
    ensures r.active == ts.active - {id}
    ensures r == ts.(active := r.active)
  {
    ts.(active := ts.active - {id})
  }

  /** activate: adds the id to the active set if it is not there yet. */
  function Activate(ts: TetStore, id: nat): (r: TetStore)
    ensures IsActive(r, id)
    ensures r.active == ts.active + {id}
    ensures r == ts.(active := r.active)
  {
    if !IsActive(ts, id) then ts.(active := ts.active + {id}) else ts
  }

  /** Activating twice is activating once; deactivating keeps the tet's data. */
  lemma ActivateIdempotent(ts: TetStore, id: nat)
    ensures Activate(Activate(ts, id), id) == Activate(ts, id)
    ensures Exists(ts, id) ==> Get(Deactivate(ts, id), id) == Get(ts, id)
    ensures id in ts.master ==> Data(Deactivate(ts, id), id) == Data(ts, id)
  {
  }

  /** Deactivating then activating an active tet restores the store. */
  lemma DeactivateActivateRoundTrip(ts: TetStore, id: nat)
    requires IsActive(ts, id)
    ensures Activate(Deactivate(ts, id), id) == ts
  {
    assert (ts.active - {id}) + {id} == ts.active;
  }

  /** erase: the id leaves the active set, the master store and the tet map.
      Its edges and its parent's child list are left alone. */
  function Erase(ts: TetStore, id: nat): (r: TetStore)
    ensures !Exists(r, id) && !IsActive(r, id) && id !in r.master
    ensures r.tets.Keys == ts.tets.Keys - {id}
    ensures r.master.Keys == ts.master.Keys - {id}
    ensures r.active == ts.active - {id}
    ensures forall k :: k in r.tets ==> r.tets[k] == ts.tets[k]
    ensures forall k :: k in r.master ==> r.master[k] == ts.master[k]
    ensures r.edges == ts.edges && r.centers == ts.centers && r.marks == ts.marks
  {
    var d := Deactivate(ts, id);
    d.(master := MES.Erase(d.master, id), tets := d.tets - {id})
  }
  /** Erasing a tet that was just added, under an id the store knew nothing
      of, restores the store. */
  lemma EraseUndoesAdd(ts: TetStore, id: nat, t: Tet, c: RefinementCase)
    requires !Exists(ts, id) && DistinctNodes(t)
    requires id !in ts.master && id !in ts.active
    ensures Erase(Add(ts, id, t, c), id) == ts
  {
    assert (ts.active + {id}) - {id} == ts.active;
    assert (ts.tets[id := t]) - {id} == ts.tets;
  }


  /** is_center. */
  predicate IsCenter(ts: TetStore, id: nat) {
    id in ts.centers
  }

  /** add_center: the id must not be a centre yet. */
  function AddCenter(ts: TetStore, id: nat): (r: TetStore)
    requires !IsCenter(ts, id)
    ensures IsCenter(r, id)
    ensures r.centers == ts.centers + {id}
    ensures r == ts.(centers := r.centers)
  {
    ts.(centers := ts.centers + {id})
  }

  /** generate_edge_keys: the six keys of a stored tet. */
  function GenerateEdgeKeys(ts: TetStore, id: nat): (keys: seq<EdgeKey>)
    requires Exists(ts, id)
    ensures |keys| == 6
    ensures forall k :: 0 <= k < 6 ==>
      keys[k] == ES.NodesToKey(Get(ts, id)[ES.TET_EDGES[k].0], Get(ts, id)[ES.TET_EDGES[k].1])
  {
    ES.GenerateKeys(Get(ts, id))
  }

  /** The six keys are exactly the keys of the stored tet's node pairs. */
  lemma GenerateEdgeKeysArePairs(ts: TetStore, id: nat)
    requires Exists(ts, id)
    ensures var t := Get(ts, id);
      forall k :: k in GenerateEdgeKeys(ts, id) <==>
        exists i, j :: 0 <= i < j < 4 && k == ES.NodesToKey(t[i], t[j])
  {
    ES.GenerateKeysArePairs(Get(ts, id));
  }

  /** The tet with the node at position `i` left out. */
  function Omit(t: Tet, i: nat): Face
    requires i < 4
  {
    t[..i] + t[i + 1..]
  }

  /** generate_face_lists: faces ABC, ABD, ACD, BCD; face k leaves out node 3 - k. */
  function GenerateFaceLists(ts: TetStore, id: nat): (faces: seq<Face>)
    requires Exists(ts, id)
    ensures |faces| == 4
    ensures forall k :: 0 <= k < 4 ==> faces[k] == Omit(Get(ts, id), 3 - k)
  {
    var t := Get(ts, id);
    [[t[0], t[1], t[2]], [t[0], t[1], t[3]], [t[0], t[2], t[3]], [t[1], t[2], t[3]]]
  }

  /** Position in the tet of node `p` of face `f` (face f leaves out node 3 - f). */
  function FacePos(f: nat, p: nat): nat {
    if p < 3 - f then p else p + 1
  }

  /** The key of nodes i < j of a tet is among its six keys. */
  lemma PairKeyInTet(t: Tet, i: nat, j: nat)
    requires i < j < 4
    ensures ES.NodesToKey(t[i], t[j]) in ES.GenerateKeys(t)
  {
    var m := if i == 0 then j - 1 else if i == 1 then j + 1 else 5;
    assert ES.TET_EDGES[m] == (i, j);
    assert ES.GenerateKeys(t)[m] == ES.NodesToKey(t[i], t[j]);
  }

  /** Edge k of face f of a tet is one of the tet's keys. */
  lemma FaceEdgeInTet(t: Tet, f: nat, k: nat)
    requires f < 4 && k < 3
    ensures ES.GenerateKeysFromFaceIds(Omit(t, 3 - f))[k] in ES.GenerateKeys(t)
  {
    var face := Omit(t, 3 - f);
    var p := ES.FACE_EDGES[k];
    assert face[p.0] == t[FacePos(f, p.0)] && face[p.1] == t[FacePos(f, p.1)];
    PairKeyInTet(t, FacePos(f, p.0), FacePos(f, p.1));
  }

  /** Every edge of every face of a tet is one of the tet's six edges. */
  lemma FaceEdgesAreTetEdges(ts: TetStore, id: nat)
    requires Exists(ts, id)
    ensures forall f, k :: 0 <= f < 4 && 0 <= k < 3 ==>
      ES.GenerateKeysFromFaceIds(GenerateFaceLists(ts, id)[f])[k] in GenerateEdgeKeys(ts, id)
  {
    var t := Get(ts, id);
    var faces := GenerateFaceLists(ts, id);
    forall f, k | 0 <= f < 4 && 0 <= k < 3
      ensures ES.GenerateKeysFromFaceIds(faces[f])[k] in GenerateEdgeKeys(ts, id)
    {
      assert faces[f] == Omit(t, 3 - f);
      FaceEdgeInTet(t, f, k);
    }
  }

  /** The edge generate_edges stores for a key: the key's nodes, criterion 0,
      flags clear, unlocked. */
  function UnlockedEdge(k: EdgeKey): ES.Edge {
    ES.NewEdge(k.lo, k.hi, Unlocked)
  }

  /** Adds an unlocked edge for each key, keeping edges already stored. */
  function AddUnlocked(s: ES.Store, keys: seq<EdgeKey>): (r: ES.Store)
    ensures r.Keys == s.Keys + set k | k in keys
    ensures forall k :: k in s ==> r[k] == s[k]
    ensures forall k :: k in r && k !in s ==> r[k] == UnlockedEdge(k)
    decreases |keys|
  {
    if keys == [] then s
    else AddUnlocked(ES.Add(s, keys[0], UnlockedEdge(keys[0])), keys[1..])
  }

  /** generate_edges(id): the six edges of a stored tet, added unlocked. */
  function GenerateEdgesOf(ts: TetStore, id: nat): (r: TetStore)
    requires Exists(ts, id)
    ensures r.edges.Keys == ts.edges.Keys + set k | k in GenerateEdgeKeys(ts, id)
    ensures forall k :: k in ts.edges ==> r.edges[k] == ts.edges[k]
    ensures forall k :: k in r.edges && k !in ts.edges ==> r.edges[k].lockCase == Unlocked
    ensures r == ts.(edges := r.edges)
  {
    ts.(edges := AddUnlocked(ts.edges, GenerateEdgeKeys(ts, id)))
  }

  /** All edge keys of the stored tets among `ids`. */
  function KeysOfTets(tets: map<nat, Tet>, ids: set<nat>): set<EdgeKey> {
    set id, k | id in ids && id in tets && k in ES.GenerateKeys(tets[id]) :: k
  }

  lemma KeysOfTetsAddOne(tets: map<nat, Tet>, done: set<nat>, id: nat)
    requires id in tets
    ensures KeysOfTets(tets, done + {id}) ==
            KeysOfTets(tets, done) + set k | k in ES.GenerateKeys(tets[id])
  {
  }

  /** generate_edges(): clears the edge store and regenerates the edges of
      every stored tet in ascending id order. Afterwards the store holds
      exactly the tets' edge keys, each unlocked with flags clear. */
  method GenerateEdges(ts: TetStore) returns (r: TetStore)
    ensures r.edges.Keys == KeysOfTets(ts.tets, ts.tets.Keys)
    ensures forall k :: k in r.edges ==> r.edges[k] == UnlockedEdge(k)
    ensures r == ts.(edges := r.edges)
  {
    r := ts.(edges := map[]);
    var todo := ts.tets.Keys;
    while todo != {}
      invariant todo <= ts.tets.Keys
      invariant r.edges.Keys == KeysOfTets(ts.tets, ts.tets.Keys - todo)
      invariant forall k :: k in r.edges ==> r.edges[k] == UnlockedEdge(k)
      invariant r == ts.(edges := r.edges)
      decreases todo
    {
      var id := Least(todo);
      KeysOfTetsAddOne(ts.tets, ts.tets.Keys - todo, id);
      assert (ts.tets.Keys - todo) + {id} == ts.tets.Keys - (todo - {id});
      r := GenerateEdgesOf(r, id);
      todo := todo - {id};
    }
  }

  lemma StillStored(s: ES.Store, r: ES.Store, keys: seq<EdgeKey>)
    requires r.Keys == s.Keys && keys != []
    requires forall i :: 0 <= i < |keys| ==> ES.Exists(s, keys[i])
    ensures forall i :: 0 <= i < |keys[1..]| ==> ES.Exists(r, keys[1..][i])
  {
    forall i | 0 <= i < |keys[1..]| ensures ES.Exists(r, keys[1..][i]) {
      assert keys[1..][i] == keys[i + 1];
      assert keys[i + 1] in s.Keys;
    }
  }

  /** Marks every listed key, each of which must be stored. */
  function MarkKeys(s: ES.Store, keys: seq<EdgeKey>): (r: ES.Store)
    requires forall i :: 0 <= i < |keys| ==> ES.Exists(s, keys[i])
    ensures r.Keys == s.Keys
    ensures forall k :: k in r ==>
      r[k] == if k in keys then s[k].(needsRefining := true) else s[k]
    decreases |keys|
  {
    if keys == [] then s
    else
      var marked := ES.MarkForRefinement(s, keys[0]);
      StillStored(s, marked, keys);
      MarkKeys(marked, keys[1..])
  }

  /** mark_edges_for_refinement(id): all six edges of a stored tet are marked;
      each must exist. */
  function MarkEdgesForRefinement(ts: TetStore, id: nat): (r: TetStore)
    requires Exists(ts, id)
    requires forall k :: k in GenerateEdgeKeys(ts, id) ==> ES.Exists(ts.edges, k)
    ensures r.edges.Keys == ts.edges.Keys
    ensures forall k :: k in GenerateEdgeKeys(ts, id) ==>
      k in r.edges && r.edges[k].needsRefining &&
      r.edges[k] == ts.edges[k].(needsRefining := true)
    ensures forall k :: k in r.edges && k !in GenerateEdgeKeys(ts, id) ==> r.edges[k] == ts.edges[k]
    ensures r == ts.(edges := r.edges)
  {
    ts.(edges := MarkKeys(ts.edges, GenerateEdgeKeys(ts, id)))
  }

  /** Marking a tet's edges a second time changes nothing. */
  lemma MarkEdgesForRefinementIdempotent(ts: TetStore, id: nat)
    requires Exists(ts, id)
    requires forall k :: k in GenerateEdgeKeys(ts, id) ==> ES.Exists(ts.edges, k)
    ensures var r := MarkEdgesForRefinement(ts, id);
      MarkEdgesForRefinement(r, id) == r
  {
    var r := MarkEdgesForRefinement(ts, id);
    assert Get(r, id) == Get(ts, id);
    var r2 := MarkEdgesForRefinement(r, id);
    assert r2.edges == r.edges;
  }

  /** mark_one_to_two, mark_one_to_four, mark_one_to_eight, mark_two_to_eight
      and mark_four_to_eight: record the pending refinement case of a tet. */
  function Mark(ts: TetStore, id: nat, c: RefinementCase): (r: TetStore)
    ensures HasRefinementDecision(r, id) && r.marks[id] == c
    ensures forall k :: k in ts.marks && k != id ==> k in r.marks && r.marks[k] == ts.marks[k]
    ensures r.marks.Keys == ts.marks.Keys + {id}
    ensures r == ts.(marks := r.marks)
  {
    ts.(marks := ts.marks[id := c])
  }

  /** has_refinement_decision. */
  predicate HasRefinementDecision(ts: TetStore, id: nat) {
    id in ts.marks
  }

  /** unset_marked_children: drops the pending marks of the parent's children. */
  function UnsetMarkedChildren(ts: TetStore, parent: nat): (r: TetStore)
    requires parent in ts.master
    ensures forall c :: c in Data(ts, parent).children ==> !HasRefinementDecision(r, c)
    ensures forall k :: k in ts.marks && k !in Data(ts, parent).children ==>
      k in r.marks && r.marks[k] == ts.marks[k]
    ensures r.marks.Keys <= ts.marks.Keys
    ensures r == ts.(marks := r.marks)
  {
    ts.(marks := ts.marks - set c | c in Data(ts, parent).children)
  }
}

=== FILE: Wrappers.dfy ===
/** Failure-compatible result type used where the modelled code aborts. */
module Wrappers {

  /** Either a value or the reason the operation stopped. */
  datatype Result<+T, +E> = Ok(value: T) | Err(error: E) {

    predicate IsFailure() {
      Err?
    }

    function PropagateFailure<U>(): Result<U, E>
      requires Err?
    {
      Err(error)
    }

    function Extract(): T
      requires Ok?
    {
      value
    }
  }
}
